=== FILE: README.md ===
# NovaLM core in Dafny

This project models the request path of NovaLM, an OpenAI-compatible chat
server that can run as a tool-using agent. The model covers the following.

- **Middleware.** The API-key and rate-limit middleware that guard the server.
- **Request data model.** Chat messages, sampling parameters with their
  execution-mode presets, requests and response chunks.
- **Prompt assembly.** How the orchestrator builds a prompt from the
  transcript, retrieved documents, past experiences and tool descriptions.
- **The step loop of `handle_chat`.** Each step runs these stages in order:
  1. the input safety filter;
  2. the response cache;
  3. streaming from the inference engine, with the output check;
  4. detection of a tool call in the model's answer;
  5. the four tools (Python execution, file access, a whitelisted shell, a
     PDF reader);
  6. self-correction, which runs the generated code against the request's
     test code through the evaluator.
- **Structured output.** The parser and the ten role-output records it
  validates against.
- **Engines.** The vLLM and mock inference engines and the factory that
  picks one.

Everything the server hands to code outside the core is an explicit
parameter, so each result is a function of its inputs. The core hands off:

- vector retrieval;
- JSON encoding and decoding;
- the email-redaction pass;
- SHA-256;
- the model backend;
- `exec`;
- `subprocess`;
- PDF text extraction;
- the clock.

Most of these travel in the orchestrator's `Env` record. A Python exception
that escapes a call is a value: a `Raised`/`Escaped` tool result, a `Threw`
termination of `handle_chat`, or a `Crash` decision of the rate limiter.

Modules follow the source files:

| Module | Source |
|---|---|
| `Auth` | the auth middleware |
| `RateLimit` | the rate-limit middleware |
| `Types` | `types.py` |
| `Schema` | `schema.py` |
| `Parser` | `parser.py` |
| `Cache` | `cache.py` |
| `Safety` | `safety.py` |
| `Evaluator` | `evaluator.py` |
| `ToolBase`, `Registry` | `tools/base.py` and `tools/__init__.py` |
| `PythonExec`, `FileSystem`, `Shell`, `PdfReader` | the four tools |
| `Engine` | `vllm_engine.py` |
| `Prompts` | `prompts.py` |
| `Orchestrator`, `ChatLoop` | `orchestrator.py`; `ChatLoop` holds the step loop of `handle_chat` |

Four foundation modules hold what the others share:

- `Wrappers` has `Option` and `Result`.
- `Strings` has Python string operations over `seq<char>`: find, rfind,
  split, join, ASCII case and integer formatting.
- `JsonValue` is the decoded JSON value.
- `PosixPath` has `os.path.join`, `abspath`/`normpath` and `dirname`.

Several contracts record behaviour of the code as written that a reader
might not expect. Each one below is proved.

- `Shell.GitStatusNeverMatches`: the whitelist entry `"git status"` can
  never match, because only the first token of the command is compared.
- `FileSystem.SiblingAccepted`: the workspace check is a plain string
  prefix test. It accepts a sibling directory whose name extends the
  workspace's name.
- `Cache.SeparatorCollision`: the cache key joins prompt and parameters
  with an unescaped `|`.
- `Registry.WriteFileNotRegistered`: self-correction also fires for a tool
  called `write_file`, but no such tool is registered.
- `Evaluator.StderrBranchUnreachable`: the evaluator's stderr-marker branch
  cannot be reached after a successful run.
- `Auth.DoubleSpaceRefused`: a bearer header with two spaces yields an
  empty token.
- `Schema.CriticNeedsFeedbackEvenWhenApproved`: the critic record demands
  `feedback` even when it approves.

## Model

| member | source | states |
|---|---|---|
| Auth.Token | novalm/fastapi_app/middleware/auth.py:12-19 | A non-empty `X-API-Key` header is the token. Otherwise a `Bearer ` header yields its second space-separated field, which contains no space. With neither there is no token. |
| Auth.Dispatch | novalm/fastapi_app/middleware/auth.py:7-29 | A request passes iff its path is public, or its token equals the configured key and that key is non-empty. Every rejection is a 401 with the fixed detail. |
| Auth.BearerTokenExtracted | novalm/fastapi_app/middleware/auth.py:18-19 | A space-free token sent as `Bearer <token>` is read back exactly. |
| Auth.BearerAccepted | novalm/fastapi_app/middleware/auth.py:15-29 | The right bearer token, with no `X-API-Key` header, lets a request through on any path. |
| Auth.ApiKeyHeaderTakesPrecedence | novalm/fastapi_app/middleware/auth.py:16-19 | When a non-empty `X-API-Key` is present, the verdict does not depend on the `Authorization` header. |
| Auth.WrongHeaderBeatsRightBearer | novalm/fastapi_app/middleware/auth.py:16-27 | A wrong `X-API-Key` is rejected even when the bearer token is right. |
| Auth.EmptyKeyLocksOut | novalm/fastapi_app/middleware/auth.py:21 | With an empty configured key, no request to a private path passes. |
| Auth.DoubleSpaceRefused | novalm/fastapi_app/middleware/auth.py:18-21 | `Bearer` followed by two spaces yields an empty token, which is refused. |
| RateLimit.WindowKey | novalm/fastapi_app/middleware/rate_limit.py:31-32 | The window key starts with `rate_limit:`. |
| RateLimit.WindowKeyInjective | novalm/fastapi_app/middleware/rate_limit.py:31-32 | Distinct (host, minute) pairs get distinct keys: the key splits at its last `:`. |
| RateLimit.WindowsAreSeparate | novalm/fastapi_app/middleware/rate_limit.py:31-32 | One host's requests in different minutes use different counters. |
| RateLimit.Increment | novalm/fastapi_app/middleware/rate_limit.py:38-42 | `INCR` returns the live count plus one and stores it. The first increment sets a 60-second expiry. No other key appears or disappears. |
| RateLimit.Dispatch | novalm/fastapi_app/middleware/rate_limit.py:18-55 | Exempt paths pass untouched. A request without a client host crashes. A failing store lets the request through and is left unchanged. A request is refused with 429 iff the store is up and the incremented count exceeds the limit. |
| RateLimit.Stack | novalm/fastapi_app/middleware/rate_limit.py:18-55 | With authentication installed first, a rejected request never reaches the counter. A forwarded one is rate-limited as if alone. |
| RateLimit.Burst | novalm/fastapi_app/middleware/rate_limit.py:38-48 | Of `n` simultaneous requests from one host, request `k` is forwarded iff the count before the burst plus `k + 1` is within the limit. The counter grows by exactly `n`. |
| RateLimit.FirstRequestSetsExpiry | novalm/fastapi_app/middleware/rate_limit.py:38-42 | The first request of a window creates its counter with a 60-second expiry. |
| RateLimit.FailOpen | novalm/fastapi_app/middleware/rate_limit.py:49-53 | When the store fails, every request with a host passes and the store is unchanged. |
| RateLimit.RejectedRequestsCount | novalm/fastapi_app/middleware/rate_limit.py:38-48 | A refused request is still counted. |
| Types.FieldOr | novalm/core/types.py:9-23 | A field with a default takes the default when absent, and must convert when present. |
| Types.Required | novalm/core/types.py:4-6 | A required field fails when absent, and must convert when present. |
| Types.PresetFromJson | novalm/core/types.py:20 | `preset` accepts null or exactly one of the four literal names, and rejects every other value. |
| Types.AutonomousPresetRejected | novalm/core/types.py:20 | The name `"autonomous"` is not a valid preset. |
| Types.PresetNameRoundTrip | novalm/core/types.py:20 | Every preset's name validates back to that preset. |
| Types.NumbersFromJson | novalm/core/types.py:10-15 | The numeric fields take their documented defaults when absent. A non-integer `top_k` is rejected. |
| Types.ControlsFromJson | novalm/core/types.py:16-23 | `stop`, `ignore_eos`, `preset` and `max_debug_attempts` take their defaults when absent. An unknown preset name is rejected. |
| Types.SamplingParamsFromJson | novalm/core/types.py:9-23 | An object validates iff both field groups validate. The result carries every numeric field and every control field (stop, ignore_eos, preset, max_debug_attempts) as validated. |
| Types.SamplingParamsDefaults | novalm/core/types.py:9-23 | Validating an empty object yields exactly the declared defaults. |
| Types.StopRoundTrip | novalm/core/types.py:16 | Every form of `stop` survives dump and validation. |
| Types.NumbersRoundTrip | novalm/core/types.py:10-15 | The numeric fields survive dump and validation. |
| Types.ControlsRoundTrip | novalm/core/types.py:16-23 | The remaining fields survive dump and validation. |
| Types.SamplingParamsRoundTrip | novalm/core/types.py:9-23 | Dumping sampling parameters and validating the dump gives them back. |
| Types.MessageFromJson | novalm/core/types.py:4-7 | A validated message carries exactly the object's `role` and `content` strings. An absent `name` is `None`. |
| Types.MessageRoundTrip | novalm/core/types.py:4-7 | Every message, whatever its role string, survives dump and validation. |
| Types.MessagesFrom | novalm/core/types.py:27 | A transcript validates iff every item is a valid message. The result then holds, in order, each item's validated message. |
| Types.OptionalsFromJson | novalm/core/types.py:28-39 | Absent optional fields are `None`, and an absent `stream` is false. A present `stream` is the given boolean. |
| Types.ExtraFields | novalm/core/types.py:41-43 | The extra fields are exactly the keys outside the schema, with their values kept. |
| Types.RequestFromJson | novalm/core/types.py:25-43 | A request needs `model` and `messages`. A valid one carries the given model, the validated transcript of the `messages` array, the validated optionals and the extra fields. |
| Types.MinimalRequest | novalm/core/types.py:25-43 | A model name with an empty transcript is a valid request. |
| Schema.LiteralField | novalm/core/schema.py:4-71 | A present `Literal` field must be one of its listed strings. An absent one takes its default, and fails when it has none. |
| Schema.CodingFields | novalm/core/schema.py:4-35 | A coding-role record needs every field without a default. Its `next_step` is the given value when allowed, and the default when absent. |
| Schema.ResearchFields | novalm/core/schema.py:39-71 | The same for the five research-role records. |
| Schema.Validate | novalm/core/schema.py:4-71 | Validation succeeds only with the record's role literal and its required fields. A validated record is well formed and of the requested kind. |
| Schema.StrListRoundTrip | novalm/core/schema.py:4-71 | A list of strings survives dump and validation. |
| Schema.StrMapRoundTrip | novalm/core/schema.py:52-57 | A string-to-string dict survives dump and validation. |
| Schema.EncodeValidateRoundTrip | novalm/core/schema.py:4-71 | Every well-formed record of every kind survives `model_dump` followed by validation unchanged. |
| Schema.RoundTripPlannerKind | novalm/core/schema.py:4-8 | The round trip for `PlannerOutput`. |
| Schema.RoundTripArchitectKind | novalm/core/schema.py:10-14 | The round trip for `ArchitectOutput`. |
| Schema.RoundTripEngineerKind | novalm/core/schema.py:16-20 | The round trip for `EngineerOutput`. |
| Schema.RoundTripEvaluatorKind | novalm/core/schema.py:22-29 | The round trip for `EvaluatorOutput`. |
| Schema.RoundTripCriticKind | novalm/core/schema.py:31-35 | The round trip for `CriticOutput`. |
| Schema.RoundTripProblemKind | novalm/core/schema.py:39-43 | The round trip for `ProblemAnalysis`. |
| Schema.RoundTripHypothesisKind | novalm/core/schema.py:45-50 | The round trip for `HypothesisGen`. |
| Schema.RoundTripDesignKind | novalm/core/schema.py:52-57 | The round trip for `ExperimentDesign`. |
| Schema.RoundTripExecutionKind | novalm/core/schema.py:59-64 | The round trip for `ExecutionRequest`. |
| Schema.RoundTripAnalysisKind | novalm/core/schema.py:66-71 | The round trip for `AnalysisResult`. |
| Schema.CriticNeedsFeedbackEvenWhenApproved | novalm/core/schema.py:31-35 | An approving critic object without `feedback` is rejected. |
| Schema.EngineerActionUnrestricted | novalm/core/schema.py:16-20 | The engineer's `action` may be any string. |
| Parser.FirstFence | novalm/core/parser.py:21-24 | Finds the leftmost run of three backticks at or after a position, or shows there is none. |
| Parser.TagEnd | novalm/core/parser.py:21-24 | The optional `json` tag is consumed only when present. |
| Parser.TrailingSpaceStart | novalm/core/parser.py:21-24 | The lazy body stops where only whitespace remains before the closing fence. |
| Parser.SpanFacts | novalm/core/parser.py:21-24 | Once the opening fence is fixed, the computed span satisfies the pattern's structure. |
| Parser.NoFencePair | novalm/core/parser.py:21-24 | With no fence after the first one's backticks, no two fences are far enough apart to match. |
| Parser.LocateFenceSpec | novalm/core/parser.py:21-24 | The fenced-block search finds nothing iff no two fences lie three or more characters apart. When it succeeds, the opening fence is the leftmost one and the span has the pattern's shape. |
| Parser.NoBacktickNoFence | novalm/core/parser.py:21-24 | Text without a backtick has no fenced block. |
| Parser.ExtractJsonText | novalm/core/parser.py:21-33 | The text handed to the decoder, in precedence order: the body of the fenced block; else the slice from the first `{` to the last `}`; else the whole text. |
| Parser.FencedBlockExtracted | novalm/core/parser.py:21-24 | A ```` ```json ```` block inside backtick-free prose yields exactly its body. |
| Parser.BraceSpanExtracted | novalm/core/parser.py:26-33 | Without fences, an object between brace-free prose is extracted whole. |
| Parser.WholeTextFallback | novalm/core/parser.py:32-33 | Text with neither a fence nor a `{` reaches the decoder unchanged. |
| Parser.InvertedBracesGiveEmptyText | novalm/core/parser.py:26-30 | When the last `}` precedes the first `{`, the decoder receives the empty string. |
| Parser.ErrorMessage | novalm/core/parser.py:36-45 | The three failure kinds have distinguishable messages: `Invalid JSON format…`, `Schema Validation Failed…`, and the non-object error. |
| Parser.Parse | novalm/core/parser.py:13-45 | The result is invalid JSON iff decoding fails. It is a non-object error iff the decoded value is not an object. It is a schema error iff validation of the object fails. A success is a well-formed record of the requested kind, validated from the decoded object. |
| Parser.InvertedBracesAreInvalidJson | novalm/core/parser.py:26-39 | With a decoder that rejects the empty document, inverted braces fail as invalid JSON. |
| Cache.Init | novalm/core/cache.py:17-28 | A client is kept iff the library imports, the URL is non-empty and the ping succeeds. |
| Cache.GenerateKey | novalm/core/cache.py:30-45 | The key is the fixed prefix followed by the digest of the prompt joined to the parameters. |
| Cache.Get | novalm/core/cache.py:47-58 | A read hits iff a healthy client holds a live value under the key. Without a client, or with a failing one, it misses. |
| Cache.Set | novalm/core/cache.py:60-71 | A write changes only its own key. It does nothing without a client, with a failing client, or with a non-positive TTL. |
| Cache.SetThenGet | novalm/core/cache.py:47-71 | A read before the TTL runs out returns what was written. |
| Cache.SetThenGetExpired | novalm/core/cache.py:47-71 | A read after the TTL misses. |
| Cache.SeparatorCollision | novalm/core/cache.py:30-45 | Prompt `"a\|b"` without parameters and prompt `"a"` with parameters `"b"` share a key. |
| Cache.KeyStringInjective | novalm/core/cache.py:30-45 | For prompts without `\|`, distinct (prompt, parameters) pairs give distinct hashed strings. |
| Cache.KeyInjective | novalm/core/cache.py:30-45 | With an injective hash, keys of `\|`-free prompts collide only for equal prompts and parameters. |
| Safety.KeywordFrom | novalm/core/safety.py:14-15 | The whole-word, case-blind keyword search finds a match iff one exists at or after the position. |
| Safety.PhraseFrom | novalm/core/safety.py:19-20 | The case-blind phrase search finds a match iff one exists. |
| Safety.UnrestrictedFrom | novalm/core/safety.py:21 | The `.*unrestricted` tail matches iff the phrase occurs before the next newline. |
| Safety.YouAreNowFrom | novalm/core/safety.py:21 | `you are now.*unrestricted` matches iff the two phrases occur in order on one line. |
| Safety.CheckInput | novalm/core/safety.py:25-36 | The input passes iff no keyword and no injection heuristic matches. A keyword match is reported as blocked content even when an injection phrase also matches. |
| Safety.CheckOutput | novalm/core/safety.py:38-49 | Text without `@` is returned unchanged. |
| Safety.CheckOutputIdempotentWithoutAt | novalm/core/safety.py:38-49 | On such text a second pass changes nothing. |
| Safety.KeywordInProse | novalm/core/safety.py:14-15 | A keyword in any ASCII case, delimited by non-word characters, is blocked. |
| Safety.MixedCaseKeywordBlocked | novalm/core/safety.py:14-15 | `"BadWord!"` is blocked. |
| Safety.LongerWordNotBlocked | novalm/core/safety.py:14-15 | `"badwords"` is not: the keyword must end at a word boundary. |
| Safety.CaseBlind | novalm/core/safety.py:13-36 | Inputs that differ only in ASCII letter case get the same verdict. |
| Safety.UpperCaseSameVerdict | novalm/core/safety.py:13-36 | Upper-casing the input does not change the verdict. |
| Safety.NewlineSeparatesPhrases | novalm/core/safety.py:21 | The two phrases on different lines do not trigger the heuristic. |
| Safety.SameLinePhrasesTrigger | novalm/core/safety.py:21 | On one line they do. |
| Safety.BlockedTakesPrecedence | novalm/core/safety.py:28-36 | Text that matches both kinds of pattern reports the keyword. |
| Evaluator.Script | novalm/core/evaluator.py:20 | The script is the code, the harness separator, then the test, each recoverable from its position. |
| Evaluator.Evaluate | novalm/core/evaluator.py:11-45 | An exception escaping the tool propagates. An error reply fails with the stderr text. A clean reply passes unless stderr carries a failure marker. The files afterwards are those the test script left. |
| Evaluator.StderrBranchUnreachable | novalm/core/evaluator.py:35-40 | After a successful run stderr is empty, so the marker branch never fires. |
| ToolBase.StatusOutput | novalm/core/tools/base.py:4-15 | The two-key reply carries exactly the given status and output. |
| PythonExec.Summary | novalm/core/tools/python_exec.py:35-44 | The summary mentions `Error` iff the script raised. |
| PythonExec.Reply | novalm/core/tools/python_exec.py:48-57 | The reply has exactly four keys. Its status is success iff stderr is empty and the script completed. It carries stdout and stderr unchanged. |
| PythonExec.Run | novalm/core/tools/python_exec.py:21-57 | A non-dict input raises. Missing code is an error reply. Code is run and reported. A `BaseException` escapes. Every reply's status is success or error. The files afterwards are those the script left, and they change only when a non-empty string of code ran. |
| PythonExec.StdoutDoesNotAffectStatus | novalm/core/tools/python_exec.py:52-57 | Whatever a script prints never changes the status. |
| PythonExec.RaisingScriptIsError | novalm/core/tools/python_exec.py:35-57 | A script that raises an `Exception` always reports error. |
| Shell.BaseCommand | novalm/core/tools/shell.py:22-24 | An empty command gives the empty token. A whitespace-only command raises. Otherwise the first token, which holds no whitespace. |
| Shell.ProcReply | novalm/core/tools/shell.py:30-38 | The status is success iff the exit code is zero. |
| Shell.Run | novalm/core/tools/shell.py:18-38 | A non-dict input raises. A token outside the whitelist is refused without spawning anything. A whitelisted command holding a NUL character raises `embedded null byte` with nothing run. Any other whitelisted command is run whole by the shell and reported, and the files afterwards are those it left. |
| Shell.RejectionIndependentOfShell | novalm/core/tools/shell.py:22-28 | A refused command's reply is the same whatever the shell would have done, and no file changes. |
| Shell.GitStatusNeverMatches | novalm/core/tools/shell.py:5-24 | No command's first token equals the whitelist entry `"git status"`. |
| Shell.WhitelistReachable | novalm/core/tools/shell.py:5-24 | Every other whitelist entry is accepted when sent alone. |
| Shell.EmptyCommandRejected | novalm/core/tools/shell.py:22-28 | The empty command is refused with the empty token. |
| Shell.BlankCommandRaises | novalm/core/tools/shell.py:22-24 | A whitespace-only command makes `split()[0]` raise. |
| Shell.NullByteCommandRaises | novalm/core/tools/shell.py:22-30 | `"ls \0"` passes the whitelist test, then starting the shell raises `embedded null byte`. |
| PosixPath.AbsPath | novalm/core/tools/file_system.py:27 | The joined, normalised path under an absolute workspace is absolute. |
| PosixPath.DirName | novalm/core/tools/file_system.py:38-41 | The parent directory is a prefix of the path. |
| PosixPath.RelativeStaysInside | novalm/core/tools/file_system.py:27-29 | A relative name made of ordinary components resolves to the workspace, a slash, then the name. |
| PosixPath.SiblingSharesPrefix | novalm/core/tools/file_system.py:27-29 | `../` followed by the workspace's own name plus a suffix resolves to the workspace path plus that suffix. |
| PosixPath.ParentIsShorter | novalm/core/tools/file_system.py:27-29 | `..` resolves to a path shorter than the workspace. |
| PosixPath.DirNameOfChild | novalm/core/tools/file_system.py:38-41 | The parent of a path is that path without its last component. |
| FileSystem.SafePath | novalm/core/tools/file_system.py:27 | A string file name resolves against the workspace. Anything else raises the `os.path.join` type error. |
| FileSystem.UniversalNewlines | novalm/core/tools/file_system.py:34-35 | Text read in text mode holds no carriage return. It equals the stored text iff the stored text holds none. It is never longer, and keeps every line break. |
| FileSystem.CrLfReadsAsLf | novalm/core/tools/file_system.py:34-35 | `"a\r\nb"` and `"a\rb"` both read as `"a\nb"`. |
| FileSystem.Read | novalm/core/tools/file_system.py:31-36 | A missing path is reported as not found. A directory raises. A file returns its content as text mode reads it, with universal newlines. |
| FileSystem.Write | novalm/core/tools/file_system.py:38-41 | The write succeeds iff the path is NUL-free, not a directory, its parent exists and the content is a string. Only that path changes, and no file disappears. A parent that is a file raises errno 20, and a missing one raises errno 2. |
| FileSystem.Run | novalm/core/tools/file_system.py:21-43 | A non-dict input raises. A non-string name raises. A path outside the workspace prefix is denied. Inside it, `read` is the read branch on that path, `write` is the write branch with the content defaulting to empty, and any other operation is reported as unknown. Only `write` changes the file system. The file system stays consistent. |
| FileSystem.WriteThenRead | novalm/core/tools/file_system.py:31-41 | A successful write is visible to the next read of the same name, with its line endings translated to `"\n"`. |
| FileSystem.CrLfWrittenReadsAsLf | novalm/core/tools/file_system.py:31-41 | Content written as `"a\r\nb"` reads back as `"a\nb"`. |
| FileSystem.WriteDefaultsToEmpty | novalm/core/tools/file_system.py:38-41 | A write without `content` creates an empty file. |
| FileSystem.RelativeNameAccepted | novalm/core/tools/file_system.py:27-29 | A relative name of ordinary components passes the path check. |
| FileSystem.TopLevelWriteSucceeds | novalm/core/tools/file_system.py:21-41 | A top-level file in an existing workspace directory can be written. |
| FileSystem.ParentDenied | novalm/core/tools/file_system.py:27-29 | `..` alone is denied for every operation. |
| FileSystem.SiblingAccepted | novalm/core/tools/file_system.py:28 | The prefix test accepts a sibling directory whose name extends the workspace's, although it lies outside the workspace. |
| PdfReader.ClampStart | novalm/core/tools/pdf_reader.py:65 | A negative integer start becomes 0. A non-number start raises the comparison type error. |
| PdfReader.ClampEnd | novalm/core/tools/pdf_reader.py:66 | A missing or too-large end becomes the page count. A non-number end raises. |
| PdfReader.Blocks | novalm/core/tools/pdf_reader.py:68-72 | The page loop succeeds iff every page in range extracts. Otherwise it fails with the error of a page in range. |
| PdfReader.BlocksAreText | novalm/core/tools/pdf_reader.py:68-72 | When every page extracts, the loop yields the text of those pages. |
| PdfReader.TextSplit | novalm/core/tools/pdf_reader.py:68-72 | The text of adjacent page ranges concatenates. |
| PdfReader.EmptyPagesVanish | novalm/core/tools/pdf_reader.py:70-71 | Pages with empty text contribute nothing, not even a header. |
| PdfReader.ExtractText | novalm/core/tools/pdf_reader.py:59-74 | A bound that cannot be compared raises. A float bound is refused by `range`. Over the clamped integer range, the read succeeds iff every page in range extracts, and then yields the text of those pages. Otherwise it fails with the error of a page in range. |
| PdfReader.NegativeStartIsZero | novalm/core/tools/pdf_reader.py:65 | A negative start reads from the first page. |
| PdfReader.EndClampedToLength | novalm/core/tools/pdf_reader.py:66 | An end past the last page reads to the last page. |
| PdfReader.EmptyRangeIsEmptyText | novalm/core/tools/pdf_reader.py:68 | An empty or inverted range reads nothing and cannot fail. |
| PdfReader.WholeDocument | novalm/core/tools/pdf_reader.py:59-74 | The whole document reads as its text. |
| PdfReader.SinglePage | novalm/core/tools/pdf_reader.py:70-72 | One page reads as a header numbered from one, then its text. |
| PdfReader.FloatStartRefused | novalm/core/tools/pdf_reader.py:65-68 | A float start that survives clamping is refused by `range`. |
| PdfReader.FailingPageFails | novalm/core/tools/pdf_reader.py:68-72 | A page that fails to extract fails the whole read. |
| PdfReader.Run | novalm/core/tools/pdf_reader.py:36-57 | Without the library the tool reports it. A non-dict input raises. A non-string name raises. A path outside the workspace prefix is denied. A missing file is reported by name. A file the library cannot open, or whose pages fail, is reported with the library's error. Otherwise the content is the extracted text of the requested pages. Nothing escapes. |
| Registry.Spec | novalm/core/tools/__init__.py:7-12 | Each tool registers under its own name. |
| Registry.AllTools | novalm/core/tools/__init__.py:7-12 | The four tools are registered in order, one of each. |
| Registry.NamesDistinct | novalm/core/tools/__init__.py:7-12 | No two registered tools share a name. |
| Registry.FindTool | novalm/core/tools/__init__.py:28-32 | The search returns the first tool whose name equals the value, or shows none does. |
| Registry.GetToolByName | novalm/core/tools/__init__.py:28-32 | Lookup fails iff no tool has the name. Otherwise it returns the tool with that name. |
| Registry.FormattedAll | novalm/core/tools/__init__.py:14-26 | One formatted entry per tool, in order. |
| Registry.GetToolsFormatted | novalm/core/tools/__init__.py:14-26 | One function entry per registered tool, in registry order. |
| Registry.FormattedName | novalm/core/tools/__init__.py:14-26 | An entry advertises its tool's name. |
| Registry.KindResolves | novalm/core/tools/__init__.py:28-32 | Each tool's own name finds that tool. |
| Registry.AdvertisedNamesResolve | novalm/core/tools/__init__.py:14-32 | Every advertised name looks up the tool it advertises. |
| Registry.WriteFileNotRegistered | novalm/core/tools/__init__.py:7-12 | No tool is called `write_file`. |
| Registry.RunTool | novalm/core/tools/__init__.py:7-12 | The PDF reader never changes files. Python execution changes them only when it runs code. The shell changes them only for a NUL-free string command. The file system stays consistent. Only Python execution lets an exception escape. A non-dict input raises. |
| Engine.Delta | novalm/engine/vllm_engine.py:94-96 | When the previous text is a prefix of the current one, the current text is the previous plus the delta. |
| Engine.DeltasFrom | novalm/engine/vllm_engine.py:92-98 | Only non-empty deltas are yielded, at most one per backend step. |
| Engine.DeltasReassemble | novalm/engine/vllm_engine.py:92-98 | On cumulative outputs, the previous text plus all yielded deltas is the final text. |
| Engine.Initialize | novalm/engine/vllm_engine.py:23-43 | Initialisation succeeds iff the library is installed and a GPU is available. A missing library is reported first. |
| Engine.VllmGenerateAsWritten | novalm/engine/vllm_engine.py:45-98 | As written, the engine yields nothing. Only the backend's failure, or the not-initialised error, surfaces. |
| Engine.VllmGenerate | novalm/engine/vllm_engine.py:52-98 | With a single loop, the yielded pieces add up to the backend's final text, and a backend failure is passed on. |
| Engine.AsWrittenLosesText | novalm/engine/vllm_engine.py:73-98 | A backend producing `"Hi"` yields nothing as written, but `["Hi"]` in the single-loop version. |
| Engine.Suffixed | novalm/engine/vllm_engine.py:115-117 | Each word is followed by a space. |
| Engine.SuffixedConcat | novalm/engine/vllm_engine.py:114-117 | The suffixed words concatenate to the space-joined words plus one space. |
| Engine.MockStreamText | novalm/engine/vllm_engine.py:113-117 | The mock stream adds up to its sentence plus one space, and its first chunk is a lone space. |
| Engine.Generate | novalm/engine/vllm_engine.py:45-117 | The mock ignores the prompt. An initialised vLLM engine, with the double loop corrected, reassembles the backend's text. An uninitialised one fails. |
| Engine.GetInferenceEngine | novalm/engine/vllm_engine.py:119-138 | An earlier engine is returned as it is. Otherwise a mock or an uninitialised vLLM engine is chosen by the setting, and kept. |
| Engine.FactoryKeepsFirstEngine | novalm/engine/vllm_engine.py:124-125 | Later calls return the first engine whatever the setting says then. |
| Orchestrator.Display | novalm/core/orchestrator.py:269-289 | A string value is shown as itself. |
| Orchestrator.ErrorBody | novalm/core/orchestrator.py:380-387 | The error dict carries the given message. |
| Orchestrator.ApplyPreset | novalm/core/orchestrator.py:120-137 | Only temperature, top-p and maxTokens change, and only when a preset is named. Deterministic and coding set temperature and top-p to 0.1 and raise the token limit to at least 1024. Creative sets 0.9 and 0.95 and keeps the limit. Research sets 0.2, 0.95 and 2048 tokens. |
| Orchestrator.PresetIdempotent | novalm/core/orchestrator.py:120-137 | Applying the presets twice is the same as once. |
| Orchestrator.LastUser | novalm/core/orchestrator.py:31-35 | Finds the last message whose role is exactly `user`, or shows there is none. |
| Orchestrator.Render | novalm/core/orchestrator.py:60-76 | The message loop appends one line per message and records whether a system message was seen. |
| Orchestrator.AssemblePrompt | novalm/core/orchestrator.py:25-91 | The prompt is the synthetic system line (if any), the message lines, then `ASSISTANT:`. |
| Orchestrator.LinesAppend | novalm/core/orchestrator.py:60-76 | The lines of a concatenated transcript are the concatenation of the lines. |
| Orchestrator.ExchangeKeepsQuery | novalm/core/orchestrator.py:31-35 | Appending a tool exchange keeps the retrieval query. |
| Orchestrator.AssistantLine | novalm/core/orchestrator.py:63-76 | An assistant message renders as `ASSISTANT: ` plus its content, without the retrieved text. |
| Orchestrator.SystemLine | novalm/core/orchestrator.py:63-76 | A system message renders with the retrieved text after its content. |
| Orchestrator.ExchangeLines | novalm/core/orchestrator.py:60-76 | A tool exchange adds the assistant's line, then the tool's system line. |
| Orchestrator.ExchangeHeader | novalm/core/orchestrator.py:38-88 | After an exchange, retrieval is unchanged and no synthetic prefix is added. |
| Orchestrator.PromptAfterExchange | novalm/core/orchestrator.py:25-91 | The next step's prompt is the earlier lines, the assistant's answer, the tool output with the retrieved text, then `ASSISTANT:`. |
| Orchestrator.NoQueryNoRetrieval | novalm/core/orchestrator.py:38-50 | Without a user message, the retrieval functions do not affect the prompt. |
| Orchestrator.ContextOpensPrompt | novalm/core/orchestrator.py:38-88 | Retrieved documents with no system message put the context block at the head of the prompt. |
| Orchestrator.StepPromptShape | novalm/core/orchestrator.py:161-183 | An agent-mode prompt ends with the agent instructions. The research preset puts its persona first. |
| Orchestrator.Sanitise | novalm/core/orchestrator.py:216-219 | Each streamed piece passes the output check, when the check is enabled. |
| Orchestrator.Chunks | novalm/core/orchestrator.py:226-232 | One stamped chunk per piece, in order. |
| Orchestrator.Texts | novalm/core/orchestrator.py:221-232 | The texts of the chunks, in order. |
| Orchestrator.Remember | novalm/core/orchestrator.py:234-236 | Empty text leaves the cache alone. Non-empty text is then served by a healthy cache. |
| Orchestrator.Streamed | novalm/core/orchestrator.py:213-242 | Every item is stamped, and only the last can be an error. A failed stream ends in an error dict and leaves the cache unchanged. Otherwise the collected text is the chunks' text. |
| Orchestrator.StreamedFailureReported | novalm/core/orchestrator.py:238-242 | A failed stream ends with an error dict carrying the exception's text. |
| Orchestrator.StreamedRemembered | novalm/core/orchestrator.py:234-236 | A completed stream with text is written to the cache. |
| Orchestrator.StreamedWithoutAt | novalm/core/orchestrator.py:216-222 | With the output check on, pieces without `@` reach the client unchanged. |
| Orchestrator.Generation | novalm/core/orchestrator.py:197-242 | A hit yields the cached text in one final `stop` chunk without consulting the engine. A miss streams. Failure is marked by a trailing error dict. |
| Orchestrator.Generate | novalm/core/orchestrator.py:197-242 | It returns the step's generation (`Generation`) with the cache it leaves: a hit or a streamed miss. Every item is stamped, only the last can be the error dict, and it is there exactly when the stream failed. |
| Orchestrator.CacheHitAfterMiss | novalm/core/orchestrator.py:197-242 | After a step completes with text, the identical step is a one-chunk hit with that text. |
| Orchestrator.HitSkipsEngine | novalm/core/orchestrator.py:204-212 | On a hit, the engine and its backend play no part. |
| Orchestrator.DetectAction | novalm/core/orchestrator.py:253-266 | An action is detected iff the text from the first `{` to the last `}` decodes to an object whose `action` is not `final_answer`. The action is that object's fields. The tool name is its `action`, and the tool input is its `input`, or `{}` when absent. |
| Orchestrator.ActionInProse | novalm/core/orchestrator.py:256-264 | An object between brace-free prose is decoded whole. |
| Orchestrator.FinalAnswerStops | novalm/core/orchestrator.py:262-264 | An object naming `final_answer` is not an action. |
| Orchestrator.InvertedBracesNoAction | novalm/core/orchestrator.py:257-266 | A last `}` before the first `{` gives no action. |
| Orchestrator.InvokeTool | novalm/core/orchestrator.py:268-289 | An unknown tool yields the not-found object and leaves files alone. The PDF reader leaves files alone. The file system stays consistent. Only Python execution can throw. Every output is an object. |
| Orchestrator.DebugFeedback | novalm/core/orchestrator.py:321-332 | Failure feedback never reads as a pass. |
| Orchestrator.AddExperience | novalm/core/memory.py:53-70 | An available memory gains exactly the new document at the end. An unavailable one is unchanged. |
| Orchestrator.Report | novalm/core/orchestrator.py:319-338 | The model sees the tool output and the evaluator's feedback. Both the feedback and the client's notice read as a pass iff the tests passed. |
| Orchestrator.AfterTests | novalm/core/orchestrator.py:319-364 | An exception escapes. Otherwise one notice is yielded and the verdict reported. An available memory gains one experience, keeping the earlier ones. |
| Orchestrator.PassingTestsReported | novalm/core/orchestrator.py:319-338 | Code whose tests pass is reported as passed. |
| Orchestrator.ToolPhase | novalm/core/orchestrator.py:268-364 | One or two stamped chunks, the first being the tool notice. The cache is untouched and the file system stays consistent. Without self-correction the tool's output is recorded as is. |
| Orchestrator.Corrected | novalm/core/orchestrator.py:291-364 | Self-correction leaves the cache alone. A non-dict `python_exec` input raises with nothing changed. Otherwise the files are those the test run of the code and the tests left. An empty transcript raises. A reported verdict wraps the tool output. |
| Orchestrator.ExtendsAppend | novalm/core/orchestrator.py:366-369 | Appending a tool exchange keeps the transcript an extension of the request's messages, with one more exchange. |
| Orchestrator.StepIdInjective | novalm/core/orchestrator.py:157-159 | Different step numbers give different engine request ids. |
| Orchestrator.StepIds | novalm/core/orchestrator.py:157-159 | The ids of steps 1 to n, in order, with no two alike. |
| Orchestrator.ChunksUnlessError | novalm/core/orchestrator.py:238-242 | A sequence whose only possible error is absent holds only chunks. |
| Orchestrator.JoinEmitted | novalm/core/orchestrator.py:145-374 | Appending a step's output to chunks keeps every item stamped and any error last. |
| Orchestrator.RunStep | novalm/core/orchestrator.py:185-374 | An unsafe prompt yields only the error dict and stops the loop with nothing changed. Otherwise the step first yields its generation's items. It yields exactly those, and changes only the cache, when it finishes or aborts. It aborts iff the stream failed. It finishes iff the stream completed and there is no agent mode or no detected action. It runs a tool, continuing or throwing, iff agent mode and a completed stream with a detected action. A continuation is a tool exchange. Files change only in agent mode. |
| ChatLoop.TakeStep | novalm/core/orchestrator.py:161-374 | One loop pass, recorded as the next step of the trace. Its prompt is the step prompt for the transcript so far and the current memory. An unsafe prompt yields the error dict and aborts with nothing changed. Otherwise the step follows the generation for that prompt under its id from the current cache, as RunStep states. Only the last item can be an error dict, and files change only in agent mode. |
| Orchestrator.AfterGeneration | novalm/core/orchestrator.py:244-374 | The step's items begin with the generation's items. They are exactly those, and only the cache changes, when the step finishes or aborts. A failed stream aborts. The step finishes iff the stream completed and there is no agent mode or no detected action. In agent mode a completed answer with a detected action always runs the tool, continuing or throwing. A continuation's assistant message is the answer just streamed. |
| Orchestrator.ActionStep | novalm/core/orchestrator.py:268-370 | The step first announces the tool it runs, then continues with a tool exchange or throws. |
| ChatLoop.Iterate | novalm/core/orchestrator.py:145-374 | The `while` loop runs one to five passes, and stops before the fifth only when a step did not continue. It keeps the run's invariant and the output's shape. Outside agent mode it takes one pass and leaves the transcript and files alone. |
| ChatLoop.Steps | novalm/core/orchestrator.py:145-374 | The run is one to five steps. Step i ran under id i, on the transcript with i - 1 tool exchanges, from the world the previous step left. Each step is classified by its own prompt and generation, as TakeStep states. The output is exactly the steps' items in order. Every step but the last appended one tool exchange. The loop stops before the fifth step only on a final answer, an error dict or an exception, and the last step appended an exchange only as the fifth. The exception of a throwing last step is the termination. Non-agent mode takes one step, and files change only in agent mode. |
| Orchestrator.RanStep | novalm/core/orchestrator.py:157-374 | In every run, step i's prompt is the step prompt for the transcript with i - 1 exchanges. A step continued only when its prompt passed the input check and its generation completed with a detected action in agent mode. It finished only when its prompt passed and its generation completed without an action to run. It aborted only on a refused prompt or a failed stream. |
| Orchestrator.ProgressExtend | novalm/core/orchestrator.py:157-369 | A loop pass keeps the run's invariant. The new step joins the trace numbered, on the transcript so far, from the world the last step left. The output grows by its items, and the loop stands at its outcome. |
| ChatLoop.Advance | novalm/core/orchestrator.py:157-369 | One loop pass runs the next step under the next id, on the transcript so far, from the current world. The step joins the trace classified, and the loop's invariant over the trace is kept. The pass yields exactly that step's items after the earlier ones. Only a continuing step appends its tool exchange. Only agent mode continues or throws. |
| ChatLoop.Record | novalm/core/orchestrator.py:366-369 | The step's items are appended to the output. The transcript grows by exactly the continuation's exchange and is otherwise unchanged. |
| ChatLoop.HandleChat | novalm/core/orchestrator.py:93-378 | A pre-check violation throws before anything is yielded, and no step runs. Otherwise the request runs as Steps states, with the server's prompt texts: one to five steps, each classified by its own prompt and generation. The output is the steps' items, and the loop stops early only on a final answer, an error dict or an exception. The transcript holds one tool exchange per step that continued. Every item is stamped, only the last can be an error, and files change only in agent mode. |
| ChatLoop.HandleChatWith | novalm/core/orchestrator.py:93-378 | The same as HandleChat, for any prompt texts. |

## Left out

- **Oracles.** These are parameters rather than models, because their
  implementations are outside the core:
  - vector retrieval and the experience store's search;
  - `json.dumps`/`json.loads` and `str()` of a JSON value;
  - `model_dump_json`;
  - the email-redaction regex;
  - SHA-256;
  - the vLLM backend;
  - `exec`, `subprocess` and `pypdf`. Executed code and a shell command
    receive the files as they stand and return the files they leave, which
    the model takes to be consistent (no path is both a file and a
    directory), as the operating system keeps them.
- **Clock.** `time.time()` enters as a number.
- **Memory store.** Only the document list of `add_experience` and the
  availability flag are kept. ChromaDB and its embeddings are not modelled.
- **Async and streaming transport.** An async generator is the list of
  items it yields plus how it ended. Latency and cancellation are not
  modelled, nor are the `asyncio.sleep` calls of the mock engine.
- **The agent state machines, the FastAPI app, routes, settings, scripts and
  ingest schemas.** They are outside the modelled core.
- **Metrics, logging and `print`.** They have no effect on results.
- **ASCII text handling.** Case folding (`re.IGNORECASE`, `str.upper`) and
  `\w` cover ASCII only, and `\s` is Python's whitespace set. Reading a file
  in text mode translates line endings (`FileSystem.UniversalNewlines`), and
  writing stores the text unchanged, as on POSIX. No other encoding or
  decoding of file contents is modelled.
- **Regular expressions.** The parser's fence pattern and the safety
  patterns are encoded directly as their leftmost-match conditions rather
  than through a general regex engine.
- **Validation.** Pydantic's lax coercions (a numeric string for an int, an
  int for a bool) are left out. Validation is by JSON type.
- **Exception texts.** CPython's messages are approximated by fixed strings
  that name the operand's type.
- **The duplicate `__init__` header in `safety.py` lines 9-11.** It makes the
  file as written fail to compile. The model takes the second definition,
  which evidently carries the intent.
- **Partial Redis failures.** A store is either up for a whole call or
  down.
- **Output decoding.** The shell tool decodes the subprocess's output
  strictly as UTF-8 (`shell.py` lines 35-36). The model assumes the output is
  valid UTF-8, so the `UnicodeDecodeError` that invalid bytes would raise is
  not modelled.
- **Engine sampling errors.** Errors raised while building vLLM's sampling
  parameters are not modelled.
- **JSON mode.** The `response_format` instruction is modelled only in the
  pre-loop safety check, because it is added to a prompt the loop never
  sends.
- **Prompt texts.** The prompt texts are a parameter of the step prompt
  (`Prompts.Texts`). The server uses `Prompts.Standard`.
- Engine.Generate: the served engine in this model is the corrected
  single-loop vLLM engine (`Engine.VllmGenerate`), not the engine as written,
  which yields no text at all (see Findings). The as-written engine is
  modelled separately as `Engine.VllmGenerateAsWritten`.
- FileSystem.Write: when an ancestor further up than the parent is a file,
  the operating system reports errno 20 (`Not a directory`). The model looks
  only at the immediate parent, so that case is reported as errno 2.
- **Weaker contracts:**
  - Orchestrator.InvokeTool: states error shape, file-system effect and
    which tools can throw, rather than each tool's full reply. Those replies
    are stated by each tool's own `Run`. It does not promise that only the
    file tool changes files: executed code and shell commands can write
    files too.
  - Registry.RunTool: states effects and exception kinds. Each tool's reply
    is stated by its own `Run`. It does not promise that only the file tool
    changes files, for the same reason.
  - Orchestrator.Corrected: states the shape of the reported object and
    when it throws, not the exact feedback text. It does not promise that
    self-correction leaves files alone: the test run executes code inside
    the server process.
  - ChatLoop.HandleChat: stamping means id, creation time and model.
    The chunk's `object` tag is fixed by construction but not restated.

## Findings

| source | as written | input that shows it | evidently intended | confidence | as-written member | corrected member |
|---|---|---|---|---|---|---|
| novalm/engine/vllm_engine.py:73-98 | The first `async for` loop consumes the backend's generator and discards every output (`pass`). The second loop then finds the generator exhausted, so no text is ever yielded. | An initialised engine whose backend yields the cumulative text `"Hi"` yields nothing. | One loop that yields the non-empty delta of each cumulative text. The deltas then reassemble the final text. | not executed | Engine.VllmGenerateAsWritten (shown by Engine.AsWrittenLosesText) | Engine.VllmGenerate (proved by Engine.DeltasReassemble) |

=== FILE: auth.dfy ===
/** The API-key middleware. A request to a public path passes; any other
    request passes only when it carries the configured key, either in the
    `X-API-Key` header or as a bearer token. Header lookup is
    case-insensitive in the server, so a header is given here by its value. */
module Auth {
  import opened Wrappers
  import opened Strings

  const PublicPaths: seq<string> := ["/health", "/docs", "/openapi.json"]
  const BearerPrefix := "Bearer "
  const UnauthorizedStatus := 401
  const UnauthorizedDetail := "Invalid or missing API Key"

  datatype Verdict = Forward | Reject(status: int, detail: string)

  /** The request as the middleware sees it. */
  datatype Request = Request(path: string, apiKeyHeader: Option<string>, authorization: Option<string>)

  /** `auth_header.split(" ")[1]` for a header that contains a space. */
  function SecondField(h: string): (w: string)
    requires ' ' in h
    ensures ' ' !in w
  {
    var k := Find(h, ' ');
    var parts := SplitOn(h, ' ');
    assert |parts| >= 2 by {
      assert parts == [h[..k]] + SplitOn(h[k + 1..], ' ');
    }
    parts[1]
  }

  /** The token the request presents: a non-empty `X-API-Key` wins; otherwise
      the second space-separated field of an `Authorization` header that
      starts with `Bearer `. */
  function Token(apiKeyHeader: Option<string>, authorization: Option<string>): (t: Option<string>)
    ensures apiKeyHeader.Some? && apiKeyHeader.value != "" ==> t == apiKeyHeader
    ensures t.Some? && !(apiKeyHeader.Some? && apiKeyHeader.value != "") ==>
              authorization.Some? && IsPrefix(BearerPrefix, authorization.value)
    ensures t.None? <==> !(apiKeyHeader.Some? && apiKeyHeader.value != "")
                         && !(authorization.Some? && IsPrefix(BearerPrefix, authorization.value))
    ensures t.Some? && !(apiKeyHeader.Some? && apiKeyHeader.value != "") ==>
              ' ' in authorization.value && t.value == SecondField(authorization.value)
  {
    if apiKeyHeader.Some? && apiKeyHeader.value != "" then apiKeyHeader
    else if authorization.Some? && IsPrefix(BearerPrefix, authorization.value) then
      assert authorization.value[6] == ' ';
      Some(SecondField(authorization.value))
    else None
  }

  /** `AuthMiddleware.dispatch`. */
  function Dispatch(req: Request, apiKey: string): (v: Verdict)
    ensures v.Forward? <==>
              (req.path in PublicPaths || (Token(req.apiKeyHeader, req.authorization) == Some(apiKey) && apiKey != ""))
    ensures v.Reject? ==> v == Reject(UnauthorizedStatus, UnauthorizedDetail)
  {
    if req.path in PublicPaths then Forward
    else
      var token := Token(req.apiKeyHeader, req.authorization);
      if token.None? || token.value == "" || token.value != apiKey then Reject(UnauthorizedStatus, UnauthorizedDetail)
      else Forward
  }

  /** A bearer token without spaces is read back exactly. */
  lemma BearerTokenExtracted(token: string)
    requires ' ' !in token
    ensures Token(None, Some(BearerPrefix + token)) == Some(token)
  {
    var h := BearerPrefix + token;
    assert h[6] == ' ';
    assert forall j :: 0 <= j < 6 ==> h[j] != ' ';
    assert Find(h, ' ') == 6;
    assert h[7..] == token;
    assert Find(token, ' ') < 0;
    assert SplitOn(token, ' ') == [token];
    assert SplitOn(h, ' ') == [h[..6]] + SplitOn(h[7..], ' ');
    assert h[..|BearerPrefix|] == BearerPrefix;
  }

  /** With the right bearer token and no `X-API-Key`, the request passes. */
  lemma BearerAccepted(path: string, apiKey: string)
    requires apiKey != "" && ' ' !in apiKey
    ensures Dispatch(Request(path, None, Some(BearerPrefix + apiKey)), apiKey) == Forward
  {
    BearerTokenExtracted(apiKey);
  }

  /** A non-empty `X-API-Key` decides alone: the `Authorization` header is not consulted. */
  lemma ApiKeyHeaderTakesPrecedence(path: string, key: string, auth1: Option<string>, auth2: Option<string>, apiKey: string)
    requires key != ""
    ensures Dispatch(Request(path, Some(key), auth1), apiKey) == Dispatch(Request(path, Some(key), auth2), apiKey)
  {
  }

  /** A wrong `X-API-Key` is rejected even when the bearer token is right. */
  lemma WrongHeaderBeatsRightBearer(path: string, key: string, apiKey: string)
    requires key != "" && key != apiKey && path !in PublicPaths
    ensures Dispatch(Request(path, Some(key), Some(BearerPrefix + apiKey)), apiKey).Reject?
  {
  }

  /** With an empty configured key no request to a private path passes. */
  lemma EmptyKeyLocksOut(req: Request)
    requires req.path !in PublicPaths
    ensures Dispatch(req, "").Reject?
  {
  }

  /** Two spaces after `Bearer` yield an empty token, which is refused. */
  lemma DoubleSpaceRefused(path: string, rest: string, apiKey: string)
    requires path !in PublicPaths
    ensures Dispatch(Request(path, None, Some(BearerPrefix + " " + rest)), apiKey).Reject?
  {
    var h := BearerPrefix + " " + rest;
    assert h[6] == ' ';
    assert forall j :: 0 <= j < 6 ==> h[j] != ' ';
    assert Find(h, ' ') == 6;
    var tail := h[7..];
    assert tail[0] == ' ';
    assert Find(tail, ' ') == 0;
    assert SplitOn(tail, ' ')[0] == "";
    assert h[..|BearerPrefix|] == BearerPrefix;
  }
}

=== FILE: cache.dfy ===
/** The response cache. A key is derived from the prompt and the serialised
    sampling parameters; reads and writes go to a Redis store, modelled here as
    a map from keys to values with expiry times. The manager holds no client
    when the library is missing, no URL is configured or the connection check
    fails, and every store failure is swallowed: the cache fails open. */
module Cache {
  import opened Wrappers
  import opened Strings

  const KeyPrefix := "novalm:cache:"
  const DefaultTtl := 3600

  /** A stored value and the instant (in seconds) from which it has expired. */
  datatype Entry = Entry(value: string, expiresAt: int)

  /** A connected store: its keys, and whether calls to it currently succeed. */
  datatype Store = Store(entries: map<string, Entry>, healthy: bool)

  datatype CacheManager = CacheManager(client: Option<Store>)

  /** Construction: a client is kept only if the library imports, the URL is
      non-empty and the connection check succeeds. */
  function Init(libraryAvailable: bool, redisUrl: string, pingOk: bool, server: Store): (cm: CacheManager)
    ensures cm.client.Some? <==> libraryAvailable && redisUrl != "" && pingOk
    ensures cm.client.Some? ==> cm.client.value == server
  {
    if libraryAvailable && redisUrl != "" && pingOk then CacheManager(Some(server))
    else CacheManager(None)
  }

  /** The string that is hashed: the prompt, then the serialised parameters when
      there are any, joined by an unescaped `|`. */
  function KeyString(prompt: string, params: Option<string>): string {
    match params
    case None => JoinWith("|", [prompt])
    case Some(p) => JoinWith("|", [prompt, p])
  }

  /** `_generate_key`: the prefix followed by the hex digest of the key string. */
  function GenerateKey(prompt: string, params: Option<string>, sha256: string -> string): (k: string)
    ensures IsPrefix(KeyPrefix, k)
    ensures k[|KeyPrefix|..] == sha256(KeyString(prompt, params))
  {
    KeyPrefix + sha256(KeyString(prompt, params))
  }

  /** `get`: the live value under the key, or `None` when there is no client,
      the store fails, or nothing live is stored. */
  function Get(cm: CacheManager, prompt: string, params: Option<string>, sha256: string -> string, now: int): (r: Option<string>)
    ensures cm.client.None? ==> r.None?
    ensures cm.client.Some? && !cm.client.value.healthy ==> r.None?
    ensures r.Some? <==> (cm.client.Some? && cm.client.value.healthy
                        && GenerateKey(prompt, params, sha256) in cm.client.value.entries
                        && now < cm.client.value.entries[GenerateKey(prompt, params, sha256)].expiresAt)
  {
    match cm.client
    case None => None
    case Some(store) =>
      if !store.healthy then None
      else
        var key := GenerateKey(prompt, params, sha256);
        if key in store.entries && now < store.entries[key].expiresAt then Some(store.entries[key].value)
        else None
  }

  /** `set`: stores the response under the key for `ttl` seconds. Without a
      client, with a failing store, or with a TTL the store refuses
      (non-positive), nothing changes and nothing is raised. */
  function Set(cm: CacheManager, prompt: string, response: string, params: Option<string>,
               sha256: string -> string, now: int, ttl: int): (r: CacheManager)
    ensures cm.client.None? ==> r == cm
    ensures cm.client.Some? && !cm.client.value.healthy ==> r == cm
    ensures ttl <= 0 ==> r == cm
    ensures r.client.Some? <==> cm.client.Some?
    ensures r.client.Some? ==> r.client.value.healthy == cm.client.value.healthy
    ensures r.client.Some? ==> forall k :: k != GenerateKey(prompt, params, sha256) ==>
              (k in r.client.value.entries <==> k in cm.client.value.entries)
              && (k in r.client.value.entries ==> r.client.value.entries[k] == cm.client.value.entries[k])
  {
    match cm.client
    case None => cm
    case Some(store) =>
      if !store.healthy || ttl <= 0 then cm
      else
        var key := GenerateKey(prompt, params, sha256);
        CacheManager(Some(store.(entries := store.entries[key := Entry(response, now + ttl)])))
  }

  /** A write followed, before the TTL runs out, by a read with the same prompt
      and parameters returns the written response. */
  lemma SetThenGet(cm: CacheManager, prompt: string, response: string, params: Option<string>,
                   sha256: string -> string, now: int, ttl: int, later: int)
    requires cm.client.Some? && cm.client.value.healthy
    requires 0 < ttl && now <= later < now + ttl
    ensures Get(Set(cm, prompt, response, params, sha256, now, ttl), prompt, params, sha256, later) == Some(response)
  {
  }

  /** After the TTL a read misses, unless something wrote the key again. */
  lemma SetThenGetExpired(cm: CacheManager, prompt: string, response: string, params: Option<string>,
                          sha256: string -> string, now: int, ttl: int, later: int)
    requires now + ttl <= later
    ensures Get(Set(cm, prompt, response, params, sha256, now, ttl), prompt, params, sha256, later).None?
            || (cm.client.Some? && ttl <= 0 && Get(cm, prompt, params, sha256, later).Some?)
  {
  }

  /** The join is not escaped: a `|` inside the prompt can imitate the parameter separator. */
  lemma SeparatorCollision(sha256: string -> string)
    ensures GenerateKey("a|b", None, sha256) == GenerateKey("a", Some("b"), sha256)
  {
    assert KeyString("a|b", None) == "a|b";
    assert KeyString("a", Some("b")) == "a" + "|" + "b";
    assert "a" + "|" + "b" == "a|b";
  }

  /** For prompts without `|`, distinct (prompt, parameters) pairs give distinct key strings. */
  lemma KeyStringInjective(p1: string, o1: Option<string>, p2: string, o2: Option<string>)
    requires '|' !in p1 && '|' !in p2
    requires KeyString(p1, o1) == KeyString(p2, o2)
    ensures p1 == p2 && o1 == o2
  {
    var s := KeyString(p1, o1);
    var parts1 := if o1.Some? then [p1, o1.value] else [p1];
    var parts2 := if o2.Some? then [p2, o2.value] else [p2];
    assert s == JoinWith(['|'], parts1);
    assert s == JoinWith(['|'], parts2);
    SplitJoinRoundTrip(s, '|');
    assert SplitOn(s, '|')[0] == p1 by {
      var k := Find(s, '|');
      if o1.Some? {
        assert s == p1 + "|" + o1.value;
        assert s[|p1|] == '|';
        assert forall j :: 0 <= j < |p1| ==> s[j] == p1[j];
        assert k == |p1|;
        assert s[..k] == p1;
      } else {
        assert s == p1;
      }
    }
    assert SplitOn(s, '|')[0] == p2 by {
      var k := Find(s, '|');
      if o2.Some? {
        assert s == p2 + "|" + o2.value;
        assert s[|p2|] == '|';
        assert forall j :: 0 <= j < |p2| ==> s[j] == p2[j];
        assert k == |p2|;
        assert s[..k] == p2;
      } else {
        assert s == p2;
      }
    }
    assert o1.Some? <==> '|' in s by {
      if o1.Some? {
        assert s[|p1|] == '|';
      }
    }
    assert o2.Some? <==> '|' in s by {
      if o2.Some? {
        assert s[|p2|] == '|';
      }
    }
    if o1.Some? && o2.Some? {
      assert p1 == p2;
      assert [p2, o2.value][1..] == [o2.value];
      assert KeyString(p2, o2) == p2 + "|" + o2.value;
      assert s == p1 + "|" + o1.value;
      assert s == p2 + "|" + o2.value;
      assert s == (p1 + "|") + o1.value;
      assert s == (p1 + "|") + o2.value;
      AppendCancel(p1 + "|", o1.value, o2.value);
    }
  }

  /** With an injective hash, keys collide only when prompts and parameters agree
      (for prompts without `|`). */
  lemma KeyInjective(p1: string, o1: Option<string>, p2: string, o2: Option<string>, sha256: string -> string)
    requires forall a, b :: sha256(a) == sha256(b) ==> a == b
    requires '|' !in p1 && '|' !in p2
    requires GenerateKey(p1, o1, sha256) == GenerateKey(p2, o2, sha256)
    ensures p1 == p2 && o1 == o2
  {
    AppendCancel(KeyPrefix, sha256(KeyString(p1, o1)), sha256(KeyString(p2, o2)));
    KeyStringInjective(p1, o1, p2, o2);
  }
}

=== FILE: chat_loop.dfy ===
/** The step loop of `handle_chat`: each pass takes one step on the
    transcript so far and records it in the trace, and the loop runs at most
    five passes. The steps themselves, and what a trace of them means, are
    defined in `Orchestrator`. */
module ChatLoop {
  import opened Types
  import opened Orchestrator
  import PosixPath
  import Prompts
  import Safety
  import FileSystem

  /** One pass of the loop body: the step's prompt, then the rest, recorded
      as the next step of the trace, which stays `Traced`: the new step is
      `Classified` by its own prompt and generation. Only the last item can
      be an error dict, which ends the request; only agent mode goes on,
      with a tool exchange; files change only in agent mode. */
  method TakeStep(request: ChatCompletionRequest, sp: SamplingParams, rid: string,
                  transcript: seq<ChatMessage>, texts: Prompts.Texts, env: Env, w: World, trace: seq<Pass>)
    returns (p: Pass)
    requires PosixPath.IsAbsolute(env.tools.workspace)
    requires Traced(trace, request, sp, texts, env)
    ensures p.rid == rid && p.transcript == transcript && p.before == w
    ensures Traced(trace + [p], request, sp, texts, env)
    ensures AllStamped(p.emitted, env, request.model)
    ensures ErrorOnlyLast(p.emitted)
    ensures p.next.Abort? <==> |p.emitted| > 0 && p.emitted[|p.emitted| - 1].ErrorChunk?
    ensures p.next.Continue? || p.next.Throw? ==> IsAgentMode(request)
    ensures p.next.Continue? ==> ToolExchange(p.next.assistant, p.next.tool)
    ensures !IsAgentMode(request) ==> p.after.fs == w.fs
    ensures FileSystem.Valid(w.fs) ==> FileSystem.Valid(p.after.fs)
  {
    var prompt := StepPrompt(transcript, request.tools, sp, IsAgentMode(request), texts, env, w.memory);
    var st := RunStep(prompt, request, sp, rid, transcript, env, w);
    p := Pass(rid, transcript, w, prompt, st.emitted, st.next, st.world);
    TracedAppend(trace, p, request, sp, texts, env);
  }

  /** One pass of the loop with its bookkeeping: the step runs on the
      transcript so far under the next step id, its record joins the trace,
      its items are yielded after the earlier ones, and only a tool exchange
      is appended to the transcript. */
  method Advance(request: ChatCompletionRequest, sp: SamplingParams, texts: Prompts.Texts, env: Env, world: World,
                 out: seq<Emitted>, transcript: seq<ChatMessage>, w: World, last: Next, trace: seq<Pass>)
    returns (out': seq<Emitted>, next: Next, w': World, transcript': seq<ChatMessage>, trace': seq<Pass>)
    requires PosixPath.IsAbsolute(env.tools.workspace)
    requires AllChunks(out) && AllStamped(out, env, request.model)
    requires Extends(request.messages, transcript)
    requires Progress(trace, request, sp, texts, env, world, transcript, out, w, last)
    requires trace != [] ==> last.Continue?
    ensures Progress(trace', request, sp, texts, env, world, transcript', out', w', next)
    ensures |trace'| == |trace| + 1 && trace'[..|trace|] == trace
    ensures trace'[|trace|].rid == StepId(env.requestId, |trace| + 1) && trace'[|trace|].transcript == transcript
    ensures trace'[|trace|].before == w && trace'[|trace|].next == next && trace'[|trace|].after == w'
    ensures out' == out + trace'[|trace|].emitted
    ensures Output(out', env, request.model, next)
    ensures next.Continue? || next.Throw? ==> IsAgentMode(request)
    ensures next.Continue? ==> transcript' == transcript + [next.assistant, next.tool]
                               && ToolExchange(next.assistant, next.tool)
    ensures !next.Continue? ==> transcript' == transcript
    ensures Extends(request.messages, transcript')
    ensures !IsAgentMode(request) ==> w'.fs == w.fs
    ensures FileSystem.Valid(w.fs) ==> FileSystem.Valid(w'.fs)
  {
    var p := TakeStep(request, sp, StepId(env.requestId, |trace| + 1), transcript, texts, env, w, trace);
    out', transcript' := Record(request, env, out, transcript, PassStep(p));
    next, w' := p.next, p.after;
    if !next.Abort? {
      ChunksUnlessError(out');
    }
    assert transcript'[..|transcript|] == transcript;
    ProgressExtend(trace, p, request, sp, texts, env, world, transcript, out, w, last, transcript');
    trace' := trace + [p];
    assert trace'[..|trace|] == trace;
  }

  /** The bookkeeping after a step: its items follow the earlier ones, and a
      tool exchange, and nothing else, is appended to the transcript. */
  method Record(request: ChatCompletionRequest, env: Env, out: seq<Emitted>, transcript: seq<ChatMessage>, st: Step)
    returns (out': seq<Emitted>, transcript': seq<ChatMessage>)
    requires AllChunks(out) && AllStamped(out, env, request.model)
    requires AllStamped(st.emitted, env, request.model) && ErrorOnlyLast(st.emitted)
    requires st.next.Abort? <==> |st.emitted| > 0 && st.emitted[|st.emitted| - 1].ErrorChunk?
    requires st.next.Continue? ==> ToolExchange(st.next.assistant, st.next.tool)
    requires Extends(request.messages, transcript)
    ensures out' == out + st.emitted
    ensures AllStamped(out', env, request.model) && ErrorOnlyLast(out')
    ensures st.next.Abort? <==> |out'| > 0 && out'[|out'| - 1].ErrorChunk?
    ensures st.next.Continue? ==> transcript' == transcript + [st.next.assistant, st.next.tool]
    ensures !st.next.Continue? ==> transcript' == transcript
    ensures Extends(request.messages, transcript')
  {
    if !st.next.Abort? {
      ChunksUnlessError(st.emitted);
    }
    JoinEmitted(out, st.emitted, env, request.model);
    out' := out + st.emitted;
    transcript' := transcript;
    if st.next.Continue? {
      ExtendsAppend(request.messages, transcript, st.next.assistant, st.next.tool);
      transcript' := transcript + [st.next.assistant, st.next.tool];
    }
  }

  /** `handle_chat`: everything it yields, how it ends, the state it leaves,
      the final transcript, the ids of the steps it ran, how the last one
      ended and the record of every step. The input check on the initial
      prompt raises before anything is yielded. */
  method HandleChat(request: ChatCompletionRequest, env: Env, world: World)
    returns (out: seq<Emitted>, term: Termination, world': World, transcript: seq<ChatMessage>,
             stepIds: seq<string>, last: Next, trace: seq<Pass>)
    requires PosixPath.IsAbsolute(env.tools.workspace)
    ensures PreCheck(request, env, world.memory).Some? ==>
              out == [] && stepIds == [] && trace == [] && world' == world && transcript == request.messages
              && last == Throw(Safety.ViolationMessage(PreCheck(request, env, world.memory).value))
    ensures PreCheck(request, env, world.memory).None? ==>
              Ran(trace, request, Prompts.Standard, env, world, transcript, out, world', last)
              && |stepIds| == |trace|
              && (|transcript| - |request.messages|) / 2 == (if last.Continue? then |stepIds| else |stepIds| - 1)
    ensures |stepIds| < MaxSteps ==> last.Finish? || last.Abort? || last.Throw?
    ensures term == (if last.Throw? then Threw(last.msg) else Normal)
    ensures stepIds == StepIds(env.requestId, |stepIds|)
    ensures !IsAgentMode(request) ==> |stepIds| <= 1 && transcript == request.messages
    ensures Extends(request.messages, transcript)
    ensures AllStamped(out, env, request.model)
    ensures ErrorOnlyLast(out)
    ensures last.Abort? <==> |out| > 0 && out[|out| - 1].ErrorChunk?
    ensures term.Threw? ==> AllChunks(out)
    ensures world'.fs != world.fs ==> IsAgentMode(request)
    ensures FileSystem.Valid(world.fs) ==> FileSystem.Valid(world'.fs)
  {
    out, term, world', transcript, stepIds, last, trace := HandleChatWith(request, Prompts.Standard, env, world);
  }

  /** `handle_chat` with the instruction texts as a parameter: the server
      passes `Prompts.Standard`. */
  method HandleChatWith(request: ChatCompletionRequest, texts: Prompts.Texts, env: Env, world: World)
    returns (out: seq<Emitted>, term: Termination, world': World, transcript: seq<ChatMessage>,
             stepIds: seq<string>, last: Next, trace: seq<Pass>)
    requires PosixPath.IsAbsolute(env.tools.workspace)
    ensures PreCheck(request, env, world.memory).Some? ==>
              out == [] && stepIds == [] && trace == [] && world' == world && transcript == request.messages
              && last == Throw(Safety.ViolationMessage(PreCheck(request, env, world.memory).value))
    ensures PreCheck(request, env, world.memory).None? ==>
              Ran(trace, request, texts, env, world, transcript, out, world', last)
              && |stepIds| == |trace|
              && (|transcript| - |request.messages|) / 2 == (if last.Continue? then |stepIds| else |stepIds| - 1)
    ensures |stepIds| < MaxSteps ==> last.Finish? || last.Abort? || last.Throw?
    ensures term == (if last.Throw? then Threw(last.msg) else Normal)
    ensures stepIds == StepIds(env.requestId, |stepIds|)
    ensures !IsAgentMode(request) ==> |stepIds| <= 1 && transcript == request.messages
    ensures Extends(request.messages, transcript)
    ensures AllStamped(out, env, request.model)
    ensures ErrorOnlyLast(out)
    ensures last.Abort? <==> |out| > 0 && out[|out| - 1].ErrorChunk?
    ensures term.Threw? ==> AllChunks(out)
    ensures world'.fs != world.fs ==> IsAgentMode(request)
    ensures FileSystem.Valid(world.fs) ==> FileSystem.Valid(world'.fs)
  {
    var violation := PreCheck(request, env, world.memory);
    if violation.Some? {
      last := Throw(Safety.ViolationMessage(violation.value));
      out, term, world', transcript, stepIds, trace := [], Threw(last.msg), world, request.messages, [], [];
      assert Extends(request.messages, transcript) by {
        assert transcript[..|request.messages|] == request.messages;
      }
    } else {
      out, term, world', transcript, stepIds, last, trace := Steps(request, texts, env, world);
    }
  }

  /** The step loop: at most five steps, each with its own id and classified
      by its own generation. Every step but the last appended a tool
      exchange; the loop stops before the fifth step only on a final answer,
      an error dict or an exception, and the last step went on to a tool
      exchange only when it was the fifth. */
  method Steps(request: ChatCompletionRequest, texts: Prompts.Texts, env: Env, world: World)
    returns (out: seq<Emitted>, term: Termination, world': World, transcript: seq<ChatMessage>,
             stepIds: seq<string>, last: Next, trace: seq<Pass>)
    requires PosixPath.IsAbsolute(env.tools.workspace)
    ensures Ran(trace, request, texts, env, world, transcript, out, world', last)
    ensures |stepIds| == |trace|
    ensures stepIds == StepIds(env.requestId, |stepIds|)
    ensures |stepIds| < MaxSteps ==> last.Finish? || last.Abort? || last.Throw?
    ensures (|transcript| - |request.messages|) / 2 == (if last.Continue? then |stepIds| else |stepIds| - 1)
    ensures term == (if last.Throw? then Threw(last.msg) else Normal)
    ensures !IsAgentMode(request) ==> |stepIds| == 1 && transcript == request.messages
    ensures Extends(request.messages, transcript)
    ensures AllStamped(out, env, request.model)
    ensures ErrorOnlyLast(out)
    ensures last.Abort? <==> |out| > 0 && out[|out| - 1].ErrorChunk?
    ensures term.Threw? ==> AllChunks(out)
    ensures world'.fs != world.fs ==> IsAgentMode(request)
    ensures FileSystem.Valid(world.fs) ==> FileSystem.Valid(world'.fs)
  {
    out, world', transcript, last, trace := Iterate(request, StepParams(request), texts, env, world);
    stepIds := StepIds(env.requestId, |trace|);
    term := if last.Throw? then Threw(last.msg) else Normal;
  }

  /** The `while` loop itself: it runs at least once and at most five times,
      and stops early only when a step did not go on to a tool exchange. */
  method Iterate(request: ChatCompletionRequest, sp: SamplingParams, texts: Prompts.Texts, env: Env, world: World)
    returns (out: seq<Emitted>, world': World, transcript: seq<ChatMessage>, last: Next, trace: seq<Pass>)
    requires PosixPath.IsAbsolute(env.tools.workspace)
    ensures 1 <= |trace| <= MaxSteps
    ensures |trace| < MaxSteps ==> !last.Continue?
    ensures !IsAgentMode(request) ==> transcript == request.messages && world'.fs == world.fs && |trace| == 1
    ensures Extends(request.messages, transcript)
    ensures Progress(trace, request, sp, texts, env, world, transcript, out, world', last)
    ensures Output(out, env, request.model, last)
    ensures FileSystem.Valid(world.fs) ==> FileSystem.Valid(world'.fs)
  {
    out, world', transcript, last, trace := [], world, request.messages, Finish, [];
    assert transcript[..|request.messages|] == request.messages;
    var agent := IsAgentMode(request);
    while |trace| < MaxSteps && (trace == [] || last.Continue?)
      invariant |trace| <= MaxSteps
      invariant trace == [] ==> last == Finish
      invariant !agent ==> transcript == request.messages && world'.fs == world.fs && |trace| <= 1 && !last.Continue?
      invariant Extends(request.messages, transcript)
      invariant Progress(trace, request, sp, texts, env, world, transcript, out, world', last)
      invariant Output(out, env, request.model, last)
      invariant FileSystem.Valid(world.fs) ==> FileSystem.Valid(world'.fs)
      decreases MaxSteps - |trace|
    {
      out, last, world', transcript, trace := Advance(request, sp, texts, env, world, out, transcript, world', last, trace);
    }
  }
}

=== FILE: engine.dfy ===
/** The inference engines. The vLLM backend reports cumulative text after
    each step; the engine is meant to turn that into the new piece of text
    per step. The mock engine streams a fixed sentence word by word. A stream
    is what an async iterator produces: some items, then either a normal end
    or an exception. */
module Engine {
  import opened Wrappers
  import opened Strings

  const NotInstalledMessage := "vLLM is not installed. Cannot start VLLMInferenceEngine."
  const NoCudaMessage := "CUDA is not available. vLLM requires a GPU."
  const NotInitializedMessage := "Engine not initialized. Call initialize() first."
  /** The mock sentence, written with its leading space apart. */
  const MockResponse := " " + "This is a mock response from NovaLM running on CPU. "

  datatype Stream = Stream(items: seq<string>, failure: Option<string>)

  datatype Engine = MockEngine | VllmEngine(initialized: bool)

  // ---------------------------------------------------------------------------
  // Deltas
  // ---------------------------------------------------------------------------

  /** `current_text[len(last_text):]`. */
  function Delta(last: string, cur: string): (d: string)
    ensures IsPrefix(last, cur) ==> cur == last + d
    ensures |cur| < |last| ==> d == ""
  {
    if |last| <= |cur| then cur[|last|..] else ""
  }

  /** Each cumulative text extends the one before it. */
  predicate Chain(last: string, outs: seq<string>)
    decreases |outs|
  {
    |outs| == 0 || (IsPrefix(last, outs[0]) && Chain(outs[0], outs[1..]))
  }

  /** The text an output sequence ends with. */
  function Final(last: string, outs: seq<string>): string {
    if |outs| == 0 then last else outs[|outs| - 1]
  }

  /** The second loop of `generate`: every non-empty delta, in order. */
  function DeltasFrom(last: string, outs: seq<string>): (ds: seq<string>)
    ensures forall i :: 0 <= i < |ds| ==> ds[i] != ""
    ensures |ds| <= |outs|
    decreases |outs|
  {
    if |outs| == 0 then []
    else
      var d := Delta(last, outs[0]);
      (if d != "" then [d] else []) + DeltasFrom(outs[0], outs[1..])
  }

  /** The text of the deltas: the first step's delta, then the rest's. */
  lemma DeltasHead(last: string, outs: seq<string>)
    requires |outs| > 0
    ensures Concat(DeltasFrom(last, outs)) == Delta(last, outs[0]) + Concat(DeltasFrom(outs[0], outs[1..]))
  {
    var d := Delta(last, outs[0]);
    var head := if d != "" then [d] else [];
    var rest := DeltasFrom(outs[0], outs[1..]);
    assert DeltasFrom(last, outs) == head + rest;
    ConcatAppend(head, rest);
    if d != "" {
      assert head[1..] == [];
    } else {
      assert "" + Concat(rest) == Concat(rest);
    }
  }

  /** On a chain, the deltas put back together give the final text. */
  lemma {:induction false} DeltasReassemble(last: string, outs: seq<string>)
    requires Chain(last, outs)
    ensures last + Concat(DeltasFrom(last, outs)) == Final(last, outs)
    decreases |outs|
  {
    if |outs| > 0 {
      var d := Delta(last, outs[0]);
      var rest := Concat(DeltasFrom(outs[0], outs[1..]));
      DeltasReassemble(outs[0], outs[1..]);
      DeltasHead(last, outs);
      Assoc(last, d, rest);
      assert last + d == outs[0];
      assert Final(outs[0], outs[1..]) == Final(last, outs);
    }
  }

  // ---------------------------------------------------------------------------
  // vLLM engine
  // ---------------------------------------------------------------------------

  /** `initialize`: needs the library and a GPU. */
  function Initialize(vllmInstalled: bool, cudaAvailable: bool): (r: Result<Engine, string>)
    ensures r.Success? <==> vllmInstalled && cudaAvailable
    ensures r.Success? ==> r.value == VllmEngine(true)
    ensures !vllmInstalled ==> r == Failure(NotInstalledMessage)
  {
    if !vllmInstalled then Failure(NotInstalledMessage)
    else if !cudaAvailable then Failure(NoCudaMessage)
    else Success(VllmEngine(true))
  }

  /** `generate` as written: the first loop consumes the backend's results and
      discards them, so the second loop finds the generator exhausted. A
      failure of the backend still surfaces, from the first loop. */
  function VllmGenerateAsWritten(initialized: bool, backend: Stream): (s: Stream)
    ensures s.items == []
    ensures !initialized ==> s.failure == Some(NotInitializedMessage)
    ensures initialized ==> s.failure == backend.failure
  {
    if !initialized then Stream([], Some(NotInitializedMessage))
    else Stream([], backend.failure)
  }

  /** `generate` with one loop, as its comments describe: the deltas of the
      cumulative texts. */
  function VllmGenerate(initialized: bool, backend: Stream): (s: Stream)
    ensures !initialized ==> s == Stream([], Some(NotInitializedMessage))
    ensures initialized ==> s.failure == backend.failure
    ensures initialized && Chain("", backend.items) ==> Concat(s.items) == Final("", backend.items)
  {
    if !initialized then Stream([], Some(NotInitializedMessage))
    else
      var s := Stream(DeltasFrom("", backend.items), backend.failure);
      if Chain("", backend.items) then
        DeltasReassemble("", backend.items);
        assert "" + Concat(s.items) == Concat(s.items);
        s
      else s
  }

  /** The defect: an initialised engine whose backend produces text yields none of it. */
  lemma AsWrittenLosesText()
    ensures VllmGenerateAsWritten(true, Stream(["Hi"], None)).items == []
    ensures VllmGenerate(true, Stream(["Hi"], None)).items == ["Hi"]
  {
    assert Delta("", "Hi") == "Hi";
    assert DeltasFrom("Hi", []) == [];
  }

  // ---------------------------------------------------------------------------
  // Mock engine
  // ---------------------------------------------------------------------------

  /** Each word of `text.split(" ")` followed by a space. */
  function Suffixed(words: seq<string>, sep: string): (r: seq<string>)
    ensures |r| == |words|
    ensures forall i :: 0 <= i < |r| ==> r[i] == words[i] + sep
    decreases |words|
  {
    if words == [] then [] else [words[0] + sep] + Suffixed(words[1..], sep)
  }

  /** The mock engine's chunks. */
  function MockChunks(): seq<string> {
    Suffixed(SplitOn(MockResponse, ' '), " ")
  }

  lemma {:induction false} SuffixedConcat(words: seq<string>, sep: string)
    requires |words| >= 1
    ensures Concat(Suffixed(words, sep)) == JoinWith(sep, words) + sep
    decreases |words|
  {
    if |words| > 1 {
      SuffixedConcat(words[1..], sep);
      assert Suffixed(words, sep)[1..] == Suffixed(words[1..], sep);
    }
  }

  /** The mock stream adds up to its sentence plus one trailing space, and its
      first chunk is a lone space (the sentence starts with one). */
  lemma MockStreamText()
    ensures Concat(MockChunks()) == MockResponse + " "
    ensures MockChunks()[0] == " "
  {
    var words := SplitOn(MockResponse, ' ');
    SuffixedConcat(words, " ");
    SplitJoinRoundTrip(MockResponse, ' ');
    MockFirstWordEmpty();
  }

  lemma MockFirstWordEmpty()
    ensures SplitOn(MockResponse, ' ')[0] == ""
  {
    assert MockResponse[0] == ' ';
    assert Find(MockResponse, ' ') == 0;
  }

  /** What the orchestrator receives from `generate`: the mock ignores its
      prompt; vLLM yields the corrected deltas. */
  function Generate(e: Engine, backend: Stream): (s: Stream)
    ensures e.MockEngine? ==> s == Stream(MockChunks(), None)
    ensures e.VllmEngine? && e.initialized && Chain("", backend.items) ==> Concat(s.items) == Final("", backend.items)
    ensures e == VllmEngine(false) ==> s.failure == Some(NotInitializedMessage)
  {
    match e
    case MockEngine => Stream(MockChunks(), None)
    case VllmEngine(init) => VllmGenerate(init, backend)
  }

  // ---------------------------------------------------------------------------
  // Factory
  // ---------------------------------------------------------------------------

  /** `get_inference_engine`: the engine kept from an earlier call, or a new
      mock or (uninitialised) vLLM engine by the setting; the new engine is kept. */
  function GetInferenceEngine(kept: Option<Engine>, allowMock: bool): (r: (Engine, Option<Engine>))
    ensures r.1 == Some(r.0)
    ensures kept.Some? ==> r.0 == kept.value
    ensures kept.None? ==> r.0 == (if allowMock then MockEngine else VllmEngine(false))
  {
    match kept
    case Some(e) => (e, kept)
    case None => var e := if allowMock then MockEngine else VllmEngine(false); (e, Some(e))
  }

  /** The setting is read once: later calls return the first engine whatever the setting says then. */
  lemma FactoryKeepsFirstEngine(kept: Option<Engine>, first: bool, later: bool)
    ensures GetInferenceEngine(GetInferenceEngine(kept, first).1, later).0 == GetInferenceEngine(kept, first).0
  {
  }
}

=== FILE: evaluator.dfy ===
/** The evaluator: runs generated code followed by a test harness through the
    Python execution tool and classifies the outcome as PASS or FAIL. */
module Evaluator {
  import opened Wrappers
  import opened Strings
  import opened JsonValue
  import opened ToolBase
  import opened PythonExec
  import FileSystem

  const HarnessSeparator := "\n\n# --- TEST HARNESS ---\n"
  const PassFeedback := "Tests passed successfully."

  datatype Verdict = Pass | Fail

  datatype Evaluation = Evaluation(status: Verdict, feedback: string)

  /** The verdict, or the message of an escaping `BaseException`, and the
      files the test run leaves. */
  datatype Evaluated = Evaluated(result: Result<Evaluation, string>, fs: FileSystem.Fs)

  /** The script handed to the execution tool. */
  function Script(code: string, test: string): (s: string)
    ensures IsPrefix(code, s) && IsSuffix(test, s)
    ensures |s| == |code| + |HarnessSeparator| + |test|
    ensures s[|code|..|code| + |HarnessSeparator|] == HarnessSeparator
  {
    var s := code + HarnessSeparator + test;
    assert s[..|code|] == code;
    assert s[|s| - |test|..] == test;
    s
  }

  /** `result.get(key, "")` on the tool's reply, as text. */
  function TextField(out: map<string, Json>, key: string): string {
    var j := Get(out, key, JStr(""));
    if j.JStr? then j.s else ""
  }

  /** Whether stderr carries one of the failure markers. */
  predicate LooksFailed(stderr: string) {
    Contains(stderr, "Traceback") || Contains(stderr, "Error") || Contains(stderr, "FAILED")
  }

  /** `Evaluator.evaluate`: `Failure` when the script raised a `BaseException`
      that escapes the execution tool. */
  function Evaluate(code: string, test: string, fs: FileSystem.Fs, exec: (string, FileSystem.Fs) -> ExecRun): (ev: Evaluated)
    ensures var run := exec(Script(code, test), fs); var r := ev.result;
      && (r.Failure? <==> run.outcome.RaisedBase?)
      && (r.Success? ==> (r.value.status == Pass <==> run.outcome.Completed? && run.stderr == ""))
      && (r.Success? && r.value.status == Pass ==> r.value.feedback == PassFeedback)
      && (r.Success? && r.value.status == Fail ==>
            r.value.feedback == "Execution Error:\n" + run.stderr + "\n" + Summary(run.outcome))
      && ev.fs == run.fs
  {
    var script := Script(code, test);
    assert Truthy(JStr(script));
    var e := Run(JObj(map["code" := JStr(script)]), fs, exec);
    match e.result
    case Escaped(m) => Evaluated(Failure(m), e.fs)
    case Raised(m) => Evaluated(Failure(m), e.fs)
    case Returned(out) =>
      if Get(out, "status", JNull) == JStr("error") then
        Evaluated(Success(Evaluation(Fail, "Execution Error:\n" + TextField(out, "stderr") + "\n" + TextField(out, "result_summary"))), e.fs)
      else if LooksFailed(TextField(out, "stderr")) then
        Evaluated(Success(Evaluation(Fail, "Test Failed:\n" + TextField(out, "stderr"))), e.fs)
      else Evaluated(Success(Evaluation(Pass, PassFeedback)), e.fs)
  }

  /** Once the execution tool reports success, stderr is empty, so the
      stderr-marker branch can never decide the verdict. */
  lemma StderrBranchUnreachable(code: string, test: string, fs: FileSystem.Fs, exec: (string, FileSystem.Fs) -> ExecRun)
    ensures var r := Evaluate(code, test, fs, exec).result;
      r.Success? ==> !IsPrefix("Test Failed:", r.value.feedback)
  {
    var r := Evaluate(code, test, fs, exec).result;
    if r.Success? && r.value.status == Fail {
      var f := r.value.feedback;
      assert f[0] == 'E';
      assert !IsPrefix("Test Failed:", f) by {
        if |f| >= 12 {
          assert f[..12][0] == 'E';
        }
      }
    } else if r.Success? {
      assert PassFeedback[..12][4] == 's';
    }
  }
}

=== FILE: file_system.dfy ===
/** The file tool: reads and writes files below the workspace directory. The
    file system is a value (a map from absolute paths to contents, and a set
    of directories) that the tool receives and returns; the path check is the
    one the tool performs, a string-prefix test on the normalised path. */
module FileSystem {
  import opened Wrappers
  import opened Strings
  import opened JsonValue
  import opened ToolBase
  import opened PosixPath

  const Name := "file_tool"
  const DeniedOutput := "Access denied: Path outside workspace."
  const NotFoundOutput := "File not found."
  const UnknownOperationOutput := "Unknown operation."

  datatype Fs = Fs(files: map<string, string>, dirs: set<string>)

  /** A path names a file or a directory, never both. */
  predicate Valid(fs: Fs) {
    fs.files.Keys !! fs.dirs
  }

  /** A file system as the operating system can leave it: what executed code
      or a shell command leaves behind is of this type. */
  type ValidFs = fs: Fs | Valid(fs) witness Fs(map[], {})

  /** `os.path.exists`: false for a path with an embedded NUL, which the
      operating system cannot be asked about. */
  predicate Exists(fs: Fs, path: string) {
    '\0' !in path && (path in fs.files || path in fs.dirs)
  }

  /** The one-line text of an `OSError` raised by `open`. */
  function OsErrorMessage(errno: nat, reason: string, path: string): string {
    "[Errno " + NatToString(errno) + "] " + reason + ": '" + path + "'"
  }

  /** The TypeError of a text file's `write` given something other than a string. */
  function WriteArgMessage(content: Json): string {
    "write() argument must be str, not " + (if content.JNull? then "None" else TypeName(content))
  }

  function WrittenOutput(filename: string): string {
    "File " + filename + " written."
  }

  /** The outcome of one call: what the tool returned or raised, and the file
      system afterwards. */
  datatype Effect = Effect(result: ToolResult, fs: Fs)

  /** `os.path.abspath(os.path.join(WORKSPACE_DIR, filename))`. */
  function SafePath(ws: string, filename: Json): (r: Result<string, string>)
    requires IsAbsolute(ws)
    ensures r.Success? <==> filename.JStr?
    ensures r.Failure? ==> r.error == PathTypeMessage(filename)
    ensures r.Success? ==> r.value == AbsPath(ws, filename.s)
  {
    if filename.JStr? then Success(AbsPath(ws, filename.s)) else Failure(PathTypeMessage(filename))
  }

  /** The path check: the normalised path must start with the workspace path
      as a string. A sibling directory whose name extends the workspace's
      passes it as well (see `SiblingAccepted`). */
  predicate Inside(ws: string, path: string) {
    IsPrefix(ws, path)
  }

  /** Reading in text mode with universal newlines: "\r\n" and a lone "\r"
      both read as "\n"; writing stores the text unchanged. */
  function UniversalNewlines(s: string): (r: string)
    ensures '\r' !in r
    ensures r == s <==> '\r' !in s
    ensures |r| <= |s|
    ensures '\n' in s ==> '\n' in r
  {
    if s == [] then []
    else if s[0] == '\r' then
      "\n" + UniversalNewlines(if |s| > 1 && s[1] == '\n' then s[2..] else s[1..])
    else [s[0]] + UniversalNewlines(s[1..])
  }

  /** Every line ending in a text read back is the single character "\n". */
  lemma CrLfReadsAsLf()
    ensures UniversalNewlines("a\r\nb") == "a\nb"
    ensures UniversalNewlines("a\rb") == "a\nb"
  {
  }

  /** The read branch: a missing path is reported, a directory cannot be
      opened, a file's contents are returned as text mode reads them. */
  function Read(fs: Fs, path: string): (r: ToolResult)
    ensures !Exists(fs, path) <==> r == Returned(StatusOutput("error", NotFoundOutput))
    ensures r.Returned? && r != Returned(StatusOutput("error", NotFoundOutput)) ==>
              path in fs.files
              && r.out == map["status" := JStr("success"), "content" := JStr(UniversalNewlines(fs.files[path]))]
    ensures r.Raised? <==> Exists(fs, path) && path in fs.dirs
    ensures !r.Escaped?
  {
    if !Exists(fs, path) then Returned(StatusOutput("error", NotFoundOutput))
    else if path in fs.dirs then Raised(OsErrorMessage(21, "Is a directory", path))
    else Returned(map["status" := JStr("success"), "content" := JStr(UniversalNewlines(fs.files[path]))])
  }

  /** The write branch. `open(path, "w")` fails on an embedded NUL, on a
      directory, when the parent is a file and when the parent directory is
      missing; otherwise it
      truncates the file, and a non-string content then fails the `write`
      with the file left empty. */
  function Write(fs: Fs, path: string, filename: string, content: Json): (e: Effect)
    ensures e.fs.dirs == fs.dirs
    ensures forall p :: p in e.fs.files && p != path ==> p in fs.files && e.fs.files[p] == fs.files[p]
    ensures forall p :: p in fs.files ==> p in e.fs.files
    ensures e.result.Returned? <==> ('\0' !in path && path !in fs.dirs && DirName(path) in fs.dirs && content.JStr?)
    ensures e.result.Returned? ==> e.result.out == StatusOutput("success", WrittenOutput(filename))
                                   && e.fs.files == fs.files[path := content.s]
    ensures e.fs != fs ==> path in e.fs.files && path !in fs.dirs && DirName(path) in fs.dirs
    ensures '\0' !in path && path !in fs.dirs && DirName(path) !in fs.dirs && DirName(path) in fs.files ==>
              e == Effect(Raised(OsErrorMessage(20, "Not a directory", path)), fs)
    ensures '\0' !in path && path !in fs.dirs && DirName(path) !in fs.dirs && DirName(path) !in fs.files ==>
              e == Effect(Raised(OsErrorMessage(2, "No such file or directory", path)), fs)
    ensures !e.result.Escaped?
  {
    if '\0' in path then Effect(Raised(NullByteMessage), fs)
    else if path in fs.dirs then Effect(Raised(OsErrorMessage(21, "Is a directory", path)), fs)
    else if DirName(path) !in fs.dirs then
      if DirName(path) in fs.files then Effect(Raised(OsErrorMessage(20, "Not a directory", path)), fs)
      else Effect(Raised(OsErrorMessage(2, "No such file or directory", path)), fs)
    else if content.JStr? then
      Effect(Returned(StatusOutput("success", WrittenOutput(filename))), fs.(files := fs.files[path := content.s]))
    else
      Effect(Raised(WriteArgMessage(content)), fs.(files := fs.files[path := ""]))
  }

  /** The operation named in the input, as the tool reads it. */
  function Operation(input: map<string, Json>): Json {
    Get(input, "operation", JNull)
  }

  /** `FileTool.run`. */
  function Run(input: Json, ws: string, fs: Fs): (e: Effect)
    requires IsAbsolute(ws)
    ensures !input.JObj? ==> e == Effect(Raised(NoGetMessage(input)), fs)
    ensures input.JObj? && !Get(input.fields, "filename", JNull).JStr? ==>
              e == Effect(Raised(PathTypeMessage(Get(input.fields, "filename", JNull))), fs)
    ensures input.JObj? && Get(input.fields, "filename", JNull).JStr?
            && !Inside(ws, AbsPath(ws, input.fields["filename"].s)) ==>
              e == Effect(Returned(StatusOutput("error", DeniedOutput)), fs)
    ensures input.JObj? && Get(input.fields, "filename", JNull).JStr?
            && Inside(ws, AbsPath(ws, input.fields["filename"].s)) ==>
              var filename := input.fields["filename"].s;
              var path := AbsPath(ws, filename);
              (Operation(input.fields) == JStr("read") ==> e == Effect(Read(fs, path), fs))
              && (Operation(input.fields) == JStr("write") ==>
                    e == Write(fs, path, filename, Get(input.fields, "content", JStr(""))))
              && (Operation(input.fields) != JStr("read") && Operation(input.fields) != JStr("write") ==>
                    e == Effect(Returned(StatusOutput("error", UnknownOperationOutput)), fs))
    ensures !(input.JObj? && Operation(input.fields) == JStr("write")) ==> e.fs == fs
    ensures input.JObj? && Operation(input.fields) != JStr("read") && Operation(input.fields) != JStr("write")
            && e.result.Returned? ==>
              e.result.out == StatusOutput("error", DeniedOutput) || e.result.out == StatusOutput("error", UnknownOperationOutput)
    ensures Valid(fs) ==> Valid(e.fs)
    ensures !e.result.Escaped?
  {
    if !input.JObj? then Effect(Raised(NoGetMessage(input)), fs)
    else
      var op := Operation(input.fields);
      var filename := Get(input.fields, "filename", JNull);
      var content := Get(input.fields, "content", JStr(""));
      match SafePath(ws, filename)
      case Failure(msg) => Effect(Raised(msg), fs)
      case Success(path) =>
        if !Inside(ws, path) then Effect(Returned(StatusOutput("error", DeniedOutput)), fs)
        else if op == JStr("read") then Effect(Read(fs, path), fs)
        else if op == JStr("write") then Write(fs, path, filename.s, content)
        else Effect(Returned(StatusOutput("error", UnknownOperationOutput)), fs)
  }

  // ---------------------------------------------------------------------------
  // Requests as the agent writes them
  // ---------------------------------------------------------------------------

  function ReadRequest(filename: string): Json {
    JObj(map["operation" := JStr("read"), "filename" := JStr(filename)])
  }

  function WriteRequest(filename: string, content: string): Json {
    JObj(map["operation" := JStr("write"), "filename" := JStr(filename), "content" := JStr(content)])
  }

  /** A successful write is visible to the next read of the same name, with
      its line endings as text mode reads them. */
  lemma WriteThenRead(ws: string, fs: Fs, filename: string, content: string)
    requires IsAbsolute(ws) && Valid(fs)
    requires Run(WriteRequest(filename, content), ws, fs).result == Returned(StatusOutput("success", WrittenOutput(filename)))
    ensures Run(ReadRequest(filename), ws, Run(WriteRequest(filename, content), ws, fs).fs).result
            == Returned(map["status" := JStr("success"), "content" := JStr(UniversalNewlines(content))])
  {
    var path := AbsPath(ws, filename);
    assert Operation(WriteRequest(filename, content).fields) == JStr("write");
    assert Operation(ReadRequest(filename).fields) == JStr("read");
    assert StatusOutput("success", WrittenOutput(filename)) != StatusOutput("error", DeniedOutput) by {
      assert StatusOutput("success", WrittenOutput(filename))["status"] == JStr("success");
    }
    assert Inside(ws, path);
    var after := Run(WriteRequest(filename, content), ws, fs).fs;
    assert after.files == fs.files[path := content];
    assert Exists(after, path);
  }

  /** Text written with a "\r\n" line ending reads back with "\n". */
  lemma CrLfWrittenReadsAsLf(ws: string, fs: Fs, filename: string)
    requires IsAbsolute(ws) && Valid(fs)
    requires Run(WriteRequest(filename, "a\r\nb"), ws, fs).result == Returned(StatusOutput("success", WrittenOutput(filename)))
    ensures Run(ReadRequest(filename), ws, Run(WriteRequest(filename, "a\r\nb"), ws, fs).fs).result
            == Returned(map["status" := JStr("success"), "content" := JStr("a\nb")])
  {
    WriteThenRead(ws, fs, filename, "a\r\nb");
    CrLfReadsAsLf();
  }

  function WriteRequestWithoutContent(filename: string): Json {
    JObj(map["operation" := JStr("write"), "filename" := JStr(filename)])
  }

  /** A write without a `content` field creates an empty file. */
  lemma WriteDefaultsToEmpty(ws: string, fs: Fs, filename: string)
    requires IsAbsolute(ws)
    requires Run(WriteRequestWithoutContent(filename), ws, fs).result == Returned(StatusOutput("success", WrittenOutput(filename)))
    ensures Run(WriteRequestWithoutContent(filename), ws, fs).fs.files == fs.files[AbsPath(ws, filename) := ""]
  {
    var input := WriteRequestWithoutContent(filename).fields;
    assert Operation(input) == JStr("write");
    assert Get(input, "filename", JNull) == JStr(filename);
    assert Get(input, "content", JStr("")) == JStr("");
    assert StatusOutput("success", WrittenOutput(filename)) != StatusOutput("error", DeniedOutput) by {
      assert StatusOutput("success", WrittenOutput(filename))["status"] == JStr("success");
    }
  }

  /** A relative name built from ordinary components passes the path check. */
  lemma RelativeNameAccepted(wc: seq<string>, nc: seq<string>)
    requires |wc| > 0 && AllProper(wc)
    requires |nc| > 0 && AllProper(nc)
    ensures Inside(DirOf(wc), AbsPath(DirOf(wc), JoinWith("/", nc)))
  {
    var ws := DirOf(wc);
    RelativeStaysInside(wc, nc);
    PrefixOfAppend(ws, "/");
    PrefixOfAppend(ws + "/", JoinWith("/", nc));
    PrefixTrans(ws, ws + "/", ws + "/" + JoinWith("/", nc));
  }

  lemma NoNulInChild(ws: string, name: string)
    requires '\0' !in ws && '\0' !in name
    ensures '\0' !in ws + "/" + name
  {
    var path := ws + "/" + name;
    forall k | 0 <= k < |path|
      ensures path[k] != '\0'
    {
      if k < |ws| {
        assert path[k] == ws[k];
      } else if k > |ws| {
        assert path[k] == name[k - |ws| - 1];
      }
    }
  }

  /** A write request whose path passes the check goes to the write branch. */
  lemma RunWriteRequest(ws: string, fs: Fs, filename: string, content: string)
    requires IsAbsolute(ws) && Inside(ws, AbsPath(ws, filename))
    ensures Run(WriteRequest(filename, content), ws, fs) == Write(fs, AbsPath(ws, filename), filename, JStr(content))
  {
    var input := WriteRequest(filename, content).fields;
    assert Operation(input) == JStr("write");
    assert Get(input, "filename", JNull) == JStr(filename);
    assert Get(input, "content", JStr("")) == JStr(content);
  }

  /** A top-level file in an existing workspace directory can be written, and
      lands exactly at `<workspace>/<name>`. */
  lemma TopLevelWriteSucceeds(wc: seq<string>, fs: Fs, name: string, content: string)
    requires |wc| > 0 && AllProper(wc) && Proper(name) && '\0' !in name
    requires DirOf(wc) in fs.dirs && DirOf(wc) + "/" + name !in fs.dirs
    requires '\0' !in DirOf(wc)
    ensures Run(WriteRequest(name, content), DirOf(wc), fs)
            == Effect(Returned(StatusOutput("success", WrittenOutput(name))),
                      fs.(files := fs.files[DirOf(wc) + "/" + name := content]))
  {
    var ws := DirOf(wc);
    var path := ws + "/" + name;
    assert JoinWith("/", [name]) == name;
    RelativeNameAccepted(wc, [name]);
    RelativeStaysInside(wc, [name]);
    assert AbsPath(ws, name) == path;
    DirNameOfChild(wc, name);
    NoNulInChild(ws, name);
    RunWriteRequest(ws, fs, name, content);
  }

  /** `..` alone is refused: the parent of the workspace is shorter than it. */
  lemma ParentDenied(wc: seq<string>, fs: Fs, op: Json)
    requires |wc| > 0 && AllProper(wc)
    ensures Run(JObj(map["operation" := op, "filename" := JStr("..")]), DirOf(wc), fs)
            == Effect(Returned(StatusOutput("error", DeniedOutput)), fs)
  {
    ParentIsShorter(wc);
  }

  /** The prefix test lets through a sibling of the workspace whose name
      extends the workspace's name (`workspace_evil` next to `workspace`). */
  lemma SiblingAccepted(wc: seq<string>, suffix: string)
    requires |wc| > 0 && AllProper(wc)
    requires Proper(wc[|wc| - 1] + suffix) && |suffix| > 0
    ensures Inside(DirOf(wc), AbsPath(DirOf(wc), "../" + (wc[|wc| - 1] + suffix)))
    ensures AbsPath(DirOf(wc), "../" + (wc[|wc| - 1] + suffix)) != DirOf(wc)
    ensures !IsPrefix(DirOf(wc) + "/", AbsPath(DirOf(wc), "../" + (wc[|wc| - 1] + suffix)))
  {
    SiblingSharesPrefix(wc, suffix);
    var ws := DirOf(wc);
    var p := ws + suffix;
    PrefixOfAppend(ws, suffix);
    assert p[|ws|] == suffix[0];
    assert suffix[0] != '/' by {
      var lx := wc[|wc| - 1] + suffix;
      assert lx[|wc[|wc| - 1]|] == suffix[0];
    }
    assert p[..|ws| + 1] != ws + "/" by {
      assert p[..|ws| + 1][|ws|] == suffix[0];
      assert (ws + "/")[|ws|] == '/';
    }
  }
}

=== FILE: json_value.dfy ===
/** Decoded JSON values, as `json.loads` produces them, and the few Python
    operations the core applies to them (`dict.get`, truthiness). Encoding and
    decoding themselves are left abstract: callers receive them as functions. */
module JsonValue {
  import opened Wrappers

  datatype Json =
    | JNull
    | JBool(b: bool)
    | JInt(i: int)
    | JReal(r: real)
    | JStr(s: string)
    | JArr(items: seq<Json>)
    | JObj(fields: map<string, Json>)

  /** Python truthiness of the decoded value. */
  predicate Truthy(j: Json) {
    match j
    case JNull => false
    case JBool(b) => b
    case JInt(i) => i != 0
    case JReal(r) => r != 0.0
    case JStr(s) => |s| > 0
    case JArr(items) => |items| > 0
    case JObj(fields) => |fields| > 0
  }

  /** `d.get(key, default)` on a dict. */
  function Get(d: map<string, Json>, key: string, default: Json): (r: Json)
    ensures key in d ==> r == d[key]
    ensures key !in d ==> r == default
  {
    if key in d then d[key] else default
  }

  /** Each string as a JSON string. */
  function JStrs(xs: seq<string>): (js: seq<Json>)
    ensures |js| == |xs|
    ensures forall i :: 0 <= i < |xs| ==> js[i] == JStr(xs[i])
    decreases |xs|
  {
    if xs == [] then [] else [JStr(xs[0])] + JStrs(xs[1..])
  }

  /** Each dict as a JSON object. */
  function JObjs(ms: seq<map<string, Json>>): (js: seq<Json>)
    ensures |js| == |ms|
    ensures forall i :: 0 <= i < |ms| ==> js[i] == JObj(ms[i])
    decreases |ms|
  {
    if ms == [] then [] else [JObj(ms[0])] + JObjs(ms[1..])
  }

  /** The texts of a list of JSON strings. */
  function StrsOf(js: seq<Json>): (xs: seq<string>)
    requires forall i :: 0 <= i < |js| ==> js[i].JStr?
    ensures |xs| == |js|
    ensures forall i :: 0 <= i < |js| ==> xs[i] == js[i].s
    decreases |js|
  {
    if js == [] then [] else [js[0].s] + StrsOf(js[1..])
  }

  /** The dicts of a list of JSON objects. */
  function FieldsOf(js: seq<Json>): (ms: seq<map<string, Json>>)
    requires forall i :: 0 <= i < |js| ==> js[i].JObj?
    ensures |ms| == |js|
    ensures forall i :: 0 <= i < |js| ==> ms[i] == js[i].fields
    decreases |js|
  {
    if js == [] then [] else [js[0].fields] + FieldsOf(js[1..])
  }

  /** A decoder in the sense of `json.loads`: the empty document is not JSON. */
  ghost predicate RejectsEmpty(decode: string -> Result<Json, string>) {
    decode("").Failure?
  }
}

=== FILE: orchestrator.dfy ===
/** The orchestrator: prompt assembly from the transcript, the sampling
    presets, and the steps of the bounded ReAct loop of `handle_chat`, with
    what a trace of them means (the loop itself is `ChatLoop`). Each step
    assembles a prompt, checks it, answers from the cache or streams a
    generation, looks for a tool call in the answer, runs the tool (with an
    optional test run through the evaluator) and appends the exchange to the
    transcript.

    Everything the loop asks of the outside world is a field of `Env`: memory
    retrieval, JSON encoding and decoding, `str()` of a value, e-mail
    redaction, parameter serialisation, SHA-256, the engine's backend, the
    request id and the clocks. The mutable state the loop touches (cache,
    workspace files, experience memory) is a `World` value. */
module Orchestrator {
  import opened Wrappers
  import opened Strings
  import opened JsonValue
  import opened Types
  import opened ToolBase
  import PosixPath
  import Prompts
  import Safety
  import Cache
  import Evaluator
  import Engine
  import Registry
  import FileSystem
  import PythonExec

  const MaxSteps := 5
  const JsonModeInstruction := "SYSTEM: You must output a valid JSON object.\n"
  const SafetyViolationText := "Safety Violation in Input"
  const ContextHeader := "\nCONTEXT:\n"
  const ContextLead := "Use the following context to answer.\n"
  const ExperienceHeader := "\nNOVELTY CHECK - EXISTING KNOWLEDGE:\n"
  const ExperienceWarning :=
    "(Warning: Do not simply repeat these if they failed. If they succeeded, try to improve or apply to new context.)\n"
  const ToolsHeader := "\nAVAILABLE TOOLS:\n"
  const ToolsFooter := "\n\nTo use a tool, please output the JSON format of the tool call.\n"
  const ToolOutputPrefix := "Tool Output: "
  const FinalAnswer := "final_answer"
  /** The name the self-correction step tests for besides `python_exec`. */
  const WriteFileName := "write_file"
  const TestPassedFeedback := "TEST PASSED! Great job."
  const TestsFailedNotice := "\n\n[System: Tests Failed. Auto-Correcting...]\n\n"
  const TestsPassedNotice := "\n\n[System: Tests Passed!]\n\n"
  const UnknownTask := "Unknown Task"

  // ---------------------------------------------------------------------------
  // Environment, state and output
  // ---------------------------------------------------------------------------

  /** The vector memory: whether its collections exist, and the experience
      documents stored so far. */
  datatype Memory = Memory(available: bool, experiences: seq<string>)

  datatype World = World(cache: Cache.CacheManager, fs: FileSystem.Fs, memory: Memory)

  datatype Env = Env(
    safetyEnabled: bool,
    requestId: string,
    created: int,
    now: int,
    retrieveDocs: string -> seq<string>,
    retrieveExperiences: (seq<string>, string) -> seq<string>,
    dumps: Json -> string,
    dumpsIndented: Json -> string,
    format: Json -> string,
    decode: string -> Result<Json, string>,
    redact: string -> string,
    dumpParams: SamplingParams -> string,
    sha256: string -> string,
    engine: Engine.Engine,
    backend: (string, SamplingParams, string) -> Engine.Stream,
    tools: Registry.ToolEnv)

  /** What `handle_chat` yields: a response chunk, or the error dict. */
  datatype Emitted = Chunk(chunk: ChatCompletionResponseChunk) | ErrorChunk(body: Json)

  /** How `handle_chat` ends: normally, or with an exception escaping it. */
  datatype Termination = Normal | Threw(msg: string)

  /** `f"{x}"` for a decoded JSON value: a string is itself, anything else is
      rendered by `str`. */
  function Display(env: Env, j: Json): (s: string)
    ensures j.JStr? ==> s == j.s
  {
    if j.JStr? then j.s else env.format(j)
  }

  /** A one-choice chunk carrying the request's id, creation time and model. */
  function Stamp(env: Env, model: string, content: string, finish: Option<string>): Emitted {
    Chunk(NewChunk(env.requestId, env.created, model, [Choice(0, content, finish)]))
  }

  predicate Stamped(e: Emitted, env: Env, model: string) {
    e.Chunk? ==> e.chunk.id == env.requestId && e.chunk.created == env.created
                 && e.chunk.model == model
  }

  /** The content of a chunk's first choice. */
  function ChunkText(e: Emitted): string {
    if e.Chunk? && |e.chunk.choices| > 0 then e.chunk.choices[0].content else ""
  }

  /** `_error_chunk`. */
  function ErrorBody(requestId: string, message: string): (j: Json)
    ensures ErrorMessage(j) == Some(message)
  {
    JObj(map["error" := JObj(map["message" := JStr(message), "type" := JStr("internal_error"),
                                 "code" := JInt(500)])])
  }

  /** The message an error dict carries. */
  function ErrorMessage(j: Json): Option<string> {
    if j.JObj? && "error" in j.fields && j.fields["error"].JObj? && "message" in j.fields["error"].fields
       && j.fields["error"].fields["message"].JStr?
    then Some(j.fields["error"].fields["message"].s)
    else None
  }

  /** The id handed to the engine at step `n`. */
  function StepId(requestId: string, n: nat): string {
    requestId + "-step-" + NatToString(n)
  }

  // ---------------------------------------------------------------------------
  // Presets
  // ---------------------------------------------------------------------------

  function Max(a: int, b: int): int {
    if a >= b then a else b
  }

  /** The preset block of `handle_chat`: it overwrites temperature, top-p and
      sometimes the token budget, and touches nothing else. */
  function ApplyPreset(p: SamplingParams): (q: SamplingParams)
    ensures q == p.(temperature := q.temperature, topP := q.topP, maxTokens := q.maxTokens)
    ensures p.preset.None? ==> q == p
    ensures p.preset == Some(Deterministic) || p.preset == Some(Coding) ==>
              q.temperature == 0.1 && q.topP == 0.1 && q.maxTokens >= 1024 && q.maxTokens >= p.maxTokens
              && (q.maxTokens == 1024 || q.maxTokens == p.maxTokens)
    ensures p.preset == Some(Creative) ==> q.temperature == 0.9 && q.topP == 0.95 && q.maxTokens == p.maxTokens
    ensures p.preset == Some(Research) ==> q.temperature == 0.2 && q.topP == 0.95 && q.maxTokens == 2048
  {
    match p.preset
    case None => p
    case Some(Deterministic) => p.(temperature := 0.1, topP := 0.1, maxTokens := Max(p.maxTokens, 1024))
    case Some(Coding) => p.(temperature := 0.1, topP := 0.1, maxTokens := Max(p.maxTokens, 1024))
    case Some(Creative) => p.(temperature := 0.9, topP := 0.95)
    case Some(Research) => p.(temperature := 0.2, topP := 0.95, maxTokens := 2048)
  }

  /** Applying the presets a second time changes nothing. */
  lemma PresetIdempotent(p: SamplingParams)
    ensures ApplyPreset(ApplyPreset(p)) == ApplyPreset(p)
  {
  }

  // ---------------------------------------------------------------------------
  // Prompt assembly
  // ---------------------------------------------------------------------------

  /** Index of the last message whose role is exactly "user". */
  function LastUser(ms: seq<ChatMessage>): (r: Option<nat>)
    ensures r.Some? ==> r.value < |ms| && ms[r.value].role == "user"
                        && forall j :: r.value < j < |ms| ==> ms[j].role != "user"
    ensures r.None? <==> forall j :: 0 <= j < |ms| ==> ms[j].role != "user"
    decreases |ms|
  {
    if |ms| == 0 then None
    else if ms[|ms| - 1].role == "user" then Some(|ms| - 1)
    else LastUser(ms[..|ms| - 1])
  }

  /** The content of the last user message, or `default` when there is none. */
  function LatestUserContent(ms: seq<ChatMessage>, default: string): string {
    match LastUser(ms)
    case None => default
    case Some(i) => ms[i].content
  }

  /** The retrieval query of `_assemble_prompt`. */
  function LatestQuery(ms: seq<ChatMessage>): string {
    LatestUserContent(ms, "")
  }

  /** The three texts added to system messages or to the synthetic prefix. */
  datatype Blocks = Blocks(context: string, experience: string, tools: string)

  function ContextBlock(docs: seq<string>): string {
    if docs == [] then "" else ContextHeader + JoinWith("\n", docs) + "\n"
  }

  function ExperienceBlock(exps: seq<string>): string {
    if exps == [] then "" else ExperienceHeader + JoinWith("\n", exps) + "\n" + ExperienceWarning
  }

  predicate HasTools(tools: Option<seq<map<string, Json>>>) {
    tools.Some? && tools.value != []
  }

  function ToolsBlock(tools: Option<seq<map<string, Json>>>, dumpsIndented: Json -> string): string {
    if HasTools(tools) then
      var ts := tools.value;
      ToolsHeader + dumpsIndented(JArr(JObjs(ts))) + ToolsFooter
    else ""
  }

  /** Retrieval runs only for a non-empty query and an available memory. */
  function Retrieve(ms: seq<ChatMessage>, tools: Option<seq<map<string, Json>>>, env: Env, mem: Memory): Blocks {
    var q := LatestQuery(ms);
    var docs := if q != "" && mem.available then env.retrieveDocs(q) else [];
    var exps := if q != "" && mem.available then env.retrieveExperiences(mem.experiences, q) else [];
    Blocks(ContextBlock(docs), ExperienceBlock(exps), ToolsBlock(tools, env.dumpsIndented))
  }

  function Extra(b: Blocks): string {
    b.context + b.experience + b.tools
  }

  /** The synthetic system text used when no system message exists. */
  function Prefix(b: Blocks): string {
    (if b.context != "" then ContextLead + b.context + "\n" else "") + b.experience + b.tools
  }

  predicate IsSystem(m: ChatMessage) {
    Upper(m.role) == "SYSTEM"
  }

  predicate HasSystem(ms: seq<ChatMessage>) {
    exists k :: 0 <= k < |ms| && IsSystem(ms[k])
  }

  /** The line one message contributes; system messages carry the extra text. */
  function Line(m: ChatMessage, extra: string): string {
    Upper(m.role) + ": " + m.content + (if IsSystem(m) then extra else "") + "\n"
  }

  /** One line per message, in order. */
  function Lines(ms: seq<ChatMessage>, extra: string): string
    decreases |ms|
  {
    if ms == [] then "" else Line(ms[0], extra) + Lines(ms[1..], extra)
  }

  /** The loop over the messages: the prompt so far and whether a system
      message has been seen. */
  function Render(ms: seq<ChatMessage>, extra: string, i: nat, prompt: string, found: bool): (r: (string, bool))
    requires i <= |ms|
    ensures r.0 == prompt + Lines(ms[i..], extra)
    ensures r.1 <==> found || exists k :: i <= k < |ms| && IsSystem(ms[k])
    decreases |ms| - i
  {
    if i == |ms| then (prompt, found)
    else
      assert ms[i..][1..] == ms[i + 1..];
      Render(ms, extra, i + 1, prompt + Line(ms[i], extra), found || IsSystem(ms[i]))
  }

  /** The synthetic system line: only when there is something to say and no
      system message to say it in. */
  function Header(b: Blocks, ms: seq<ChatMessage>): string {
    if Prefix(b) != "" && !HasSystem(ms) then "SYSTEM: " + Prefix(b) + "\n" else ""
  }

  lemma SuffixOfAppend(a: string, b: string)
    ensures IsSuffix(b, a + b)
  {
    assert (a + b)[|a|..] == b;
  }

  /** `_assemble_prompt`. */
  function AssemblePrompt(ms: seq<ChatMessage>, tools: Option<seq<map<string, Json>>>, env: Env, mem: Memory): (p: string)
    ensures IsSuffix("ASSISTANT:", p)
    ensures var b := Retrieve(ms, tools, env, mem);
            p == Header(b, ms) + Lines(ms, Extra(b)) + "ASSISTANT:"
  {
    var b := Retrieve(ms, tools, env, mem);
    var r := Render(ms, Extra(b), 0, "", false);
    assert ms[0..] == ms;
    assert r.1 == HasSystem(ms);
    var prompt := if Prefix(b) != "" && !r.1 then "SYSTEM: " + Prefix(b) + "\n" + r.0 else r.0;
    SuffixOfAppend(prompt, "ASSISTANT:");
    prompt + "ASSISTANT:"
  }

  /** Lines of a concatenation are the concatenation of lines. */
  lemma {:induction false} LinesAppend(a: seq<ChatMessage>, b: seq<ChatMessage>, extra: string)
    ensures Lines(a + b, extra) == Lines(a, extra) + Lines(b, extra)
    decreases |a|
  {
    if a == [] {
      assert a + b == b;
    } else {
      assert (a + b)[0] == a[0];
      assert (a + b)[1..] == a[1..] + b;
      LinesAppend(a[1..], b, extra);
    }
  }

  /** A tool exchange as the loop appends it. */
  predicate ToolExchange(a: ChatMessage, s: ChatMessage) {
    a.role == "assistant" && a.name.None? && s.role == "system" && s.name.None?
    && IsPrefix(ToolOutputPrefix, s.content)
  }

  /** Appending a tool exchange keeps the last user message. */
  lemma ExchangeKeepsQuery(ms: seq<ChatMessage>, a: ChatMessage, s: ChatMessage, default: string)
    requires ToolExchange(a, s)
    ensures LatestUserContent(ms + [a, s], default) == LatestUserContent(ms, default)
  {
    var t := ms + [a, s];
    assert t[..|t| - 1] == ms + [a];
    assert (ms + [a])[..|ms|] == ms;
    assert LastUser(t) == LastUser(ms + [a]) == LastUser(ms);
  }

  lemma UpperAssistant()
    ensures Upper("assistant") == "ASSISTANT"
  {
  }

  lemma UpperSystem()
    ensures Upper("system") == "SYSTEM"
  {
  }

  lemma LinesPair(a: ChatMessage, s: ChatMessage, x: string)
    ensures Lines([a, s], x) == Line(a, x) + Line(s, x)
  {
    assert [a, s][1..] == [s];
    assert [s][1..] == [];
    assert Lines([s], x) == Line(s, x) + Lines([], x);
    assert Lines([], x) == "";
    assert Lines([a, s], x) == Line(a, x) + Lines([s], x);
  }

  /** An assistant message renders without the retrieved text. */
  lemma AssistantLine(a: ChatMessage, x: string)
    requires a.role == "assistant"
    ensures Line(a, x) == "ASSISTANT: " + a.content + "\n"
  {
    UpperAssistant();
    assert !IsSystem(a) by {
      assert |Upper(a.role)| == 9;
    }
    assert "ASSISTANT" + ": " == "ASSISTANT: ";
  }

  /** A system message renders with the retrieved text after its content. */
  lemma SystemLine(s: ChatMessage, x: string)
    requires s.role == "system"
    ensures Line(s, x) == "SYSTEM: " + s.content + x + "\n"
  {
    UpperSystem();
    assert "SYSTEM" + ": " == "SYSTEM: ";
  }

  /** The lines of a tool exchange: the assistant's answer, then the tool
      output as a system line carrying the retrieved text. */
  lemma ExchangeLines(ms: seq<ChatMessage>, a: ChatMessage, s: ChatMessage, x: string)
    requires ToolExchange(a, s)
    ensures Lines(ms + [a, s], x) == Lines(ms, x) + ("ASSISTANT: " + a.content + "\n") + ("SYSTEM: " + s.content + x + "\n")
  {
    LinesAppend(ms, [a, s], x);
    LinesPair(a, s, x);
    AssistantLine(a, x);
    SystemLine(s, x);
    Assoc(Lines(ms, x), Line(a, x), Line(s, x));
  }

  /** After a tool exchange the retrieved blocks are those of the earlier
      transcript, and there is a system message, so no synthetic header. */
  lemma ExchangeHeader(ms: seq<ChatMessage>, a: ChatMessage, s: ChatMessage,
                       tools: Option<seq<map<string, Json>>>, env: Env, mem: Memory)
    requires ToolExchange(a, s)
    ensures Retrieve(ms + [a, s], tools, env, mem) == Retrieve(ms, tools, env, mem)
    ensures Header(Retrieve(ms, tools, env, mem), ms + [a, s]) == ""
  {
    var t := ms + [a, s];
    ExchangeKeepsQuery(ms, a, s, "");
    UpperSystem();
    assert t[|ms| + 1] == s;
    assert HasSystem(t);
  }

  /** The prompt after a tool exchange: the earlier lines, then the assistant's
      answer, then the tool output as a system line carrying the same
      retrieved text. The exchange is a system message, so no synthetic
      system prefix is added any more. */
  lemma PromptAfterExchange(ms: seq<ChatMessage>, a: ChatMessage, s: ChatMessage,
                            tools: Option<seq<map<string, Json>>>, env: Env, mem: Memory)
    requires ToolExchange(a, s)
    ensures var x := Extra(Retrieve(ms, tools, env, mem));
            AssemblePrompt(ms + [a, s], tools, env, mem)
            == Lines(ms, x) + ("ASSISTANT: " + a.content + "\n") + ("SYSTEM: " + s.content + x + "\n") + "ASSISTANT:"
  {
    var b := Retrieve(ms, tools, env, mem);
    ExchangeHeader(ms, a, s, tools, env, mem);
    ExchangeLines(ms, a, s, Extra(b));
    assert "" + Lines(ms + [a, s], Extra(b)) == Lines(ms + [a, s], Extra(b));
  }

  /** Without a user message nothing is retrieved: the retrieval functions do
      not influence the prompt. */
  lemma NoQueryNoRetrieval(ms: seq<ChatMessage>, tools: Option<seq<map<string, Json>>>, env: Env, mem: Memory,
                           docs: string -> seq<string>, exps: (seq<string>, string) -> seq<string>)
    requires LatestQuery(ms) == ""
    ensures AssemblePrompt(ms, tools, env.(retrieveDocs := docs, retrieveExperiences := exps), mem)
            == AssemblePrompt(ms, tools, env, mem)
  {
  }

  /** Retrieved documents and no system message: the prompt opens with a
      synthetic system line that leads with the context. */
  lemma ContextOpensPrompt(ms: seq<ChatMessage>, tools: Option<seq<map<string, Json>>>, env: Env, mem: Memory)
    requires !HasSystem(ms) && mem.available
    requires LatestQuery(ms) != "" && env.retrieveDocs(LatestQuery(ms)) != []
    ensures IsPrefix("SYSTEM: " + ContextLead + ContextHeader, AssemblePrompt(ms, tools, env, mem))
  {
    var b := Retrieve(ms, tools, env, mem);
    var j := JoinWith("\n", env.retrieveDocs(LatestQuery(ms)));
    assert b.context == ContextHeader + j + "\n";
    PrefixOfAppend(ContextHeader, j);
    PrefixOfAppend(ContextHeader + j, "\n");
    PrefixTrans(ContextHeader, ContextHeader + j, b.context);
    // the context leads the synthetic prefix
    var c := ContextLead + b.context;
    PrefixExtend(ContextLead, ContextHeader, b.context);
    PrefixOfAppend(c, "\n");
    PrefixOfAppend(c + "\n", b.experience);
    PrefixOfAppend(c + "\n" + b.experience, b.tools);
    PrefixTrans(c, c + "\n", c + "\n" + b.experience);
    PrefixTrans(c, c + "\n" + b.experience, Prefix(b));
    PrefixTrans(ContextLead + ContextHeader, c, Prefix(b));
    // and the synthetic prefix leads the prompt
    PrefixExtend("SYSTEM: ", ContextLead + ContextHeader, Prefix(b));
    Assoc("SYSTEM: ", ContextLead, ContextHeader);
    var lead := "SYSTEM: " + Prefix(b) + "\n";
    assert Header(b, ms) == lead;
    PrefixOfAppend("SYSTEM: " + Prefix(b), "\n");
    var p := AssemblePrompt(ms, tools, env, mem);
    PrefixOfAppend(lead, Lines(ms, Extra(b)));
    PrefixOfAppend(lead + Lines(ms, Extra(b)), "ASSISTANT:");
    PrefixTrans(lead, lead + Lines(ms, Extra(b)), p);
    PrefixTrans("SYSTEM: " + Prefix(b), lead, p);
    PrefixTrans("SYSTEM: " + ContextLead + ContextHeader, "SYSTEM: " + Prefix(b), p);
  }

  // ---------------------------------------------------------------------------
  // The prompt of one step
  // ---------------------------------------------------------------------------

  predicate IsAgentMode(request: ChatCompletionRequest) {
    HasTools(request.tools)
  }

  predicate JsonMode(request: ChatCompletionRequest) {
    request.responseFormat.Some? && "type" in request.responseFormat.value
    && request.responseFormat.value["type"] == "json_object"
  }

  /** The prompt checked before the loop; it is never sent to the engine. */
  function InitialPrompt(request: ChatCompletionRequest, env: Env, mem: Memory): string {
    (if JsonMode(request) then JsonModeInstruction else "") + AssemblePrompt(request.messages, request.tools, env, mem)
  }

  /** The pre-loop input check: the violation it raises, if enabled. */
  function PreCheck(request: ChatCompletionRequest, env: Env, mem: Memory): Option<Safety.Violation> {
    if env.safetyEnabled then Safety.CheckInput(InitialPrompt(request, env, mem)) else None
  }

  function ResearchPersona(texts: Prompts.Texts): string {
    "SYSTEM: " + texts.researchSystemPrompt + "\n"
  }

  /** The prompt of a loop step: the assembled prompt, under the research
      preset with the persona in front (and the first `SYSTEM: ` dropped),
      and in agent mode with the JSON instructions behind. */
  function StepPrompt(ms: seq<ChatMessage>, tools: Option<seq<map<string, Json>>>, sp: SamplingParams,
                      agent: bool, texts: Prompts.Texts, env: Env, mem: Memory): string
  {
    var base := AssemblePrompt(ms, tools, env, mem);
    var persona := if sp.preset == Some(Research) then ResearchPersona(texts) + ReplaceFirst(base, "SYSTEM: ", "") else base;
    if agent then persona + texts.agentInstructions else persona
  }

  /** Agent mode ends the prompt with the instructions, the research preset
      opens it with the persona, and with neither it is the assembled prompt. */
  lemma StepPromptShape(ms: seq<ChatMessage>, tools: Option<seq<map<string, Json>>>, sp: SamplingParams,
                        agent: bool, texts: Prompts.Texts, env: Env, mem: Memory)
    ensures var p := StepPrompt(ms, tools, sp, agent, texts, env, mem);
            (agent ==> IsSuffix(texts.agentInstructions, p))
            && (sp.preset == Some(Research) ==> IsPrefix(ResearchPersona(texts), p))
            && (sp.preset != Some(Research) && !agent ==> p == AssemblePrompt(ms, tools, env, mem))
  {
    var base := AssemblePrompt(ms, tools, env, mem);
    var stripped := ReplaceFirst(base, "SYSTEM: ", "");
    var persona := if sp.preset == Some(Research) then ResearchPersona(texts) + stripped else base;
    var p := StepPrompt(ms, tools, sp, agent, texts, env, mem);
    SuffixOfAppend(persona, texts.agentInstructions);
    PrefixOfAppend(persona, texts.agentInstructions);
    if sp.preset == Some(Research) {
      PrefixOfAppend(ResearchPersona(texts), stripped);
      PrefixTrans(ResearchPersona(texts), persona, p);
    }
  }

  // ---------------------------------------------------------------------------
  // Generation: cache hit or streamed miss
  // ---------------------------------------------------------------------------

  datatype Generated = Generated(emitted: seq<Emitted>, collected: string, failed: bool, cache: Cache.CacheManager)

  /** The cache key's parameter part: a parameters object is always present. */
  function CacheParams(env: Env, sp: SamplingParams): Option<string> {
    Some(env.dumpParams(sp))
  }

  function Lookup(env: Env, prompt: string, sp: SamplingParams, cache: Cache.CacheManager): Option<string> {
    Cache.Get(cache, prompt, CacheParams(env, sp), env.sha256, env.now)
  }

  /** A lookup answers only with a non-empty text. */
  predicate Hit(env: Env, prompt: string, sp: SamplingParams, cache: Cache.CacheManager) {
    var c := Lookup(env, prompt, sp, cache);
    c.Some? && c.value != ""
  }

  /** The streamed pieces after the output check. */
  function Sanitise(env: Env, items: seq<string>): (ts: seq<string>)
    ensures |ts| == |items|
    ensures forall i :: 0 <= i < |ts| ==>
              ts[i] == (if env.safetyEnabled then Safety.CheckOutput(items[i], env.redact) else items[i])
    decreases |items|
  {
    if items == [] then []
    else [if env.safetyEnabled then Safety.CheckOutput(items[0], env.redact) else items[0]] + Sanitise(env, items[1..])
  }

  function Chunks(env: Env, model: string, texts: seq<string>): (es: seq<Emitted>)
    ensures |es| == |texts|
    ensures forall i :: 0 <= i < |es| ==> es[i] == Stamp(env, model, texts[i], None)
    decreases |texts|
  {
    if texts == [] then [] else [Stamp(env, model, texts[0], None)] + Chunks(env, model, texts[1..])
  }

  function Texts(es: seq<Emitted>): (ts: seq<string>)
    ensures |ts| == |es|
    ensures forall i :: 0 <= i < |ts| ==> ts[i] == ChunkText(es[i])
    decreases |es|
  {
    if es == [] then [] else [ChunkText(es[0])] + Texts(es[1..])
  }

  /** The stream of one step as the engine produces it. */
  function StepStream(env: Env, prompt: string, sp: SamplingParams, rid: string): Engine.Stream {
    Engine.Generate(env.engine, env.backend(prompt, sp, rid))
  }

  /** The cache write after a stream that ended normally: only non-empty text
      is written, and a working store then answers with it. */
  function Remember(prompt: string, sp: SamplingParams, env: Env, cache: Cache.CacheManager, text: string)
    : (c: Cache.CacheManager)
    ensures text == "" ==> c == cache
    ensures text != "" && cache.client.Some? && cache.client.value.healthy ==> Lookup(env, prompt, sp, c) == Some(text)
  {
    if text == "" then cache
    else
      var params := CacheParams(env, sp);
      var c := Cache.Set(cache, prompt, text, params, env.sha256, env.now, Cache.DefaultTtl);
      if cache.client.Some? && cache.client.value.healthy then
        Cache.SetThenGet(cache, prompt, text, params, env.sha256, env.now, Cache.DefaultTtl, env.now);
        c
      else c
  }

  /** A miss: the stream's pieces after the output check, each in a chunk
      without finish reason; then either the error dict for the stream's
      exception, or the cache write of the pieces' concatenation. */
  function Streamed(prompt: string, sp: SamplingParams, model: string, env: Env, cache: Cache.CacheManager,
                    s: Engine.Stream): (g: Generated)
    ensures forall i :: 0 <= i < |g.emitted| ==> Stamped(g.emitted[i], env, model)
    ensures forall i :: 0 <= i < |g.emitted| - 1 ==> g.emitted[i].Chunk?
    ensures g.failed <==> s.failure.Some?
    ensures g.failed ==> g.cache == cache && |g.emitted| > 0 && g.emitted[|g.emitted| - 1].ErrorChunk?
    ensures !g.failed ==> g.collected == Concat(Texts(g.emitted))
                          && forall i :: 0 <= i < |g.emitted| ==> g.emitted[i] == Stamp(env, model, ChunkText(g.emitted[i]), None)
    ensures !g.failed && g.collected == "" ==> g.cache == cache
  {
    var texts := Sanitise(env, s.items);
    var chunks := Chunks(env, model, texts);
    assert Texts(chunks) == texts;
    var collected := Concat(texts);
    match s.failure
    case Some(m) => Generated(chunks + [ErrorChunk(ErrorBody(env.requestId, m))], collected, true, cache)
    case None => Generated(chunks, collected, false, Remember(prompt, sp, env, cache, collected))
  }

  /** A failed stream ends with an error dict carrying the exception's text. */
  lemma StreamedFailureReported(prompt: string, sp: SamplingParams, model: string, env: Env, cache: Cache.CacheManager,
                                s: Engine.Stream)
    requires s.failure.Some?
    ensures var g := Streamed(prompt, sp, model, env, cache, s);
            ErrorMessage(g.emitted[|g.emitted| - 1].body) == Some(s.failure.value)
  {
  }

  /** A stream that completes with text is written to the cache, and a
      working store then answers the same prompt and parameters with it. */
  lemma StreamedRemembered(prompt: string, sp: SamplingParams, model: string, env: Env, cache: Cache.CacheManager,
                           s: Engine.Stream)
    requires s.failure.None? && cache.client.Some? && cache.client.value.healthy
    requires Streamed(prompt, sp, model, env, cache, s).collected != ""
    ensures var g := Streamed(prompt, sp, model, env, cache, s);
            Lookup(env, prompt, sp, g.cache) == Some(g.collected)
  {
  }

  /** With the output check on, pieces without `@` pass unchanged: the
      collected text is the engine's text. */
  lemma StreamedWithoutAt(prompt: string, sp: SamplingParams, model: string, env: Env, cache: Cache.CacheManager,
                          s: Engine.Stream)
    requires env.safetyEnabled && forall i :: 0 <= i < |s.items| ==> '@' !in s.items[i]
    ensures Streamed(prompt, sp, model, env, cache, s).collected == Concat(s.items)
  {
    assert Sanitise(env, s.items) == s.items;
  }

  /** One step's inference: a hit yields the cached text in one final chunk
      and leaves the engine alone; a miss streams. */
  function Generation(prompt: string, sp: SamplingParams, rid: string, model: string, env: Env,
                      cache: Cache.CacheManager): (g: Generated)
    ensures forall i :: 0 <= i < |g.emitted| ==> Stamped(g.emitted[i], env, model)
    ensures forall i :: 0 <= i < |g.emitted| - 1 ==> g.emitted[i].Chunk?
    ensures g.failed <==> |g.emitted| > 0 && g.emitted[|g.emitted| - 1].ErrorChunk?
    ensures Hit(env, prompt, sp, cache) ==>
              g == Generated([Stamp(env, model, Lookup(env, prompt, sp, cache).value, Some("stop"))],
                             Lookup(env, prompt, sp, cache).value, false, cache)
    ensures !Hit(env, prompt, sp, cache) ==> g == Streamed(prompt, sp, model, env, cache, StepStream(env, prompt, sp, rid))
  {
    if Hit(env, prompt, sp, cache) then
      var c := Lookup(env, prompt, sp, cache).value;
      Generated([Stamp(env, model, c, Some("stop"))], c, false, cache)
    else
      var g := Streamed(prompt, sp, model, env, cache, StepStream(env, prompt, sp, rid));
      assert !g.failed ==> forall i :: 0 <= i < |g.emitted| ==> g.emitted[i].Chunk?;
      g
  }

  /** The generation as the loop body consumes it: the step's generation,
      hit or miss, with the cache it leaves; only its last item can be the
      error dict, and it is there exactly when the stream failed. */
  method Generate(prompt: string, sp: SamplingParams, rid: string, model: string, env: Env,
                  cache: Cache.CacheManager) returns (g: Generated)
    ensures g == Generation(prompt, sp, rid, model, env, cache)
    ensures AllStamped(g.emitted, env, model) && ErrorOnlyLast(g.emitted)
    ensures g.failed <==> |g.emitted| > 0 && g.emitted[|g.emitted| - 1].ErrorChunk?
  {
    g := Generation(prompt, sp, rid, model, env, cache);
  }

  /** A step that completes with text leaves the cache answering the same
      prompt and parameters with that text: the next identical step is a
      single-chunk hit and does not consult the engine. */
  lemma CacheHitAfterMiss(prompt: string, sp: SamplingParams, rid: string, rid': string, model: string,
                          env: Env, cache: Cache.CacheManager)
    requires cache.client.Some? && cache.client.value.healthy
    requires !Generation(prompt, sp, rid, model, env, cache).failed
    requires Generation(prompt, sp, rid, model, env, cache).collected != ""
    ensures var g := Generation(prompt, sp, rid, model, env, cache);
            Generation(prompt, sp, rid', model, env, g.cache)
            == Generated([Stamp(env, model, g.collected, Some("stop"))], g.collected, false, g.cache)
  {
    var g := Generation(prompt, sp, rid, model, env, cache);
    if !Hit(env, prompt, sp, cache) {
      StreamedRemembered(prompt, sp, model, env, cache, StepStream(env, prompt, sp, rid));
    }
    assert Hit(env, prompt, sp, g.cache);
  }

  /** On a hit the engine and its backend play no part. */
  lemma HitSkipsEngine(prompt: string, sp: SamplingParams, rid: string, model: string, env: Env,
                       cache: Cache.CacheManager, e: Engine.Engine, b: (string, SamplingParams, string) -> Engine.Stream)
    requires Hit(env, prompt, sp, cache)
    ensures Generation(prompt, sp, rid, model, env.(engine := e, backend := b), cache)
            == Generation(prompt, sp, rid, model, env, cache)
  {
  }

  // ---------------------------------------------------------------------------
  // Tool-call detection
  // ---------------------------------------------------------------------------

  /** From the first `{` to the last `}` of the answer, decoded: the action
      when it is an object whose "action" is present and not "final_answer".
      Any failure on the way (no braces, undecodable text, a value that is not
      an object) means no action. */
  function DetectAction(text: string, decode: string -> Result<Json, string>): (r: Option<map<string, Json>>)
    ensures r.Some? ==> "action" in r.value && r.value["action"] != JStr(FinalAnswer)
    ensures r.Some? <==>
              (var a := Find(text, '{'); var b := RFind(text, '}');
               a >= 0 && b >= 0 && decode(Slice(text, a, b + 1)).Success?
               && decode(Slice(text, a, b + 1)).value.JObj?
               && "action" in decode(Slice(text, a, b + 1)).value.fields
               && decode(Slice(text, a, b + 1)).value.fields["action"] != JStr(FinalAnswer))
    ensures r.Some? ==>
              var d := decode(Slice(text, Find(text, '{'), RFind(text, '}') + 1)).value;
              r.value == d.fields && ToolName(r.value) == d.fields["action"]
              && ToolInput(r.value) == (if "input" in d.fields then d.fields["input"] else JObj(map[]))
  {
    var a := Find(text, '{');
    var b := RFind(text, '}');
    if a < 0 || b < 0 then None
    else
      match decode(Slice(text, a, b + 1))
      case Failure(_) => None
      case Success(data) =>
        if data.JObj? && "action" in data.fields && data.fields["action"] != JStr(FinalAnswer) then Some(data.fields)
        else None
  }

  /** A JSON object between prose without braces is found and decoded whole. */
  lemma ActionInProse(pre: string, body: string, post: string, decode: string -> Result<Json, string>,
                      m: map<string, Json>)
    requires '{' !in pre && '}' !in post
    requires |body| >= 2 && body[0] == '{' && body[|body| - 1] == '}'
    requires decode(body) == Success(JObj(m)) && "action" in m && m["action"] != JStr(FinalAnswer)
    ensures DetectAction(pre + body + post, decode) == Some(m)
  {
    var t := pre + body + post;
    var e := |pre| + |body| - 1;
    assert t[|pre|] == '{';
    assert forall j :: 0 <= j < |pre| ==> t[j] == pre[j];
    var a := Find(t, '{');
    assert a == |pre|;
    assert t[e] == '}';
    assert forall j :: e < j < |t| ==> t[j] == post[j - |pre| - |body|];
    var b := RFind(t, '}');
    assert b == e;
    assert t[a..b + 1] == body;
  }

  /** An answer whose object names `final_answer` ends the loop. */
  lemma FinalAnswerStops(text: string, decode: string -> Result<Json, string>, m: map<string, Json>)
    requires Find(text, '{') >= 0 && RFind(text, '}') >= 0
    requires decode(Slice(text, Find(text, '{'), RFind(text, '}') + 1)) == Success(JObj(m))
    requires "action" in m && m["action"] == JStr(FinalAnswer)
    ensures DetectAction(text, decode).None?
  {
    var d := decode(Slice(text, Find(text, '{'), RFind(text, '}') + 1));
    assert d.value.fields["action"] == JStr(FinalAnswer);
  }

  /** A last `}` before the first `{` gives an empty slice, which a JSON
      decoder refuses: no action. */
  lemma InvertedBracesNoAction(text: string, decode: string -> Result<Json, string>)
    requires RejectsEmpty(decode)
    requires 0 <= RFind(text, '}') < Find(text, '{')
    ensures DetectAction(text, decode).None?
  {
    assert Slice(text, Find(text, '{'), RFind(text, '}') + 1) == "";
    assert decode("").Failure?;
  }

  // ---------------------------------------------------------------------------
  // Running the tool, and the self-correction step
  // ---------------------------------------------------------------------------

  function ToolName(action: map<string, Json>): Json {
    Get(action, "action", JNull)
  }

  function ToolInput(action: map<string, Json>): Json {
    Get(action, "input", JObj(map[]))
  }

  function ErrorObject(msg: string): Json {
    JObj(map["error" := JStr(msg)])
  }

  function NotFoundText(name: string): string {
    "Tool " + name + " not found."
  }

  function ExecutingNotice(name: string): string {
    "\n\n[System: Executing " + name + "...]\n\n"
  }

  /** The tool call: the output the loop records, or the message of a
      `BaseException` escaping the tool, and the files afterwards. An
      unregistered name is reported, an exception a tool raises becomes
      `{"error": str(e)}`, only the execution tool lets one escape, and the
      PDF reader leaves the files alone (the file tool, executed code and
      shell commands may change them). */
  method InvokeTool(name: Json, input: Json, env: Env, fs: FileSystem.Fs) returns (output: Result<Json, string>, fs': FileSystem.Fs)
    requires PosixPath.IsAbsolute(env.tools.workspace)
    ensures FileSystem.Valid(fs) ==> FileSystem.Valid(fs')
    ensures Registry.GetToolByName(name).None? ==> output == Success(ErrorObject(NotFoundText(Display(env, name)))) && fs' == fs
    ensures Registry.GetToolByName(name) == Some(Registry.PdfReaderTool) ==> fs' == fs
    ensures !input.JObj? && Registry.GetToolByName(name).Some?
            && (Registry.GetToolByName(name).value != Registry.PdfReaderTool || env.tools.pypdfAvailable) ==>
              output.Success? && output.value.JObj? && "error" in output.value.fields
    ensures output.Failure? ==> name == JStr(PythonExec.Name) && input.JObj?
    ensures output.Success? ==> output.value.JObj?
  {
    match Registry.GetToolByName(name)
    case None =>
      output, fs' := Success(ErrorObject(NotFoundText(Display(env, name)))), fs;
    case Some(t) =>
      var e := Registry.RunTool(t, input, env.tools, fs);
      fs' := e.fs;
      match e.result
      case Returned(out) => output := Success(JObj(out));
      case Raised(msg) => output := Success(ErrorObject(msg));
      case Escaped(msg) => output := Failure(msg);
  }

  predicate SelfCorrecting(testCode: Option<string>, name: Json) {
    testCode.Some? && testCode.value != "" && (name == JStr(PythonExec.Name) || name == JStr(WriteFileName))
  }

  function DebugFeedback(feedback: string): (d: string)
    ensures d != TestPassedFeedback
  {
    var lead := "\n" + "SYSTEM EVALUATION:\nTEST FAILED.\nFEEDBACK: ";
    assert lead[0] == '\n' && TestPassedFeedback[0] == 'T';
    var d := lead + feedback + "\n\nYou must fix the code. Analyze the error and try again.";
    assert d[0] == lead[0];
    d
  }

  function StatusText(v: Evaluator.Verdict): string {
    match v
    case Pass => "PASS"
    case Fail => "FAIL"
  }

  /** The document the memory stores for an experience. */
  function ExperienceDocument(task: string, solution: string, outcome: string, feedback: string): string {
    "Task: " + task + "\nResult: " + outcome + "\nSolution:\n" + solution + "\nFeedback: " + feedback
  }

  function AddExperience(mem: Memory, doc: string): (m: Memory)
    ensures m.available == mem.available
    ensures mem.available ==> m.experiences == mem.experiences + [doc]
    ensures !mem.available ==> m == mem
  {
    if mem.available then mem.(experiences := mem.experiences + [doc]) else mem
  }

  datatype Correction = Correction(emitted: seq<Emitted>, output: Result<Json, string>, memory: Memory)

  /** The code put under test: the `code` input of `python_exec`, nothing for
      other tools (a written file is expected to be imported by the tests). */
  function CodeUnderTest(name: Json, input: Json, env: Env): string
    requires name == JStr(PythonExec.Name) ==> input.JObj?
  {
    if name == JStr(PythonExec.Name) then Display(env, Get(input.fields, "code", JStr(""))) else ""
  }

  /** The verdict as the model and the client see it: the tool output wrapped
      with the evaluator's feedback, and the announcement. */
  function Report(ev: Evaluator.Evaluation, toolOutput: Json, env: Env, model: string): (r: (Json, Emitted))
    ensures r.0.JObj? && r.0.fields.Keys == {"tool_output", "evaluator_feedback"}
    ensures r.0.fields["tool_output"] == toolOutput
    ensures ev.status == Evaluator.Pass <==> r.0.fields["evaluator_feedback"] == JStr(TestPassedFeedback)
    ensures ev.status == Evaluator.Pass <==> ChunkText(r.1) == TestsPassedNotice
    ensures r.1.Chunk? && Stamped(r.1, env, model)
  {
    var failed := ev.status == Evaluator.Fail;
    assert TestsFailedNotice[17] != TestsPassedNotice[17];
    (JObj(map["tool_output" := toolOutput,
              "evaluator_feedback" := JStr(if failed then DebugFeedback(ev.feedback) else TestPassedFeedback)]),
     Stamp(env, model, if failed then TestsFailedNotice else TestsPassedNotice, None))
  }

  /** What follows a test run: an exception escapes; a verdict is reported
      and, when the transcript has a last message to read, stored as an
      experience. */
  function AfterTests(run: Result<Evaluator.Evaluation, string>, name: Json, input: Json, toolOutput: Json,
                      request: ChatCompletionRequest, transcript: seq<ChatMessage>, env: Env, mem: Memory): (c: Correction)
    ensures run.Failure? ==> c == Correction([], Failure(run.error), mem)
    ensures run.Success? ==> c.emitted == [Report(run.value, toolOutput, env, request.model).1]
    ensures |c.emitted| <= 1 && AllChunks(c.emitted) && AllStamped(c.emitted, env, request.model)
    ensures c.output.Success? <==> run.Success? && transcript != []
    ensures c.output.Success? ==> c.output.value == Report(run.value, toolOutput, env, request.model).0
    ensures c.output.Failure? || !mem.available ==> c.memory == mem
    ensures c.output.Success? && mem.available ==> |c.memory.experiences| == |mem.experiences| + 1
    ensures c.output.Success? ==> c.memory.experiences[..|mem.experiences|] == mem.experiences
  {
    match run
    case Failure(m) => Correction([], Failure(m), mem)
    case Success(ev) =>
      var r := Report(ev, toolOutput, env, request.model);
      if transcript == [] then Correction([r.1], Failure(IndexErrorMessage), mem)
      else Correction([r.1], Success(r.0), AddExperience(mem, Lesson(name, input, request, ev, env)))
  }

  /** Code that passes its tests is reported as passed to the model, once
      the transcript has a last message to read. */
  lemma PassingTestsReported(code: string, test: string, fs: FileSystem.Fs, name: Json, input: Json, toolOutput: Json,
                             request: ChatCompletionRequest, transcript: seq<ChatMessage>, env: Env, mem: Memory)
    requires transcript != []
    requires var run := env.tools.exec(Evaluator.Script(code, test), fs); run.outcome.Completed? && run.stderr == ""
    ensures var c := AfterTests(Evaluator.Evaluate(code, test, fs, env.tools.exec).result, name, input, toolOutput,
                                request, transcript, env, mem);
            c.output.Success? && c.output.value.JObj? && "evaluator_feedback" in c.output.value.fields
            && c.output.value.fields["evaluator_feedback"] == JStr(TestPassedFeedback)
  {
  }

  /** The experience stored after a test run: the latest user message as the
      task, the action and its input as the solution, the verdict, and the
      feedback given to the model on a failure. */
  function Lesson(name: Json, input: Json, request: ChatCompletionRequest, ev: Evaluator.Evaluation, env: Env): string {
    var feedback := if ev.status == Evaluator.Fail then DebugFeedback(ev.feedback) else "";
    var solution := "Action: " + Display(env, name) + "\nInput: " + env.dumps(input);
    ExperienceDocument(LatestUserContent(request.messages, UnknownTask), solution, StatusText(ev.status), feedback)
  }

  datatype ToolStep = ToolStep(emitted: seq<Emitted>, output: Result<Json, string>, world: World)

  /** The tool phase of a step with a detected action, after its notice:
      run, and self-correct when the request carries tests. The tool's output is what
      the model sees next, unless tests ran: then it is the verdict wrapped
      around that output. */
  method ToolPhase(notice: Emitted, action: map<string, Json>, request: ChatCompletionRequest,
                   transcript: seq<ChatMessage>, env: Env, w: World) returns (ts: ToolStep, toolOutput: Result<Json, string>)
    requires PosixPath.IsAbsolute(env.tools.workspace)
    requires notice.Chunk? && Stamped(notice, env, request.model)
    ensures 1 <= |ts.emitted| <= 2 && ts.emitted[0] == notice
    ensures forall i :: 0 <= i < |ts.emitted| ==> ts.emitted[i].Chunk? && Stamped(ts.emitted[i], env, request.model)
    ensures ts.world.cache == w.cache
    ensures FileSystem.Valid(w.fs) ==> FileSystem.Valid(ts.world.fs)
    ensures toolOutput.Failure? || !SelfCorrecting(request.testCode, ToolName(action)) ==>
              |ts.emitted| == 1 && ts.world.memory == w.memory && ts.output == toolOutput
    ensures toolOutput.Success? && SelfCorrecting(request.testCode, ToolName(action)) && ts.output.Success? ==>
              ts.output.value.JObj? && "tool_output" in ts.output.value.fields
              && ts.output.value.fields["tool_output"] == toolOutput.value
    ensures ts.output.Success? ==> ts.output.value.JObj?
  {
    var name := ToolName(action);
    var input := ToolInput(action);
    var fs';
    toolOutput, fs' := InvokeTool(name, input, env, w.fs);
    var w' := w.(fs := fs');
    if toolOutput.Failure? || !SelfCorrecting(request.testCode, name) {
      ts := ToolStep([notice], toolOutput, w');
    } else {
      ts := Corrected(notice, name, input, toolOutput.value, request, transcript, env, w');
    }
  }

  /** The self-correction step, after the tool's notice: the code is run
      with the tests, the verdict is wrapped around the tool output,
      announced, and stored as an experience; the files are those the test
      run leaves. Reading the code from a non-object input, indexing an empty
      transcript and a `BaseException` in the test run all escape. */
  method Corrected(notice: Emitted, name: Json, input: Json, output: Json, request: ChatCompletionRequest,
                   transcript: seq<ChatMessage>, env: Env, w: World) returns (ts: ToolStep)
    requires request.testCode.Some?
    requires notice.Chunk? && Stamped(notice, env, request.model)
    ensures 1 <= |ts.emitted| <= 2 && ts.emitted[0] == notice
    ensures forall i :: 0 <= i < |ts.emitted| ==> ts.emitted[i].Chunk? && Stamped(ts.emitted[i], env, request.model)
    ensures ts.world.cache == w.cache
    ensures name == JStr(PythonExec.Name) && !input.JObj? ==> ts.output.Failure? && |ts.emitted| == 1 && ts.world == w
    ensures !(name == JStr(PythonExec.Name) && !input.JObj?) ==>
              ts.world.fs == env.tools.exec(Evaluator.Script(CodeUnderTest(name, input, env), request.testCode.value), w.fs).fs
    ensures FileSystem.Valid(w.fs) ==> FileSystem.Valid(ts.world.fs)
    ensures transcript == [] ==> ts.output.Failure?
    ensures ts.output.Success? ==> ts.output.value.JObj? && "tool_output" in ts.output.value.fields
                                   && ts.output.value.fields["tool_output"] == output
    ensures ts.output.Failure? || !w.memory.available ==> ts.world.memory == w.memory
  {
    if name == JStr(PythonExec.Name) && !input.JObj? {
      ts := ToolStep([notice], Failure(NoGetMessage(input)), w);
    } else {
      var run := Evaluator.Evaluate(CodeUnderTest(name, input, env), request.testCode.value, w.fs, env.tools.exec);
      var c := AfterTests(run.result, name, input, output, request, transcript, env, w.memory);
      JoinEmitted([notice], c.emitted, env, request.model);
      ts := ToolStep([notice] + c.emitted, c.output, w.(memory := c.memory, fs := run.fs));
    }
  }

  // ---------------------------------------------------------------------------
  // The step loop
  // ---------------------------------------------------------------------------

  /** The transcript is the request's messages followed by tool exchanges. */
  predicate Extends(original: seq<ChatMessage>, t: seq<ChatMessage>) {
    |original| <= |t| && t[..|original|] == original && (|t| - |original|) % 2 == 0
    && forall k :: 0 <= k < (|t| - |original|) / 2 ==> ToolExchange(t[|original| + 2 * k], t[|original| + 2 * k + 1])
  }

  lemma ExtendsAppend(original: seq<ChatMessage>, t: seq<ChatMessage>, a: ChatMessage, s: ChatMessage)
    requires Extends(original, t) && ToolExchange(a, s)
    ensures Extends(original, t + [a, s])
    ensures (|t + [a, s]| - |original|) / 2 == (|t| - |original|) / 2 + 1
  {
    var t' := t + [a, s];
    var n := (|t| - |original|) / 2;
    assert t'[..|original|] == t[..|original|];
    forall k | 0 <= k < n + 1
      ensures ToolExchange(t'[|original| + 2 * k], t'[|original| + 2 * k + 1])
    {
      if k < n {
        assert t'[|original| + 2 * k] == t[|original| + 2 * k];
        assert t'[|original| + 2 * k + 1] == t[|original| + 2 * k + 1];
      } else {
        assert t'[|original| + 2 * k] == a;
      }
    }
  }

  lemma StepIdInjective(requestId: string, a: nat, b: nat)
    ensures StepId(requestId, a) == StepId(requestId, b) ==> a == b
  {
    AppendCancel(requestId + "-step-", NatToString(a), NatToString(b));
    NatToStringInjective(a, b);
  }

  /** The ids of steps `1..n`, in order: one per step and no two alike. */
  function StepIds(requestId: string, n: nat): (ids: seq<string>)
    ensures |ids| == n
    ensures forall k :: 0 <= k < n ==> ids[k] == StepId(requestId, k + 1)
    ensures forall i, j :: 0 <= i < j < n ==> ids[i] != ids[j]
    decreases n
  {
    if n == 0 then []
    else
      var prev := StepIds(requestId, n - 1);
      var ids := prev + [StepId(requestId, n)];
      forall i | 0 <= i < n - 1
        ensures prev[i] != StepId(requestId, n)
      {
        StepIdInjective(requestId, i + 1, n);
      }
      ids
  }

  /** What the client receives holds only chunks. */
  predicate AllChunks(s: seq<Emitted>) {
    forall i :: 0 <= i < |s| ==> s[i].Chunk?
  }

  /** An error dict can only come last: the generator returns after yielding one. */
  predicate ErrorOnlyLast(s: seq<Emitted>) {
    forall i :: 0 <= i < |s| - 1 ==> s[i].Chunk?
  }

  predicate AllStamped(s: seq<Emitted>, env: Env, model: string) {
    forall i :: 0 <= i < |s| ==> Stamped(s[i], env, model)
  }

  /** The loop's output so far: every item stamped, an error dict only
      last and there exactly when the last step aborted, and otherwise only
      chunks. */
  predicate Output(out: seq<Emitted>, env: Env, model: string, last: Next) {
    AllStamped(out, env, model) && ErrorOnlyLast(out)
    && (last.Abort? <==> |out| > 0 && out[|out| - 1].ErrorChunk?)
    && (!last.Abort? ==> AllChunks(out))
  }

  /** A sequence whose only possible error dict is not there holds only chunks. */
  lemma ChunksUnlessError(s: seq<Emitted>)
    requires ErrorOnlyLast(s) && !(|s| > 0 && s[|s| - 1].ErrorChunk?)
    ensures AllChunks(s)
  {
  }

  lemma JoinEmitted(a: seq<Emitted>, b: seq<Emitted>, env: Env, model: string)
    requires AllChunks(a) && AllStamped(a, env, model) && AllStamped(b, env, model)
    ensures AllStamped(a + b, env, model)
    ensures ErrorOnlyLast(b) ==> ErrorOnlyLast(a + b)
    ensures AllChunks(b) ==> AllChunks(a + b)
  {
    var c := a + b;
    assert forall i :: |a| <= i < |c| ==> c[i] == b[i - |a|];
  }

  /** How a step ends: with a tool exchange for the next step, with a final
      answer, after yielding an error dict, or with an exception. */
  datatype Next = Continue(assistant: ChatMessage, tool: ChatMessage) | Finish | Abort | Throw(msg: string)

  datatype Step = Step(emitted: seq<Emitted>, next: Next, world: World)

  /** A completed generation that ends the loop: outside agent mode, or in
      agent mode when no action can be detected in the answer. */
  predicate Finishes(g: Generated, request: ChatCompletionRequest, env: Env) {
    !g.failed && (!IsAgentMode(request) || DetectAction(g.collected, env.decode).None?)
  }

  /** A completed generation that runs a tool: agent mode, and an action was
      detected in the answer. */
  predicate Acts(g: Generated, request: ChatCompletionRequest, env: Env) {
    IsAgentMode(request) && !g.failed && DetectAction(g.collected, env.decode).Some?
  }

  /** How a step that passed the input check follows its generation: it
      yields the generation's items first, and nothing more when it ends
      there; it aborts iff the stream failed, finishes iff the generation
      `Finishes` and runs a tool iff it `Acts`; without a tool only the cache
      changes, to the one the generation left. */
  predicate FollowsGeneration(st: Step, g: Generated, request: ChatCompletionRequest, env: Env, w: World) {
    |g.emitted| <= |st.emitted| && st.emitted[..|g.emitted|] == g.emitted
    && (st.next.Finish? || st.next.Abort? ==> st.emitted == g.emitted && st.world == w.(cache := g.cache))
    && (st.next.Abort? <==> g.failed)
    && (st.next.Finish? <==> Finishes(g, request, env))
    && (st.next.Continue? || st.next.Throw? <==> Acts(g, request, env))
    && st.world.cache == g.cache
  }

  /** One step as the loop ran it: its id, the transcript and the world it
      started from, its prompt, what it yielded, how it ended and the world
      it left. */
  datatype Pass = Pass(rid: string, transcript: seq<ChatMessage>, before: World, prompt: string,
                       emitted: seq<Emitted>, next: Next, after: World)

  function PassStep(p: Pass): Step {
    Step(p.emitted, p.next, p.after)
  }

  /** A step as the loop body runs it: its prompt is the step prompt for
      its transcript and the memory it started with; an unsafe prompt yields
      the error dict and aborts with nothing changed; otherwise the step
      follows the generation for its prompt, under its id, on the cache it
      started with. */
  predicate Classified(p: Pass, request: ChatCompletionRequest, sp: SamplingParams, texts: Prompts.Texts, env: Env) {
    p.prompt == StepPrompt(p.transcript, request.tools, sp, IsAgentMode(request), texts, env, p.before.memory)
    && if env.safetyEnabled && Safety.CheckInput(p.prompt).Some? then
         p.emitted == [ErrorChunk(ErrorBody(env.requestId, SafetyViolationText))] && p.next == Abort && p.after == p.before
       else
         FollowsGeneration(PassStep(p), Generation(p.prompt, sp, p.rid, request.model, env, p.before.cache), request, env, p.before)
  }

  /** One pass of the loop body once the prompt is assembled: the input
      check, the generation, then in agent mode detection and the tool. */
  method RunStep(prompt: string, request: ChatCompletionRequest, sp: SamplingParams, rid: string,
                 transcript: seq<ChatMessage>, env: Env, w: World) returns (st: Step)
    requires PosixPath.IsAbsolute(env.tools.workspace)
    ensures env.safetyEnabled && Safety.CheckInput(prompt).Some? ==>
              st == Step([ErrorChunk(ErrorBody(env.requestId, SafetyViolationText))], Abort, w)
    ensures AllStamped(st.emitted, env, request.model)
    ensures ErrorOnlyLast(st.emitted)
    ensures st.next.Abort? <==> |st.emitted| > 0 && st.emitted[|st.emitted| - 1].ErrorChunk?
    ensures st.next.Continue? || st.next.Throw? ==> IsAgentMode(request)
    ensures st.next.Continue? ==> ToolExchange(st.next.assistant, st.next.tool)
    ensures !(env.safetyEnabled && Safety.CheckInput(prompt).Some?) ==>
              FollowsGeneration(st, Generation(prompt, sp, rid, request.model, env, w.cache), request, env, w)
    ensures !IsAgentMode(request) ==> st.world.fs == w.fs
    ensures FileSystem.Valid(w.fs) ==> FileSystem.Valid(st.world.fs)
  {
    if env.safetyEnabled && Safety.CheckInput(prompt).Some? {
      st := Step([ErrorChunk(ErrorBody(env.requestId, SafetyViolationText))], Abort, w);
    } else {
      var g := Generate(prompt, sp, rid, request.model, env, w.cache);
      st := AfterGeneration(g, request, transcript, env, w);
    }
  }

  /** A step once the model has answered: a failed stream aborts; outside
      agent mode, or when no action is found, the loop ends; otherwise the
      tool runs. */
  method AfterGeneration(g: Generated, request: ChatCompletionRequest, transcript: seq<ChatMessage>,
                         env: Env, w: World) returns (st: Step)
    requires PosixPath.IsAbsolute(env.tools.workspace)
    requires AllStamped(g.emitted, env, request.model) && ErrorOnlyLast(g.emitted)
    requires g.failed <==> |g.emitted| > 0 && g.emitted[|g.emitted| - 1].ErrorChunk?
    ensures AllStamped(st.emitted, env, request.model)
    ensures ErrorOnlyLast(st.emitted)
    ensures st.next.Abort? <==> g.failed
    ensures st.next.Abort? <==> |st.emitted| > 0 && st.emitted[|st.emitted| - 1].ErrorChunk?
    ensures st.next.Continue? || st.next.Throw? ==>
              IsAgentMode(request) && DetectAction(g.collected, env.decode).Some?
    ensures IsAgentMode(request) && !g.failed && DetectAction(g.collected, env.decode).Some? ==>
              st.next.Continue? || st.next.Throw?
    ensures st.next.Finish? <==> Finishes(g, request, env)
    ensures st.next.Continue? ==> ToolExchange(st.next.assistant, st.next.tool) && st.next.assistant.content == g.collected
    ensures |g.emitted| <= |st.emitted| && st.emitted[..|g.emitted|] == g.emitted
    ensures st.next.Finish? || st.next.Abort? ==> st.emitted == g.emitted && st.world == w.(cache := g.cache)
    ensures st.world.cache == g.cache
    ensures FollowsGeneration(st, g, request, env, w)
    ensures !IsAgentMode(request) ==> st.world.fs == w.fs
    ensures FileSystem.Valid(w.fs) ==> FileSystem.Valid(st.world.fs)
  {
    var w1 := w.(cache := g.cache);
    if g.failed {
      st := Step(g.emitted, Abort, w1);
    } else if !IsAgentMode(request) {
      st := Step(g.emitted, Finish, w1);
    } else {
      match DetectAction(g.collected, env.decode)
      case None =>
        st := Step(g.emitted, Finish, w1);
      case Some(action) =>
        var a := ActionStep(action, g.collected, request, transcript, env, w1);
        ChunksUnlessError(g.emitted);
        JoinEmitted(g.emitted, a.emitted, env, request.model);
        st := a.(emitted := g.emitted + a.emitted);
        assert st.emitted[..|g.emitted|] == g.emitted;
    }
  }

  /** The rest of an agent step whose answer names a tool: its notices, then
      either the exchange to append or the exception that escaped. */
  method ActionStep(action: map<string, Json>, answer: string, request: ChatCompletionRequest,
                    transcript: seq<ChatMessage>, env: Env, w: World) returns (st: Step)
    requires PosixPath.IsAbsolute(env.tools.workspace)
    ensures AllChunks(st.emitted) && AllStamped(st.emitted, env, request.model)
    ensures st.next.Continue? || st.next.Throw?
    ensures st.next.Continue? ==> ToolExchange(st.next.assistant, st.next.tool) && st.next.assistant.content == answer
    ensures st.world.cache == w.cache
    ensures FileSystem.Valid(w.fs) ==> FileSystem.Valid(st.world.fs)
    ensures |st.emitted| >= 1 && ChunkText(st.emitted[0]) == ExecutingNotice(Display(env, ToolName(action)))
  {
    var notice := Stamp(env, request.model, ExecutingNotice(Display(env, ToolName(action))), None);
    var ts, _ := ToolPhase(notice, action, request, transcript, env, w);
    match ts.output
    case Failure(m) =>
      st := Step(ts.emitted, Throw(m), ts.world);
    case Success(o) =>
      var s := ChatMessage("system", ToolOutputPrefix + env.dumps(o), None);
      PrefixOfAppend(ToolOutputPrefix, env.dumps(o));
      st := Step(ts.emitted, Continue(ChatMessage("assistant", answer, None), s), ts.world);
  }

  /** The sampling parameters of every step: the request's, or the
      defaults, with the preset applied. */
  function StepParams(request: ChatCompletionRequest): SamplingParams {
    ApplyPreset(if request.samplingParams.Some? then request.samplingParams.value else DefaultSamplingParams)
  }

  /** Every step of a trace is `Classified`. */
  predicate Traced(trace: seq<Pass>, request: ChatCompletionRequest, sp: SamplingParams, texts: Prompts.Texts, env: Env) {
    forall p :: p in trace ==> Classified(p, request, sp, texts, env)
  }

  lemma PrefixOfPrefix<T>(a: seq<T>, b: seq<T>, k: nat)
    requires |a| <= |b| && b[..|a|] == a && k <= |a|
    ensures b[..k] == a[..k]
  {
    assert forall j :: 0 <= j < k ==> b[..k][j] == b[j] == a[j] == a[..k][j];
  }

  /** Everything the steps of a trace yielded, in order. */
  function Yielded(trace: seq<Pass>): seq<Emitted>
    decreases |trace|
  {
    if trace == [] then [] else Yielded(trace[..|trace| - 1]) + trace[|trace| - 1].emitted
  }

  /** Step `i` (from 0) ran under the id of step `i + 1`. */
  predicate Numbered(trace: seq<Pass>, requestId: string) {
    forall i :: 0 <= i < |trace| ==> trace[i].rid == StepId(requestId, i + 1)
  }

  /** Step `i` ran on the transcript with `i` exchanges after the request's
      messages. */
  predicate OnTranscript(trace: seq<Pass>, messages: seq<ChatMessage>, transcript: seq<ChatMessage>) {
    forall i :: 0 <= i < |trace| ==>
      |messages| + 2 * i <= |transcript| && trace[i].transcript == transcript[..|messages| + 2 * i]
  }

  /** Each step started from the world the previous one left. */
  ghost predicate Chained(trace: seq<Pass>) {
    forall i, j :: 0 <= i < j < |trace| && j == i + 1 ==> trace[j].before == trace[i].after
  }

  /** Every step but the last went on with a tool exchange. */
  predicate GoesOn(trace: seq<Pass>) {
    forall i :: 0 <= i < |trace| - 1 ==> trace[i].next.Continue?
  }

  /** Where the loop stands: before any step in the initial world on the
      request's messages; afterwards in the last step's world and outcome,
      with one exchange per step that went on. */
  predicate StandsAt(trace: seq<Pass>, messages: seq<ChatMessage>, world: World, transcript: seq<ChatMessage>,
                     w: World, last: Next) {
    (trace == [] ==> w == world && transcript == messages)
    && (trace != [] ==> trace[0].before == world && last == trace[|trace| - 1].next && w == trace[|trace| - 1].after
                         && |transcript| == |messages| + 2 * (if last.Continue? then |trace| else |trace| - 1))
  }

  /** The loop so far: every step is `Classified`, `Numbered`, run
      `OnTranscript` and `Chained`, every step but the last `GoesOn`, the
      loop `StandsAt` the last step's outcome, and the output is what the
      steps yielded. */
  ghost predicate Progress(trace: seq<Pass>, request: ChatCompletionRequest, sp: SamplingParams, texts: Prompts.Texts,
                           env: Env, world: World, transcript: seq<ChatMessage>, out: seq<Emitted>, w: World, last: Next) {
    Traced(trace, request, sp, texts, env)
    && Numbered(trace, env.requestId)
    && OnTranscript(trace, request.messages, transcript)
    && Chained(trace)
    && GoesOn(trace)
    && StandsAt(trace, request.messages, world, transcript, w, last)
    && out == Yielded(trace)
  }

  /** A whole run of the loop: one to five steps under the request's
      sampling parameters, as `Progress` describes them. */
  ghost predicate Ran(trace: seq<Pass>, request: ChatCompletionRequest, texts: Prompts.Texts, env: Env, world: World,
                transcript: seq<ChatMessage>, out: seq<Emitted>, world': World, last: Next) {
    1 <= |trace| <= MaxSteps
    && Progress(trace, request, StepParams(request), texts, env, world, transcript, out, world', last)
  }

  /** What a run says of one of its steps: the prompt it sent, and that it
      went on only when its generation `Acts` and finished only when it
      `Finishes`, never after a refused prompt. */
  lemma RanStep(trace: seq<Pass>, i: nat, request: ChatCompletionRequest, texts: Prompts.Texts, env: Env,
                world: World, transcript: seq<ChatMessage>, out: seq<Emitted>, world': World, last: Next)
    requires Ran(trace, request, texts, env, world, transcript, out, world', last) && i < |trace|
    ensures |request.messages| + 2 * i <= |transcript|
    ensures var p := trace[i];
            p.prompt == StepPrompt(transcript[..|request.messages| + 2 * i], request.tools, StepParams(request),
                                   IsAgentMode(request), texts, env, p.before.memory)
    ensures var p := trace[i];
            var g := Generation(p.prompt, StepParams(request), StepId(env.requestId, i + 1), request.model, env, p.before.cache);
            var refused := env.safetyEnabled && Safety.CheckInput(p.prompt).Some?;
            (p.next.Continue? ==> !refused && Acts(g, request, env))
            && (p.next.Finish? ==> !refused && Finishes(g, request, env))
            && (p.next.Abort? ==> refused || g.failed)
  {
    assert trace[i] in trace;
  }

  lemma TracedAppend(trace: seq<Pass>, p: Pass, request: ChatCompletionRequest, sp: SamplingParams,
                     texts: Prompts.Texts, env: Env)
    requires Traced(trace, request, sp, texts, env) && Classified(p, request, sp, texts, env)
    ensures Traced(trace + [p], request, sp, texts, env)
  {
    forall q | q in trace + [p]
      ensures Classified(q, request, sp, texts, env)
    {
      if q != p {
        assert q in trace;
      }
    }
  }

  lemma YieldedAppend(trace: seq<Pass>, p: Pass)
    ensures Yielded(trace + [p]) == Yielded(trace) + p.emitted
  {
    assert (trace + [p])[..|trace|] == trace;
  }

  lemma NumberedExtend(trace: seq<Pass>, p: Pass, requestId: string)
    requires Numbered(trace, requestId) && p.rid == StepId(requestId, |trace| + 1)
    ensures Numbered(trace + [p], requestId)
  {
    assert forall i :: 0 <= i < |trace| ==> (trace + [p])[i] == trace[i];
  }

  lemma OnTranscriptExtend(trace: seq<Pass>, p: Pass, messages: seq<ChatMessage>,
                           transcript: seq<ChatMessage>, transcript': seq<ChatMessage>)
    requires OnTranscript(trace, messages, transcript) && p.transcript == transcript
    requires |transcript| == |messages| + 2 * |trace|
    requires |transcript| <= |transcript'| && transcript'[..|transcript|] == transcript
    ensures OnTranscript(trace + [p], messages, transcript')
  {
    var t := trace + [p];
    forall i | 0 <= i < |t|
      ensures |messages| + 2 * i <= |transcript'| && t[i].transcript == transcript'[..|messages| + 2 * i]
    {
      if i < |trace| {
        assert t[i] == trace[i];
        PrefixOfPrefix(transcript, transcript', |messages| + 2 * i);
      }
    }
  }

  lemma ChainedExtend(trace: seq<Pass>, p: Pass)
    requires Chained(trace) && (trace != [] ==> p.before == trace[|trace| - 1].after)
    ensures Chained(trace + [p])
  {
    var t := trace + [p];
    forall i, j | 0 <= i < j < |t| && j == i + 1
      ensures t[j].before == t[i].after
    {
      assert t[i] == trace[i];
      if j < |trace| {
        assert t[j] == trace[j];
      }
    }
  }

  lemma GoesOnExtend(trace: seq<Pass>, p: Pass)
    requires GoesOn(trace) && (trace != [] ==> trace[|trace| - 1].next.Continue?)
    ensures GoesOn(trace + [p])
  {
    assert forall i :: 0 <= i < |trace| ==> (trace + [p])[i] == trace[i];
  }

  /** A loop pass keeps `Progress`: the new step, run from the world the
      loop stood in on the transcript so far under the next id, joins the
      trace, and its items follow the earlier ones. */
  lemma ProgressExtend(trace: seq<Pass>, p: Pass, request: ChatCompletionRequest, sp: SamplingParams,
                       texts: Prompts.Texts, env: Env, world: World, transcript: seq<ChatMessage>,
                       out: seq<Emitted>, w: World, last: Next, transcript': seq<ChatMessage>)
    requires Progress(trace, request, sp, texts, env, world, transcript, out, w, last)
    requires Traced(trace + [p], request, sp, texts, env)
    requires trace != [] ==> last.Continue?
    requires |transcript| <= |transcript'| && transcript'[..|transcript|] == transcript
    requires |transcript'| == |transcript| + (if p.next.Continue? then 2 else 0)
    requires p.rid == StepId(env.requestId, |trace| + 1) && p.transcript == transcript && p.before == w
    ensures Progress(trace + [p], request, sp, texts, env, world, transcript', out + p.emitted, p.after, p.next)
  {
    var t := trace + [p];
    NumberedExtend(trace, p, env.requestId);
    OnTranscriptExtend(trace, p, request.messages, transcript, transcript');
    ChainedExtend(trace, p);
    GoesOnExtend(trace, p);
    YieldedAppend(trace, p);
    assert t[0] == if trace == [] then p else trace[0];
    assert t[|t| - 1] == p;
  }
}

=== FILE: parser.dfy ===
/** The structured-output parser. It picks the JSON text out of model output
    (a fenced code block first, then the span from the first `{` to the last
    `}`, then the whole text), decodes it, and validates the decoded object
    against a role schema. The fence is the pattern
    ```` ```(?:json)?\s*([\s\S]*?)\s*``` ```` searched leftmost-first; here it is
    computed directly, and `LocateFence` states which span that regex selects. */
module Parser {
  import opened Wrappers
  import opened JsonValue
  import opened Strings
  import opened Schema

  /** Three backticks start at `i`. */
  predicate FenceAt(s: string, i: int) {
    0 <= i && i + 3 <= |s| && s[i] == '`' && s[i + 1] == '`' && s[i + 2] == '`'
  }

  /** The optional `json` tag starts at `p`. */
  predicate TagAt(s: string, p: int) {
    0 <= p && p + 4 <= |s| && s[p] == 'j' && s[p + 1] == 's' && s[p + 2] == 'o' && s[p + 3] == 'n'
  }

  /** The first fence at or after `from`. */
  function FirstFence(s: string, from: nat): (r: Option<nat>)
    requires from <= |s|
    ensures r.Some? ==> from <= r.value && FenceAt(s, r.value)
    ensures r.Some? ==> forall j :: from <= j < r.value ==> !FenceAt(s, j)
    ensures r.None? ==> forall j :: from <= j <= |s| ==> !FenceAt(s, j)
    decreases |s| - from
  {
    if FenceAt(s, from) then Some(from)
    else if from == |s| then None
    else FirstFence(s, from + 1)
  }

  /** Where the body starts looking for whitespace: after an optional `json` tag. */
  function TagEnd(s: string, p: nat): (q: nat)
    requires p <= |s|
    ensures q == p || (q == p + 4 && TagAt(s, p))
    ensures q <= |s|
  {
    if TagAt(s, p) then p + 4 else p
  }

  /** Positions of the matched fence: opening fence, captured body, closing fence. */
  datatype FenceSpan = FenceSpan(open: nat, bodyStart: nat, bodyEnd: nat, close: nat)

  lemma NoFenceInTagOrSpace(s: string, i: nat, w: nat)
    requires i + 3 <= |s|
    requires TagEnd(s, i + 3) <= w <= |s|
    requires forall k :: TagEnd(s, i + 3) <= k < w ==> IsSpace(s[k])
    ensures forall j :: i + 3 <= j < w ==> !FenceAt(s, j)
  {
    forall j | i + 3 <= j < w
      ensures !FenceAt(s, j)
    {
      if j >= TagEnd(s, i + 3) {
        assert IsSpace(s[j]);
      }
    }
  }

  /** With the first fence at `i` and no fence from `i + 3` on, no two fences are far enough apart. */
  lemma NoFencePair(s: string, i: nat)
    requires FenceAt(s, i) && forall j :: 0 <= j < i ==> !FenceAt(s, j)
    requires forall j :: i + 3 <= j <= |s| ==> !FenceAt(s, j)
    ensures forall a, b :: FenceAt(s, a) && FenceAt(s, b) ==> b < a + 3
  {
    forall a, b | FenceAt(s, a) && FenceAt(s, b)
      ensures b < a + 3
    {
      assert i <= a;
    }
  }

  /** Where the lazy group followed by `\s*` stops when the closing fence is
      at `c`: at the start of the whitespace run that ends at `c`, but not
      before `w`. */
  function TrailingSpaceStart(s: string, w: nat, c: nat): (e: nat)
    requires w <= c <= |s|
    ensures w <= e <= c
    ensures forall k :: e <= k < c ==> IsSpace(s[k])
    ensures e == w || !IsSpace(s[e - 1])
    decreases c - w
  {
    if c == w || !IsSpace(s[c - 1]) then c else TrailingSpaceStart(s, w, c - 1)
  }

  /** `f` is the span the fence regex selects once its opening fence is fixed:
      the body skips an optional `json` tag and the whitespace after it, and
      ends before the trailing whitespace that precedes the first closing fence. */
  predicate IsFenceSpan(s: string, f: FenceSpan) {
    && f.open + 3 <= |s|
    && TagEnd(s, f.open + 3) <= f.bodyStart <= f.bodyEnd <= f.close
    && FenceAt(s, f.close)
    && (forall j :: f.open + 3 <= j < f.close ==> !FenceAt(s, j))
    && (forall k :: TagEnd(s, f.open + 3) <= k < f.bodyStart ==> IsSpace(s[k]))
    && (f.bodyStart == f.close || !IsSpace(s[f.bodyStart]))
    && (forall k :: f.bodyEnd <= k < f.close ==> IsSpace(s[k]))
    && (f.bodyEnd == f.bodyStart || !IsSpace(s[f.bodyEnd - 1]))
  }

  lemma SpanFacts(s: string, i: nat, w: nat, c: nat)
    requires i + 3 <= |s| && w == SkipSpace(s, TagEnd(s, i + 3))
    requires FirstFence(s, w) == Some(c)
    ensures IsFenceSpan(s, FenceSpan(i, w, TrailingSpaceStart(s, w, c), c))
  {
    NoFenceInTagOrSpace(s, i, w);
  }

  /** The fenced block the regex matches, if any: the body of the block that
      opens at the first fence in the text (see `LocateFenceSpec`). */
  function LocateFence(s: string): Option<FenceSpan> {
    match FirstFence(s, 0)
    case None => None
    case Some(i) => FenceFrom(s, i)
  }

  /** The body and closing fence of the block whose opening fence is at `i`. */
  function FenceFrom(s: string, i: nat): Option<FenceSpan>
    requires i + 3 <= |s|
  {
    var w := SkipSpace(s, TagEnd(s, i + 3));
    match FirstFence(s, w)
    case None => None
    case Some(c) => Some(FenceSpan(i, w, TrailingSpaceStart(s, w, c), c))
  }

  /** The regex's leftmost match: the opening fence is the first one in the
      text, and there is no match exactly when no two non-overlapping fences exist. */
  lemma LocateFenceSpec(s: string)
    ensures LocateFence(s).None? <==> forall i, j :: FenceAt(s, i) && FenceAt(s, j) ==> j < i + 3
    ensures LocateFence(s).Some? ==>
              FenceAt(s, LocateFence(s).value.open) && forall j :: 0 <= j < LocateFence(s).value.open ==> !FenceAt(s, j)
    ensures LocateFence(s).Some? ==> IsFenceSpan(s, LocateFence(s).value)
  {
    match FirstFence(s, 0)
    case None =>
    case Some(i) =>
      assert i + 3 <= |s|;
      var w := SkipSpace(s, TagEnd(s, i + 3));
      match FirstFence(s, w)
      case None =>
        NoFenceInTagOrSpace(s, i, w);
        NoFencePair(s, i);
      case Some(c) =>
        assert FenceAt(s, i) && FenceAt(s, c) && c >= i + 3;
        LocateFenceAt(s, i, w, c);
        SpanFacts(s, i, w, c);
  }

  /** Text without a backtick has no fenced block. */
  lemma NoBacktickNoFence(s: string)
    requires '`' !in s
    ensures LocateFence(s).None?
  {
    forall i | 0 <= i < |s|
      ensures !FenceAt(s, i)
    {
      assert s[i] in s;
    }
    LocateFenceSpec(s);
  }

  /** The text handed to the JSON decoder, in precedence order. */
  function ExtractJsonText(s: string): (r: string)
    ensures LocateFence(s).Some? ==> r == s[LocateFence(s).value.bodyStart..LocateFence(s).value.bodyEnd]
    ensures LocateFence(s).None? && Find(s, '{') >= 0 && RFind(s, '}') >= 0 ==>
              r == Slice(s, Find(s, '{'), RFind(s, '}') + 1)
    ensures LocateFence(s).None? && (Find(s, '{') < 0 || RFind(s, '}') < 0) ==> r == s
  {
    match LocateFence(s)
    case Some(f) => s[f.bodyStart..f.bodyEnd]
    case None =>
      var start := Find(s, '{');
      var end := RFind(s, '}');
      if start != -1 && end != -1 then Slice(s, start, end + 1) else s
  }

  lemma FirstFenceIs(s: string, from: nat, k: nat)
    requires from <= k <= |s| && FenceAt(s, k)
    requires forall j :: from <= j < k ==> !FenceAt(s, j)
    ensures FirstFence(s, from) == Some(k)
  {
  }

  /** The opening fence of a ```` ```json ```` block at `o` preceded by no backtick. */
  lemma OpeningFence(s: string, o: nat)
    requires o + 8 <= |s| && s[o..o + 8] == "```json\n"
    requires forall j :: 0 <= j < o ==> s[j] != '`'
    ensures FirstFence(s, 0) == Some(o)
    ensures TagEnd(s, o + 3) == o + 7 && IsSpace(s[o + 7])
  {
    var h := s[o..o + 8];
    assert s[o] == h[0] && s[o + 1] == h[1] && s[o + 2] == h[2];
    FirstFenceIs(s, 0, o);
    assert s[o + 3] == h[3] && s[o + 4] == h[4] && s[o + 5] == h[5] && s[o + 6] == h[6];
    assert s[o + 7] == h[7];
  }

  /** The body and closing fence of such a block. */
  lemma ClosingFence(s: string, b: nat, body: string)
    requires b + |body| + 4 <= |s|
    requires s[b..b + |body|] == body && s[b + |body|..b + |body| + 4] == "\n```"
    requires '`' !in body
    ensures FirstFence(s, b) == Some(b + |body| + 1)
    ensures IsSpace(s[b + |body|])
  {
    var c := b + |body| + 1;
    var t := s[c - 1..c + 3];
    assert s[c - 1] == t[0] && s[c] == t[1] && s[c + 1] == t[2] && s[c + 2] == t[3];
    forall j | b <= j < c - 1
      ensures s[j] != '`'
    {
      assert s[j] == s[b..b + |body|][j - b];
    }
    FirstFenceIs(s, b, c);
  }

  /** A closing fence after a newline after a body that ends in a non-space:
      the body ends at the newline. */
  lemma BodyEndsAtNewline(s: string, w: nat, c: nat)
    requires w + 2 <= c <= |s| && IsSpace(s[c - 1]) && !IsSpace(s[c - 2])
    ensures TrailingSpaceStart(s, w, c) == c - 1
  {
    assert TrailingSpaceStart(s, w, c - 1) == c - 1;
  }

  /** Whitespace at `p` followed by a non-space: skipping stops right after it. */
  lemma SkipOneSpace(s: string, p: nat)
    requires p + 1 < |s| && IsSpace(s[p]) && !IsSpace(s[p + 1])
    ensures SkipSpace(s, p) == p + 1
  {
  }

  /** The span `LocateFence` reports once both fences are known. */
  lemma LocateFenceAt(s: string, i: nat, w: nat, c: nat)
    requires i + 3 <= |s| && FirstFence(s, 0) == Some(i)
    requires w == SkipSpace(s, TagEnd(s, i + 3)) && FirstFence(s, w) == Some(c)
    ensures LocateFence(s) == Some(FenceSpan(i, w, TrailingSpaceStart(s, w, c), c))
  {
    assert FenceFrom(s, i) == Some(FenceSpan(i, w, TrailingSpaceStart(s, w, c), c));
  }

  lemma ExtractFromLayout(s: string, o: nat, body: string)
    requires o + 8 + |body| + 4 <= |s|
    requires forall j :: 0 <= j < o ==> s[j] != '`'
    requires s[o..o + 8] == "```json\n"
    requires s[o + 8..o + 8 + |body|] == body && s[o + 8 + |body|..o + 8 + |body| + 4] == "\n```"
    requires '`' !in body
    requires |body| > 0 && !IsSpace(body[0]) && !IsSpace(body[|body| - 1])
    ensures ExtractJsonText(s) == body
  {
    OpeningFence(s, o);
    var w := o + 8;
    assert s[w] == s[w..w + |body|][0];
    SkipOneSpace(s, o + 7);
    ClosingFence(s, w, body);
    var c := w + |body| + 1;
    assert s[c - 2] == s[w..w + |body|][|body| - 1];
    BodyEndsAtNewline(s, w, c);
    LocateFenceAt(s, o, w, c);
  }

  /** A fenced block wrapped in prose is extracted exactly. */
  lemma FencedBlockExtracted(prose: string, body: string, rest: string)
    requires '`' !in prose && '`' !in body
    requires |body| > 0 && !IsSpace(body[0]) && !IsSpace(body[|body| - 1])
    ensures ExtractJsonText(prose + "```json\n" + body + "\n```" + rest) == body
  {
    var s := prose + "```json\n" + body + "\n```" + rest;
    var o := |prose|;
    assert forall j :: 0 <= j < o ==> s[j] == prose[j];
    assert s[o..o + 8] == "```json\n";
    assert s[o + 8..o + 8 + |body|] == body;
    assert s[o + 8 + |body|..o + 8 + |body| + 4] == "\n```";
    ExtractFromLayout(s, o, body);
  }

  /** Without fences, the span from the first `{` to the last `}` is extracted. */
  lemma BraceSpanExtracted(before: string, obj: string, after: string)
    requires '`' !in before + obj + after
    requires '{' !in before && '}' !in after && '}' !in before && '{' !in after
    requires |obj| >= 2 && obj[0] == '{' && obj[|obj| - 1] == '}'
    ensures ExtractJsonText(before + obj + after) == obj
  {
    var s := before + obj + after;
    NoBacktickNoFence(s);
    assert s[|before|] == '{';
    assert forall j :: 0 <= j < |before| ==> s[j] == before[j];
    assert Find(s, '{') == |before|;
    assert s[|before| + |obj| - 1] == '}';
    assert forall j :: |before| + |obj| <= j < |s| ==> s[j] == after[j - |before| - |obj|];
    assert RFind(s, '}') == |before| + |obj| - 1;
    assert s[|before|..|before| + |obj|] == obj;
  }

  /** Text with neither a fence nor a `{` is handed to the decoder whole. */
  lemma WholeTextFallback(s: string)
    requires '`' !in s && '{' !in s
    ensures ExtractJsonText(s) == s
  {
    NoBacktickNoFence(s);
  }

  /** When the last `}` precedes the first `{`, the decoder receives nothing. */
  lemma InvertedBracesGiveEmptyText(s: string)
    requires LocateFence(s).None?
    requires 0 <= RFind(s, '}') && 0 <= Find(s, '{') && RFind(s, '}') < Find(s, '{')
    ensures ExtractJsonText(s) == ""
  {
  }

  datatype ParseError =
    | InvalidJson(detail: string)     // json.JSONDecodeError, re-raised as ValueError
    | NotAnObject                     // decoded value is not a mapping: `model_class(**data)` raises TypeError
    | SchemaViolation(detail: string) // pydantic ValidationError, re-raised as ValueError

  /** The text of the raised exception. */
  function ErrorMessage(e: ParseError): (m: string)
    ensures e.InvalidJson? ==> IsPrefix("Invalid JSON format", m)
    ensures e.SchemaViolation? ==> IsPrefix("Schema Validation Failed", m)
    ensures e.NotAnObject? ==> !IsPrefix("Invalid JSON format", m) && !IsPrefix("Schema Validation Failed", m)
  {
    match e
    case InvalidJson(d) => "Invalid JSON format: " + d
    case SchemaViolation(d) => "Schema Validation Failed: " + d
    case NotAnObject =>
      var m := "argument after ** must be a mapping";
      assert m[0] == 'a';
      assert m[..19][0] != "Invalid JSON format"[0];
      assert m[..24][0] != "Schema Validation Failed"[0];
      m
  }

  /** Extracts, decodes and validates model output against the schema of kind `k`. */
  function Parse(text: string, k: SchemaKind, decode: string -> Result<Json, string>): (r: Result<RoleOutput, ParseError>)
    ensures r.Success? ==> KindOf(r.value) == k && WellFormed(r.value)
    ensures decode(ExtractJsonText(text)).Failure? <==> r.Failure? && r.error.InvalidJson?
    ensures (r.Failure? && r.error.NotAnObject?) <==>
              decode(ExtractJsonText(text)).Success? && !decode(ExtractJsonText(text)).value.JObj?
    ensures (r.Failure? && r.error.SchemaViolation?) <==>
              decode(ExtractJsonText(text)).Success? && decode(ExtractJsonText(text)).value.JObj?
              && Validate(k, decode(ExtractJsonText(text)).value.fields).Failure?
    ensures r.Success? ==> (decode(ExtractJsonText(text)).Success? && decode(ExtractJsonText(text)).value.JObj?
              && Validate(k, decode(ExtractJsonText(text)).value.fields) == Success(r.value))
  {
    match decode(ExtractJsonText(text))
    case Failure(e) => Failure(InvalidJson(e))
    case Success(data) =>
      if !data.JObj? then Failure(NotAnObject)
      else
        match Validate(k, data.fields)
        case Failure(e) => Failure(SchemaViolation(e))
        case Success(o) => Success(o)
  }

  /** With a decoder that rejects the empty document, inverted braces fail as invalid JSON. */
  lemma InvertedBracesAreInvalidJson(s: string, k: SchemaKind, decode: string -> Result<Json, string>)
    requires RejectsEmpty(decode)
    requires LocateFence(s).None?
    requires 0 <= RFind(s, '}') && 0 <= Find(s, '{') && RFind(s, '}') < Find(s, '{')
    ensures Parse(s, k, decode).Failure? && Parse(s, k, decode).error.InvalidJson?
  {
    InvertedBracesGiveEmptyText(s);
  }
}

=== FILE: pdf_reader.dfy ===
/** The PDF reader tool: the same path check as the file tool, then text
    extraction over a clamped page range. Opening a PDF and extracting a
    page's text are left to the PDF library, modelled as a function from a
    path to either an opening error or one extraction result per page. */
module PdfReader {
  import opened Wrappers
  import opened Strings
  import opened JsonValue
  import opened ToolBase
  import opened PosixPath
  import FileSystem

  const Name := "pdf_reader"
  const MissingLibraryOutput := "pypdf library not installed. Cannot read PDFs."
  const FailurePrefix := "Failed to read PDF: "
  const FloatIndexMessage := "'float' object cannot be interpreted as an integer"

  /** What the library makes of a file: the error raised when opening it, or
      for each page the error raised by its text extraction or the text. */
  type PdfOpener = string -> Result<seq<Result<string, string>>, string>

  function NotFoundOutput(filename: string): string {
    "File " + filename + " not found in workspace."
  }

  /** The TypeError of `x < 0` or `x > n` for an operand that is not a number. */
  function CompareMessage(op: string, x: Json): string {
    "'" + op + "' not supported between instances of '" + TypeName(x) + "' and 'int'"
  }

  /** A page bound after clamping: an integer, or a float that survived the
      comparison and will be refused by `range`. */
  datatype Bound = IntBound(n: int) | FloatBound

  /** `if start < 0: start = 0`. Booleans compare and count as 0 and 1. */
  function ClampStart(start: Json): (r: Result<Bound, string>)
    ensures r.Failure? <==> !(start.JInt? || start.JBool? || start.JReal?)
    ensures r.Failure? ==> r.error == CompareMessage("<", start)
    ensures start.JInt? ==> r == Success(IntBound(if start.i < 0 then 0 else start.i))
    ensures r.Success? && r.value.IntBound? ==> r.value.n >= 0
  {
    match start
    case JInt(i) => Success(IntBound(if i < 0 then 0 else i))
    case JBool(b) => Success(IntBound(if b then 1 else 0))
    case JReal(x) => if x < 0.0 then Success(IntBound(0)) else Success(FloatBound)
    case _ => Failure(CompareMessage("<", start))
  }

  /** `if end is None or end > total_pages: end = total_pages`. */
  function ClampEnd(end: Json, total: nat): (r: Result<Bound, string>)
    ensures r.Failure? <==> !(end.JNull? || end.JInt? || end.JBool? || end.JReal?)
    ensures r.Failure? ==> r.error == CompareMessage(">", end)
    ensures end.JNull? ==> r == Success(IntBound(total))
    ensures end.JInt? ==> r == Success(IntBound(if end.i > total then total else end.i))
    ensures r.Success? && r.value.IntBound? ==> r.value.n <= total
  {
    match end
    case JNull => Success(IntBound(total))
    case JInt(i) => Success(IntBound(if i > total then total else i))
    case JBool(b) =>
      var v := if b then 1 else 0;
      Success(IntBound(if v > total then total else v))
    case JReal(x) => if x > total as real then Success(IntBound(total)) else Success(FloatBound)
    case _ => Failure(CompareMessage(">", end))
  }

  /** The block one page contributes: nothing when its text is empty. */
  function PageBlock(i: nat, text: string): string {
    if text == "" then "" else "\n--- Page " + NatToString(i + 1) + " ---\n" + text
  }

  predicate PagesOk(pages: seq<Result<string, string>>, lo: int, hi: int)
    requires 0 <= lo && hi <= |pages|
  {
    forall k :: lo <= k < hi ==> pages[k].Success?
  }

  /** The loop over `range(start, end)`: the first page whose extraction
      fails ends it with that page's error. */
  function Blocks(pages: seq<Result<string, string>>, i: int, end: int): (r: Result<string, string>)
    requires 0 <= i && end <= |pages|
    ensures r.Success? <==> PagesOk(pages, i, end)
    ensures r.Failure? ==> exists k :: i <= k < end && pages[k] == Failure(r.error)
                                      && PagesOk(pages, i, k)
    decreases end - i
  {
    if i >= end then Success("")
    else match pages[i]
      case Failure(m) => Failure(m)
      case Success(t) =>
        match Blocks(pages, i + 1, end)
        case Failure(m) => Failure(m)
        case Success(rest) => Success(PageBlock(i, t) + rest)
  }

  /** Both bounds clamp without error to integers, which `range` accepts. */
  predicate IntRange(start: Json, end: Json, total: nat) {
    ClampStart(start).Success? && ClampEnd(end, total).Success?
    && ClampStart(start).value.IntBound? && ClampEnd(end, total).value.IntBound?
  }

  /** `_extract_text` on an opened document: a bound that cannot be compared
      raises, a float bound is refused by `range`, and over the clamped
      integer range the read succeeds exactly when every page in it
      extracts, with the text of those pages; otherwise it fails with the
      error of a page in the range. */
  function ExtractText(pages: seq<Result<string, string>>, start: Json, end: Json): (r: Result<string, string>)
    ensures ClampStart(start).Failure? ==> r == Failure(ClampStart(start).error)
    ensures ClampStart(start).Success? && ClampEnd(end, |pages|).Failure? ==> r == Failure(ClampEnd(end, |pages|).error)
    ensures ClampStart(start).Success? && ClampEnd(end, |pages|).Success? && !IntRange(start, end, |pages|) ==>
              r == Failure(FloatIndexMessage)
    ensures r.Success? <==> IntRange(start, end, |pages|)
                            && PagesOk(pages, ClampStart(start).value.n, ClampEnd(end, |pages|).value.n)
    ensures IntRange(start, end, |pages|) ==>
              var lo, hi := ClampStart(start).value.n, ClampEnd(end, |pages|).value.n;
              (PagesOk(pages, lo, hi) ==> r == Success(Text(pages, lo, hi)))
              && (r.Failure? ==> exists k :: lo <= k < hi && pages[k] == Failure(r.error))
    ensures start.JInt? && end.JNull? && PagesOk(pages, if start.i < 0 then 0 else start.i, |pages|) ==> r.Success?
  {
    var lo :- ClampStart(start);
    var hi :- ClampEnd(end, |pages|);
    if lo.FloatBound? || hi.FloatBound? then Failure(FloatIndexMessage)
    else if PagesOk(pages, lo.n, hi.n) then
      BlocksAreText(pages, lo.n, hi.n);
      Blocks(pages, lo.n, hi.n)
    else Blocks(pages, lo.n, hi.n)
  }

  /** The document's text as a whole, the reference the loop is compared with. */
  function Text(pages: seq<Result<string, string>>, i: int, end: int): string
    requires 0 <= i && end <= |pages|
    decreases end - i
  {
    if i >= end then "" else PageBlock(i, if pages[i].Success? then pages[i].value else "") + Text(pages, i + 1, end)
  }

  /** `PDFReaderTool.run`. */
  function Run(input: Json, pypdfAvailable: bool, ws: string, fs: FileSystem.Fs, open: PdfOpener): (r: ToolResult)
    requires IsAbsolute(ws)
    ensures !pypdfAvailable ==> r == Returned(StatusOutput("error", MissingLibraryOutput))
    ensures pypdfAvailable && !input.JObj? ==> r == Raised(NoGetMessage(input))
    ensures pypdfAvailable && input.JObj? && !Get(input.fields, "filename", JNull).JStr? ==>
              r == Raised(PathTypeMessage(Get(input.fields, "filename", JNull)))
    ensures pypdfAvailable && input.JObj? && Get(input.fields, "filename", JNull).JStr? ==>
              var filename := input.fields["filename"].s;
              var path := AbsPath(ws, filename);
              (!FileSystem.Inside(ws, path) ==> r == Returned(StatusOutput("error", FileSystem.DeniedOutput)))
              && (FileSystem.Inside(ws, path) && !FileSystem.Exists(fs, path) ==>
                    r == Returned(StatusOutput("error", NotFoundOutput(filename))))
              && (FileSystem.Inside(ws, path) && FileSystem.Exists(fs, path) && open(path).Failure? ==>
                    r == Returned(StatusOutput("error", FailurePrefix + open(path).error)))
              && (FileSystem.Inside(ws, path) && FileSystem.Exists(fs, path) && open(path).Success? ==>
                    var text := ExtractText(open(path).value, Get(input.fields, "page_start", JInt(0)),
                                            Get(input.fields, "page_end", JNull));
                    (text.Success? ==> r == Returned(map["status" := JStr("success"), "content" := JStr(text.value)]))
                    && (text.Failure? ==> r == Returned(StatusOutput("error", FailurePrefix + text.error))))
    ensures r.Returned? ==> "status" in r.out && (r.out["status"] == JStr("success") || r.out["status"] == JStr("error"))
    ensures r.Returned? && "status" in r.out && r.out["status"] == JStr("success") ==>
              input.JObj? && "filename" in input.fields && input.fields["filename"].JStr?
              && var path := AbsPath(ws, input.fields["filename"].s);
                 FileSystem.Inside(ws, path) && FileSystem.Exists(fs, path) && open(path).Success?
    ensures !r.Escaped?
  {
    if !pypdfAvailable then Returned(StatusOutput("error", MissingLibraryOutput))
    else if !input.JObj? then Raised(NoGetMessage(input))
    else
      var filename := Get(input.fields, "filename", JNull);
      var start := Get(input.fields, "page_start", JInt(0));
      var end := Get(input.fields, "page_end", JNull);
      match FileSystem.SafePath(ws, filename)
      case Failure(msg) => Raised(msg)
      case Success(path) =>
        if !FileSystem.Inside(ws, path) then Returned(StatusOutput("error", FileSystem.DeniedOutput))
        else if !FileSystem.Exists(fs, path) then Returned(StatusOutput("error", NotFoundOutput(filename.s)))
        else
          var text := match open(path)
            case Failure(m) => Failure(m)
            case Success(pages) => ExtractText(pages, start, end);
          match text
          case Success(t) => Returned(map["status" := JStr("success"), "content" := JStr(t)])
          case Failure(m) => Returned(StatusOutput("error", FailurePrefix + m))
  }

  // ---------------------------------------------------------------------------
  // Lemmas
  // ---------------------------------------------------------------------------

  /** When every page in range extracts, the loop yields the text of those pages. */
  lemma {:induction false} BlocksAreText(pages: seq<Result<string, string>>, i: int, end: int)
    requires 0 <= i && end <= |pages| && PagesOk(pages, i, end)
    ensures Blocks(pages, i, end) == Success(Text(pages, i, end))
    decreases end - i
  {
    if i < end {
      BlocksAreText(pages, i + 1, end);
    }
  }

  /** Text over adjacent ranges concatenates. */
  lemma {:induction false} TextSplit(pages: seq<Result<string, string>>, i: int, k: int, end: int)
    requires 0 <= i <= k <= end <= |pages|
    ensures Text(pages, i, end) == Text(pages, i, k) + Text(pages, k, end)
    decreases k - i
  {
    if i < k {
      TextSplit(pages, i + 1, k, end);
    }
  }

  /** Pages whose text is empty contribute nothing, not even a header. */
  lemma {:induction false} EmptyPagesVanish(pages: seq<Result<string, string>>, i: int, end: int)
    requires 0 <= i && end <= |pages|
    requires forall k :: i <= k < end ==> pages[k] == Success("")
    ensures Text(pages, i, end) == ""
    decreases end - i
  {
    if i < end {
      EmptyPagesVanish(pages, i + 1, end);
    }
  }

  /** A negative start reads from the first page, as start 0 does. */
  lemma NegativeStartIsZero(pages: seq<Result<string, string>>, start: int, end: Json)
    requires start < 0
    ensures ExtractText(pages, JInt(start), end) == ExtractText(pages, JInt(0), end)
  {
  }

  /** No end, or an end past the last page, reads to the last page. */
  lemma EndClampedToLength(pages: seq<Result<string, string>>, start: Json, end: int)
    requires end >= |pages|
    ensures ExtractText(pages, start, JInt(end)) == ExtractText(pages, start, JNull)
  {
  }

  /** An empty or inverted range reads nothing, and cannot fail. */
  lemma EmptyRangeIsEmptyText(pages: seq<Result<string, string>>, start: int, end: int)
    requires end <= start
    ensures ExtractText(pages, JInt(start), JInt(end)) == Success("")
  {
  }

  /** The whole of a document whose every page extracts is its text. */
  lemma WholeDocument(pages: seq<Result<string, string>>)
    requires PagesOk(pages, 0, |pages|)
    ensures ExtractText(pages, JInt(0), JNull) == Success(Text(pages, 0, |pages|))
  {
    BlocksAreText(pages, 0, |pages|);
  }

  /** One page with text: a header numbered from one, then the text. */
  lemma SinglePage(text: string)
    requires text != ""
    ensures ExtractText([Success(text)], JInt(0), JNull) == Success("\n--- Page 1 ---\n" + text)
  {
    assert NatToString(0 + 1) == "1";
    assert PageBlock(0, text) == "\n--- Page 1 ---\n" + text;
    var pages: seq<Result<string, string>> := [Success(text)];
    assert PagesOk(pages, 0, 1);
    assert Text(pages, 1, 1) == "";
    BlocksAreText(pages, 0, 1);
    assert Text(pages, 0, 1) == PageBlock(0, text) + Text(pages, 1, 1);
    assert ExtractText(pages, JInt(0), JNull) == Blocks(pages, 0, 1);
    assert PageBlock(0, text) + Text(pages, 1, 1) == PageBlock(0, text);
    assert Text(pages, 0, 1) == "\n--- Page 1 ---\n" + text;
    assert Blocks(pages, 0, 1) == Success("\n--- Page 1 ---\n" + text);
  }

  /** A float bound that survives clamping is refused by `range`. */
  lemma FloatStartRefused(pages: seq<Result<string, string>>, x: real)
    requires x >= 0.0
    ensures ExtractText(pages, JReal(x), JNull) == Failure(FloatIndexMessage)
  {
  }

  /** A page that fails to extract, inside the range, fails the whole read. */
  lemma FailingPageFails(pages: seq<Result<string, string>>, k: nat)
    requires k < |pages| && pages[k].Failure?
    ensures ExtractText(pages, JInt(0), JNull).Failure?
  {
  }
}

=== FILE: posix_path.dfy ===
/** The parts of `posixpath` the workspace tools rely on: `join`, and
    `normpath` for absolute paths (which is what `abspath` reduces to when the
    base directory is absolute). A normal directory is written `"/" + c1 + "/" + ... + cn`
    for proper components `ci`. */
module PosixPath {
  import opened Strings

  predicate IsAbsolute(p: string) {
    |p| > 0 && p[0] == '/'
  }

  /** `posixpath.join(base, name)`. */
  function Join(base: string, name: string): (p: string)
    ensures IsAbsolute(name) ==> p == name
    ensures IsAbsolute(base) ==> IsAbsolute(p)
  {
    if IsAbsolute(name) then name
    else if base == "" || base[|base| - 1] == '/' then base + name
    else base + "/" + name
  }

  /** A component `normpath` keeps as it is. */
  predicate Proper(c: string) {
    c != "" && c != "." && c != ".." && '/' !in c
  }

  /** One step of `normpath` on an absolute path: empty and `.` components
      vanish, `..` removes the previous component (or nothing at the root). */
  function Step(acc: seq<string>, c: string): seq<string> {
    if c == "" || c == "." then acc
    else if c == ".." then (if |acc| > 0 then acc[..|acc| - 1] else acc)
    else acc + [c]
  }

  function Resolve(acc: seq<string>, comps: seq<string>): (r: seq<string>)
    decreases |comps|
  {
    if |comps| == 0 then acc else Resolve(Step(acc, comps[0]), comps[1..])
  }

  /** `normpath` keeps exactly two leading slashes, and folds three or more into one. */
  function Root(p: string): string {
    if IsPrefix("//", p) && !IsPrefix("///", p) then "//" else "/"
  }

  /** `normpath` of an absolute path. */
  function NormalizeAbs(p: string): (r: string)
    requires IsAbsolute(p)
    ensures IsAbsolute(r)
  {
    Root(p) + JoinWith("/", Resolve([], SplitOn(p, '/')))
  }

  /** `os.path.abspath(os.path.join(base, name))` for an absolute base. */
  function AbsPath(base: string, name: string): (r: string)
    requires IsAbsolute(base)
    ensures IsAbsolute(r)
  {
    NormalizeAbs(Join(base, name))
  }

  /** `s.rstrip("/")`. */
  function RStripSlash(s: string): (r: string)
    ensures IsPrefix(r, s)
    ensures r == "" || r[|r| - 1] != '/'
    ensures forall k :: |r| <= k < |s| ==> s[k] == '/'
  {
    if s != "" && s[|s| - 1] == '/' then RStripSlash(s[..|s| - 1]) else s
  }

  /** `posixpath.dirname`: everything up to the last `/`, with trailing
      slashes removed unless nothing but slashes is left. */
  function DirName(p: string): (d: string)
    ensures IsPrefix(d, p)
  {
    var head := p[..RFind(p, '/') + 1];
    if exists k :: 0 <= k < |head| && head[k] != '/' then RStripSlash(head) else head
  }

  /** The directory `"/" + c1 + "/" + ... + cn`. */
  function DirOf(comps: seq<string>): string {
    "/" + JoinWith("/", comps)
  }

  predicate AllProper(comps: seq<string>) {
    forall i :: 0 <= i < |comps| ==> Proper(comps[i])
  }

  // ---------------------------------------------------------------------------
  // Lemmas
  // ---------------------------------------------------------------------------

  lemma {:induction false} ResolveAppend(acc: seq<string>, xs: seq<string>, ys: seq<string>)
    ensures Resolve(acc, xs + ys) == Resolve(Resolve(acc, xs), ys)
    decreases |xs|
  {
    if |xs| == 0 {
      assert xs + ys == ys;
    } else {
      assert (xs + ys)[1..] == xs[1..] + ys;
      ResolveAppend(Step(acc, xs[0]), xs[1..], ys);
    }
  }

  /** Proper components are kept in order. */
  lemma {:induction false} ResolveProper(acc: seq<string>, xs: seq<string>)
    requires AllProper(xs)
    ensures Resolve(acc, xs) == acc + xs
    decreases |xs|
  {
    if |xs| > 0 {
      ResolveProper(acc + [xs[0]], xs[1..]);
      assert acc + [xs[0]] + xs[1..] == acc + xs;
    }
  }

  lemma {:induction false} JoinWithAppend(sep: string, a: seq<string>, b: seq<string>)
    requires |a| > 0 && |b| > 0
    ensures JoinWith(sep, a + b) == JoinWith(sep, a) + sep + JoinWith(sep, b)
    decreases |a|
  {
    if |a| == 1 {
      assert (a + b)[1..] == b;
    } else {
      assert (a + b)[1..] == a[1..] + b;
      JoinWithAppend(sep, a[1..], b);
    }
  }

  lemma {:induction false} JoinWithLast(sep: string, parts: seq<string>)
    requires |parts| > 0
    ensures IsSuffix(parts[|parts| - 1], JoinWith(sep, parts))
    decreases |parts|
  {
    if |parts| > 1 {
      JoinWithLast(sep, parts[1..]);
      var j := JoinWith(sep, parts);
      var t := JoinWith(sep, parts[1..]);
      assert j == parts[0] + sep + t;
      assert j[|j| - |t|..] == t;
    }
  }

  lemma JoinWithFirst(sep: string, parts: seq<string>)
    requires |parts| > 0
    ensures IsPrefix(parts[0], JoinWith(sep, parts))
  {
    if |parts| > 1 {
      var j := JoinWith(sep, parts);
      assert j == parts[0] + (sep + JoinWith(sep, parts[1..]));
      assert j[..|parts[0]|] == parts[0];
    }
  }

  predicate SlashFree(parts: seq<string>) {
    forall i :: 0 <= i < |parts| ==> '/' !in parts[i]
  }

  lemma SlashFreeAppend(a: seq<string>, b: seq<string>)
    requires SlashFree(a) && SlashFree(b)
    ensures SlashFree(a + b)
  {
    forall i | 0 <= i < |a + b|
      ensures '/' !in (a + b)[i]
    {
      if i >= |a| {
        assert (a + b)[i] == b[i - |a|];
      }
    }
  }

  /** A normal directory, then `/`, then more components, is the join of the
      empty root component, the directory's components and the rest. */
  lemma JoinBuilt(wc: seq<string>, nc: seq<string>)
    requires |wc| > 0 && |nc| > 0
    ensures JoinWith("/", [""] + wc + nc) == DirOf(wc) + "/" + JoinWith("/", nc)
  {
    var head := [""] + wc;
    assert head[1..] == wc;
    assert JoinWith("/", head) == "/" + JoinWith("/", wc);
    JoinWithAppend("/", head, nc);
  }

  /** ... and splitting it gives those components back. */
  lemma SplitBuilt(wc: seq<string>, nc: seq<string>)
    requires |wc| > 0 && |nc| > 0 && SlashFree(wc) && SlashFree(nc)
    ensures SplitOn(DirOf(wc) + "/" + JoinWith("/", nc), '/') == [""] + wc + nc
  {
    JoinBuilt(wc, nc);
    SlashFreeAppend([""], wc);
    SlashFreeAppend([""] + wc, nc);
    JoinSplitRoundTrip([""] + wc + nc, '/');
  }

  /** A normal directory followed by `/` and more has a single root slash. */
  lemma RootOfBuilt(wc: seq<string>, rest: string)
    requires |wc| > 0 && AllProper(wc)
    ensures Root(DirOf(wc) + rest) == "/"
  {
    JoinWithFirst("/", wc);
    var p := DirOf(wc) + rest;
    assert p[1] == wc[0][0];
    assert !IsPrefix("//", p) by {
      assert p[..2][1] == p[1];
    }
  }

  /** Normalising a normal directory extended by slash-free components applies
      those components to the directory's own. */
  lemma NormalizeBuilt(wc: seq<string>, nc: seq<string>)
    requires |wc| > 0 && AllProper(wc)
    requires |nc| > 0 && SlashFree(nc)
    ensures NormalizeAbs(DirOf(wc) + "/" + JoinWith("/", nc)) == "/" + JoinWith("/", Resolve(wc, nc))
  {
    var rest := "/" + JoinWith("/", nc);
    var p := DirOf(wc) + rest;
    assert p == DirOf(wc) + "/" + JoinWith("/", nc);
    SplitBuilt(wc, nc);
    assert Resolve([], [""]) == [];
    ResolveAppend([], [""], wc);
    ResolveProper([], wc);
    assert Resolve([], [""] + wc) == wc;
    ResolveAppend([], [""] + wc, nc);
    assert Resolve([], SplitOn(p, '/')) == Resolve(wc, nc);
    RootOfBuilt(wc, rest);
  }

  /** Joining a relative name onto a normal directory inserts one `/`. */
  lemma JoinOntoDir(wc: seq<string>, name: string)
    requires |wc| > 0 && AllProper(wc)
    requires name != "" && name[0] != '/'
    ensures Join(DirOf(wc), name) == DirOf(wc) + "/" + name
  {
    var ws := DirOf(wc);
    JoinWithLast("/", wc);
    var last := wc[|wc| - 1];
    assert ws[|ws| - 1] == last[|last| - 1];
  }

  /** A name made of proper components is relative. */
  lemma ProperNameRelative(nc: seq<string>)
    requires |nc| > 0 && AllProper(nc)
    ensures JoinWith("/", nc) != "" && JoinWith("/", nc)[0] != '/'
  {
    var name := JoinWith("/", nc);
    var first := nc[0];
    assert Proper(first);
    JoinWithFirst("/", nc);
    assert name[0] == first[0];
  }

  lemma AbsPathProper(wc: seq<string>, nc: seq<string>)
    requires |wc| > 0 && AllProper(wc)
    requires |nc| > 0 && AllProper(nc)
    requires JoinWith("/", nc) != "" && JoinWith("/", nc)[0] != '/'
    ensures AbsPath(DirOf(wc), JoinWith("/", nc)) == "/" + JoinWith("/", wc + nc)
  {
    JoinOntoDir(wc, JoinWith("/", nc));
    assert SlashFree(nc);
    NormalizeBuilt(wc, nc);
    ResolveProper(wc, nc);
  }

  /** Relative names made of proper components stay under the directory. */
  lemma RelativeStaysInside(wc: seq<string>, nc: seq<string>)
    requires |wc| > 0 && AllProper(wc)
    requires |nc| > 0 && AllProper(nc)
    ensures AbsPath(DirOf(wc), JoinWith("/", nc)) == DirOf(wc) + "/" + JoinWith("/", nc)
  {
    ProperNameRelative(nc);
    AbsPathProper(wc, nc);
    DirOfAppend(wc, nc);
  }

  lemma DirOfAppend(wc: seq<string>, nc: seq<string>)
    requires |wc| > 0 && |nc| > 0
    ensures "/" + JoinWith("/", wc + nc) == DirOf(wc) + "/" + JoinWith("/", nc)
  {
    JoinWithAppend("/", wc, nc);
  }

  /** `..` followed by the directory's own name plus a suffix lands in a
      sibling whose path still has the directory as a string prefix. */
  lemma SiblingSharesPrefix(wc: seq<string>, suffix: string)
    requires |wc| > 0 && AllProper(wc)
    requires Proper(wc[|wc| - 1] + suffix) && |suffix| > 0
    ensures AbsPath(DirOf(wc), "../" + (wc[|wc| - 1] + suffix)) == DirOf(wc) + suffix
  {
    var n := |wc|;
    var init := wc[..n - 1];
    var last := wc[n - 1];
    var lx := last + suffix;
    var name := "../" + lx;
    assert name == JoinWith("/", ["..", lx]) by {
      assert ["..", lx][1..] == [lx];
      assert "../" == ".." + "/";
    }
    JoinOntoDir(wc, name);
    NormalizeBuilt(wc, ["..", lx]);
    assert Resolve(wc, ["..", lx]) == Resolve(Step(wc, ".."), [lx]) by {
      assert ["..", lx][1..] == [lx];
    }
    assert Step(wc, "..") == init;
    assert Resolve(init, [lx]) == Resolve(Step(init, lx), []) by {
      assert [lx][1..] == [];
    }
    assert Step(init, lx) == init + [lx];
    assert wc == init + [last];
    SiblingJoin(init, last, suffix);
    Assoc("/", JoinWith("/", wc), suffix);
  }

  /** Extending the last component extends the joined path by the same text. */
  lemma SiblingJoin(init: seq<string>, last: string, suffix: string)
    ensures JoinWith("/", init + [last + suffix]) == JoinWith("/", init + [last]) + suffix
  {
    if |init| == 0 {
      assert init + [last + suffix] == [last + suffix];
      assert init + [last] == [last];
    } else {
      JoinWithAppend("/", init, [last + suffix]);
      JoinWithAppend("/", init, [last]);
      Assoc(JoinWith("/", init) + "/", last, suffix);
    }
  }

  /** `..` alone leaves the directory: the result is shorter than it. */
  lemma ParentIsShorter(wc: seq<string>)
    requires |wc| > 0 && AllProper(wc)
    ensures |AbsPath(DirOf(wc), "..")| < |DirOf(wc)|
  {
    var n := |wc|;
    var last := wc[n - 1];
    assert ".." == JoinWith("/", [".."]);
    JoinOntoDir(wc, "..");
    NormalizeBuilt(wc, [".."]);
    assert Resolve(wc, [".."]) == wc[..n - 1];
    if n > 1 {
      JoinWithAppend("/", wc[..n - 1], [last]);
      assert wc[..n - 1] + [last] == wc;
    }
  }

  lemma RFindLastSlash(a: string, x: string)
    requires '/' !in x
    ensures RFind(a + "/" + x, '/') == |a|
  {
    var p := a + "/" + x;
    var k := RFind(p, '/');
    assert p[|a|] == '/';
    assert forall j :: |a| < j < |p| ==> p[j] == x[j - |a| - 1];
  }

  lemma StripOneSlash(s: string)
    requires s != "" && s[|s| - 1] != '/'
    ensures RStripSlash(s + "/") == s
  {
    assert (s + "/")[..|s|] == s;
  }

  /** The parent of a normal path is the path without its last component. */
  lemma DirNameOfChild(wc: seq<string>, x: string)
    requires |wc| > 0 && AllProper(wc) && Proper(x)
    ensures DirName(DirOf(wc) + "/" + x) == DirOf(wc)
  {
    var ws := DirOf(wc);
    var p := ws + "/" + x;
    RFindLastSlash(ws, x);
    var head := p[..|ws| + 1];
    assert head == ws + "/";
    JoinWithFirst("/", wc);
    assert head[1] == wc[0][0];
    assert head[1] != '/';
    JoinWithLast("/", wc);
    var last := wc[|wc| - 1];
    assert ws[|ws| - 1] == last[|last| - 1];
    StripOneSlash(ws);
  }

  /** The parent of a top-level path is the root. */
  lemma DirNameOfTop(x: string)
    requires Proper(x)
    ensures DirName("/" + x) == "/"
  {
    RFindLastSlash("", x);
    assert "" + "/" + x == "/" + x;
    assert ("/" + x)[..1] == "/";
  }
}

=== FILE: prompts.dfy ===
/** The fixed instruction texts the orchestrator splices into prompts. */
module Prompts {

  /** Appended to every prompt of an agent-mode request. */
  const AgentInstructions :=
    "\n\nIMPORTANT: You are an Agent. Reply STRICTLY in JSON format.\n"
    + "{\n"
    + "  \"thought\": \"reasoning...\",\n"
    + "  \"action\": \"tool_name\",\n"
    + "  \"input\": { ... }\n"
    + "}\n"
    + "If you are finished or have the answer, set action to 'final_answer'."

  /** The persona put in front of every prompt under the research preset. */
  const ResearchSystemPrompt :=
    "You are NovaLM, an expert Research Engineer. Your goal is to solve complex problems using the Scientific Method.\n"
    + "You must structure your thinking process as follows:\n\n"
    + "1. **PROBLEM ANALYSIS**: Break down the user's request. Identify the core technical challenge.\n"
    + "2. **LITERATURE REVIEW**: Use your tools (specifically `pdf_reader`) to find and read relevant papers/docs in the workspace. Cite your sources.\n"
    + "3. **HYPOTHESIS**: Formulate a clear, testable hypothesis based on the gap between current knowledge and the problem.\n"
    + "4. **EXPERIMENT DESIGN**: Plan an experiment to validate your hypothesis. Define metrics and baselines.\n"
    + "5. **EXECUTION**: Use your tools (`python_exec`) to run the experiment.\n"
    + "6. **ANALYSIS & CONCLUSION**: Analyze the results and conclude whether the hypothesis was supported.\n\n"
    + "Always maintain a rigorous, objective tone. Do not guess; verify."

  /** The texts the step loop splices in; the server uses `Standard`. */
  datatype Texts = Texts(agentInstructions: string, researchSystemPrompt: string)

  const Standard := Texts(AgentInstructions, ResearchSystemPrompt)
}

=== FILE: python_exec.dfy ===
/** The Python execution tool. `exec` itself is an oracle: for a script and
    the files as they stand it reports whether the script returned, raised an
    `Exception`, or raised a `BaseException` that is not an `Exception`,
    together with what it wrote to the captured stdout and stderr and the
    files it leaves: the script runs inside the server process and may write
    anywhere. */
module PythonExec {
  import opened Wrappers
  import opened Strings
  import opened JsonValue
  import opened ToolBase
  import opened FileSystem

  const Name := "python_exec"
  const NoCodeMessage := "No code provided."
  const SuccessSummary := "Executed successfully."
  /** The TypeError `exec` raises for an argument that is not a string. */
  const ExecArgTypeMessage := "exec() arg 1 must be a string, bytes or code object"

  datatype ExecOutcome = Completed | RaisedException(msg: string) | RaisedBase(msg: string)

  datatype ExecRun = ExecRun(outcome: ExecOutcome, stdout: string, stderr: string, fs: ValidFs)

  /** `result`: the summary line for a run that did not escape. */
  function Summary(o: ExecOutcome): (s: string)
    requires !o.RaisedBase?
    ensures o.Completed? <==> !Contains(s, "Error")
  {
    match o
    case Completed =>
      assert !Contains(SuccessSummary, "Error") by {
        forall i | 0 <= i <= |SuccessSummary|
          ensures !OccursAt(SuccessSummary, "Error", i)
        {
          if i + 5 <= |SuccessSummary| {
            var w := SuccessSummary[i..i + 5];
            assert w[0] == SuccessSummary[i] && w[1] == SuccessSummary[i + 1];
            assert SuccessSummary[i] != 'E' || SuccessSummary[i + 1] != 'r';
          }
        }
      }
      SuccessSummary
    case RaisedException(m) =>
      var s := "Error: " + m;
      assert OccursAt(s, "Error", 0) by { assert s[0..5] == "Error"; }
      s
  }

  /** The status rule: success only without stderr output and without an error summary. */
  function Status(stderr: string, summary: string): string {
    if stderr == "" && !Contains(summary, "Error") then "success" else "error"
  }

  /** The four-key reply for a run that did not escape. */
  function Reply(run: ExecRun): (m: map<string, Json>)
    requires !run.outcome.RaisedBase?
    ensures m.Keys == {"status", "stdout", "stderr", "result_summary"}
    ensures m["status"] == JStr("success") <==> run.stderr == "" && run.outcome.Completed?
    ensures m["stdout"] == JStr(run.stdout) && m["stderr"] == JStr(run.stderr)
  {
    var summary := Summary(run.outcome);
    map["status" := JStr(Status(run.stderr, summary)), "stdout" := JStr(run.stdout),
        "stderr" := JStr(run.stderr), "result_summary" := JStr(summary)]
  }

  /** The code a call runs: a non-empty string under `code`. */
  predicate Runs(input: Json) {
    input.JObj? && Get(input.fields, "code", JStr("")).JStr? && Truthy(Get(input.fields, "code", JStr("")))
  }

  /** `PythonExecTool.run`: the reply, and the files the script leaves. */
  function Run(input: Json, fs: Fs, exec: (string, Fs) -> ExecRun): (e: Effect)
    ensures !input.JObj? ==> e == Effect(Raised(NoGetMessage(input)), fs)
    ensures input.JObj? && !Truthy(Get(input.fields, "code", JStr(""))) ==>
              e == Effect(Returned(StatusOutput("error", NoCodeMessage)), fs)
    ensures Runs(input) ==>
              var run := exec(input.fields["code"].s, fs);
              (run.outcome.RaisedBase? ==> e.result == Escaped(run.outcome.msg))
              && (!run.outcome.RaisedBase? ==> e.result == Returned(Reply(run)))
              && e.fs == run.fs
    ensures !Runs(input) ==> e.fs == fs
    ensures e.result.Returned? ==> "status" in e.result.out
                                   && (e.result.out["status"] == JStr("success") || e.result.out["status"] == JStr("error"))
    ensures Valid(fs) ==> Valid(e.fs)
  {
    if !input.JObj? then Effect(Raised(NoGetMessage(input)), fs)
    else
      var code := Get(input.fields, "code", JStr(""));
      if !Truthy(code) then Effect(Returned(StatusOutput("error", NoCodeMessage)), fs)
      else if !code.JStr? then Effect(Returned(Reply(ExecRun(RaisedException(ExecArgTypeMessage), "", "", Fs(map[], {})))), fs)
      else
        var run := exec(code.s, fs);
        Effect(if run.outcome.RaisedBase? then Escaped(run.outcome.msg) else Returned(Reply(run)), run.fs)
  }

  /** What a script writes to stdout never changes the status. */
  lemma StdoutDoesNotAffectStatus(a: ExecRun, b: ExecRun)
    requires !a.outcome.RaisedBase? && !b.outcome.RaisedBase?
    requires a.outcome.Completed? == b.outcome.Completed? && a.stderr == b.stderr
    ensures Reply(a)["status"] == Reply(b)["status"]
  {
  }

  /** A script that raises an `Exception` always reports "error", whatever its output. */
  lemma RaisingScriptIsError(code: string, fs: Fs, exec: (string, Fs) -> ExecRun)
    requires |code| > 0 && exec(code, fs).outcome.RaisedException?
    ensures Run(JObj(map["code" := JStr(code)]), fs, exec).result.Returned?
    ensures Run(JObj(map["code" := JStr(code)]), fs, exec).result.out["status"] == JStr("error")
  {
  }
}

=== FILE: rate_limit.dfy ===
/** The rate-limit middleware: a fixed one-minute window per client host,
    counted in Redis with `INCR` and an expiry set on the first request of the
    window. Store failures let the request through. The store is modelled as
    a map from keys to counters with optional expiry instants (seconds, as
    reals, matching `time.time()`). */
module RateLimit {
  import opened Wrappers
  import opened Strings
  import Auth

  const ExemptPaths: seq<string> := ["/health", "/docs", "/openapi.json", "/metrics"]
  const DefaultRpm := 60
  const WindowSeconds := 60
  const KeyPrefix := "rate_limit:"
  const TooManyStatus := 429
  const TooManyDetail := "Rate limit exceeded"

  datatype Counter = Counter(count: int, expiresAt: Option<real>)

  /** The store's keys, and whether calls to it currently succeed. */
  datatype Store = Store(counters: map<string, Counter>, up: bool)

  datatype Decision = Forward | Reject(status: int, detail: string) | Crash(msg: string)

  datatype Outcome = Outcome(decision: Decision, store: Store)

  /** `int(time.time() // 60)`. */
  function Minute(now: real): int {
    (now / WindowSeconds as real).Floor
  }

  /** `f"rate_limit:{client_id}:{current_minute}"`. */
  function WindowKey(host: string, minute: int): (k: string)
    ensures IsPrefix(KeyPrefix, k)
  {
    KeyPrefix + host + ":" + IntToString(minute)
  }

  /** A key is live while it has no expiry or its expiry lies ahead. */
  predicate Live(c: Counter, now: real) {
    c.expiresAt.None? || now < c.expiresAt.value
  }

  /** The counter under `key` as the store reports it: zero when absent or expired. */
  function Current(s: Store, key: string, now: real): int {
    if key in s.counters && Live(s.counters[key], now) then s.counters[key].count else 0
  }

  /** `INCR key`, then `EXPIRE key 60` when the count became 1. */
  function Increment(s: Store, key: string, now: real): (r: (int, Store))
    ensures r.0 == Current(s, key, now) + 1
    ensures Current(r.1, key, now) == r.0
    ensures r.0 == 1 ==> r.1.counters[key].expiresAt == Some(now + WindowSeconds as real)
    ensures forall k :: k != key ==> (k in r.1.counters <==> k in s.counters)
                                     && (k in s.counters ==> r.1.counters[k] == s.counters[k])
    ensures r.1.up == s.up
  {
    var prior := if key in s.counters && Live(s.counters[key], now) then s.counters[key] else Counter(0, None);
    var n := prior.count + 1;
    var expiry := if n == 1 then Some(now + WindowSeconds as real) else prior.expiresAt;
    (n, s.(counters := s.counters[key := Counter(n, expiry)]))
  }

  /** `RateLimitMiddleware.dispatch`; `host` is `None` when the request has
      no client address, where reading `.host` fails before the `try`. */
  function Dispatch(path: string, host: Option<string>, now: real, rpm: int, s: Store): (o: Outcome)
    ensures path in ExemptPaths ==> o == Outcome(Forward, s)
    ensures path !in ExemptPaths && host.None? ==> o.decision.Crash? && o.store == s
    ensures !s.up ==> o.store == s && !o.decision.Reject?
    ensures o.decision.Reject? <==>
              (path !in ExemptPaths && host.Some? && s.up && Current(s, WindowKey(host.value, Minute(now)), now) + 1 > rpm)
    ensures o.decision.Reject? ==> o.decision == Reject(TooManyStatus, TooManyDetail)
  {
    if path in ExemptPaths then Outcome(Forward, s)
    else if host.None? then Outcome(Crash("'NoneType' object has no attribute 'host'"), s)
    else if !s.up then Outcome(Forward, s)
    else
      var key := WindowKey(host.value, Minute(now));
      var (count, s') := Increment(s, key, now);
      if count > rpm then Outcome(Reject(TooManyStatus, TooManyDetail), s')
      else Outcome(Forward, s')
  }

  /** The two middlewares as installed: authentication runs first, so a
      request it refuses never reaches the counter. */
  function Stack(req: Auth.Request, apiKey: string, host: Option<string>, now: real, rpm: int, s: Store): (o: Outcome)
    ensures Auth.Dispatch(req, apiKey).Reject? ==>
              o == Outcome(Reject(Auth.UnauthorizedStatus, Auth.UnauthorizedDetail), s)
    ensures Auth.Dispatch(req, apiKey).Forward? ==> o == Dispatch(req.path, host, now, rpm, s)
  {
    match Auth.Dispatch(req, apiKey)
    case Reject(status, detail) => Outcome(Reject(status, detail), s)
    case Forward => Dispatch(req.path, host, now, rpm, s)
  }

  /** `n` requests from one host at one instant: request `k` (from zero) is
      let through exactly when `k` requests before it left room, and the
      counter ends at `n` more than it started. */
  method Burst(path: string, host: string, now: real, rpm: int, s: Store, n: nat)
    returns (decisions: seq<Decision>, s': Store)
    requires path !in ExemptPaths && s.up
    ensures |decisions| == n
    ensures forall k :: 0 <= k < n ==>
              (decisions[k] == Forward <==> Current(s, WindowKey(host, Minute(now)), now) + k + 1 <= rpm)
    ensures forall k :: 0 <= k < n ==> decisions[k] != Forward ==> decisions[k] == Reject(TooManyStatus, TooManyDetail)
    ensures Current(s', WindowKey(host, Minute(now)), now) == Current(s, WindowKey(host, Minute(now)), now) + n
    ensures s'.up
  {
    var key := WindowKey(host, Minute(now));
    var start := Current(s, key, now);
    decisions := [];
    s' := s;
    var i := 0;
    while i < n
      invariant 0 <= i <= n
      invariant |decisions| == i
      invariant s'.up
      invariant Current(s', key, now) == start + i
      invariant forall k :: 0 <= k < i ==> (decisions[k] == Forward <==> start + k + 1 <= rpm)
      invariant forall k :: 0 <= k < i ==> decisions[k] != Forward ==> decisions[k] == Reject(TooManyStatus, TooManyDetail)
    {
      var o := Dispatch(path, Some(host), now, rpm, s');
      decisions := decisions + [o.decision];
      s' := o.store;
      i := i + 1;
    }
  }

  // ---------------------------------------------------------------------------
  // Lemmas
  // ---------------------------------------------------------------------------

  lemma NoColonInInt(m: int)
    ensures ':' !in IntToString(m)
  {
    var t := IntToString(m);
    forall k | 0 <= k < |t|
      ensures t[k] != ':'
    {
      assert t[k] == '-' || IsDigit(t[k]);
    }
  }

  /** The window key determines host and minute: it splits at its last `:`. */
  lemma WindowKeyInjective(h1: string, m1: int, h2: string, m2: int)
    requires WindowKey(h1, m1) == WindowKey(h2, m2)
    ensures h1 == h2 && m1 == m2
  {
    var k := WindowKey(h1, m1);
    NoColonInInt(m1);
    NoColonInInt(m2);
    var a1 := KeyPrefix + h1;
    var a2 := KeyPrefix + h2;
    var t1 := IntToString(m1);
    var t2 := IntToString(m2);
    assert k == a1 + ":" + t1;
    assert k == a2 + ":" + t2;
    LastColon(a1, t1);
    LastColon(a2, t2);
    assert |a1| == |a2|;
    assert a1 == k[..|a1|] == a2;
    assert t1 == k[|a1| + 1..] == t2;
    AppendCancel(KeyPrefix, h1, h2);
    IntToStringInjective(m1, m2);
  }

  lemma LastColon(a: string, t: string)
    requires ':' !in t
    ensures RFind(a + ":" + t, ':') == |a|
  {
    var p := a + ":" + t;
    assert p[|a|] == ':';
    assert forall j :: |a| < j < |p| ==> p[j] == t[j - |a| - 1];
  }

  /** Requests from one host in different minutes use different counters. */
  lemma WindowsAreSeparate(host: string, now1: real, now2: real)
    requires Minute(now1) != Minute(now2)
    ensures WindowKey(host, Minute(now1)) != WindowKey(host, Minute(now2))
  {
    if WindowKey(host, Minute(now1)) == WindowKey(host, Minute(now2)) {
      WindowKeyInjective(host, Minute(now1), host, Minute(now2));
    }
  }

  /** The first request of a window creates its counter with a 60-second expiry. */
  lemma FirstRequestSetsExpiry(path: string, host: string, now: real, rpm: int, s: Store)
    requires path !in ExemptPaths && s.up
    requires WindowKey(host, Minute(now)) !in s.counters
    ensures Dispatch(path, Some(host), now, rpm, s).store.counters[WindowKey(host, Minute(now))]
            == Counter(1, Some(now + 60.0))
  {
  }

  /** A store that fails lets every request through and is left as it was. */
  lemma FailOpen(path: string, host: Option<string>, now: real, rpm: int, s: Store)
    requires !s.up && host.Some?
    ensures Dispatch(path, host, now, rpm, s) == Outcome(Forward, s)
  {
  }

  /** A refused request is still counted. */
  lemma RejectedRequestsCount(path: string, host: string, now: real, rpm: int, s: Store)
    requires path !in ExemptPaths && s.up
    ensures Current(Dispatch(path, Some(host), now, rpm, s).store, WindowKey(host, Minute(now)), now)
            == Current(s, WindowKey(host, Minute(now)), now) + 1
  {
  }
}

=== FILE: registry.dfy ===
/** The tool registry: the four tools in their fixed order, lookup by name,
    the OpenAI-style listing given to the model, and dispatch of a call to
    the tool's `run`. */
module Registry {
  import opened Wrappers
  import opened Strings
  import opened JsonValue
  import opened ToolBase
  import opened PosixPath
  import PythonExec
  import Shell
  import FileSystem
  import PdfReader

  datatype ToolKind = PythonExecTool | FileTool | ShellTool | PdfReaderTool

  datatype Tool = Tool(kind: ToolKind, name: string, description: string, parameters: Json)

  function StringProperty(description: Option<string>): Json {
    match description
    case None => JObj(map["type" := JStr("string")])
    case Some(d) => JObj(map["type" := JStr("string"), "description" := JStr(d)])
  }

  function ObjectSchema(properties: map<string, Json>, required: seq<string>): Json {
    JObj(map["type" := JStr("object"), "properties" := JObj(properties),
             "required" := JArr(JStrs(required))])
  }

  const PythonExecDescription := "Executes Python code. Input should be a valid python script. Returns stdout and stderr."
  const FileDescription := "Read or Write files in the workspace. Operations: 'read', 'write'."
  const PdfDescription := "Extracts text from a PDF file. The file must be in the workspace."

  function ShellDescription(): string {
    "Execute shell commands. Allowed: " + JoinWith(", ", Shell.Whitelist)
  }

  function PythonExecSpec(): Tool {
    Tool(PythonExecTool, PythonExec.Name, PythonExecDescription,
         ObjectSchema(map["code" := StringProperty(Some("The python code to execute."))], ["code"]))
  }

  function FileSpec(): Tool {
    Tool(FileTool, FileSystem.Name, FileDescription,
         ObjectSchema(map["operation" := JObj(map["type" := JStr("string"), "enum" := JArr([JStr("read"), JStr("write")])]),
                          "filename" := StringProperty(None),
                          "content" := StringProperty(Some("Content to write (required for write op)"))],
                      ["operation", "filename"]))
  }

  function ShellSpec(): Tool {
    Tool(ShellTool, Shell.Name, ShellDescription(),
         ObjectSchema(map["command" := StringProperty(None)], ["command"]))
  }

  function PdfSpec(): Tool {
    Tool(PdfReaderTool, PdfReader.Name, PdfDescription,
         ObjectSchema(map["filename" := StringProperty(Some("Name of the PDF file to read (e.g., 'paper.pdf')")),
                          "page_start" := JObj(map["type" := JStr("integer"), "description" := JStr("Optional start page (0-indexed)")]),
                          "page_end" := JObj(map["type" := JStr("integer"), "description" := JStr("Optional end page")])],
                      ["filename"]))
  }

  /** The registered tools, in `ALL_TOOLS` order. */
  const Kinds: seq<ToolKind> := [PythonExecTool, FileTool, ShellTool, PdfReaderTool]

  /** The name each tool registers under. */
  function KindName(k: ToolKind): string {
    match k
    case PythonExecTool => PythonExec.Name
    case FileTool => FileSystem.Name
    case ShellTool => Shell.Name
    case PdfReaderTool => PdfReader.Name
  }

  function Spec(k: ToolKind): (t: Tool)
    ensures t.kind == k && t.name == KindName(k)
  {
    match k
    case PythonExecTool => PythonExecSpec()
    case FileTool => FileSpec()
    case ShellTool => ShellSpec()
    case PdfReaderTool => PdfSpec()
  }

  /** `ALL_TOOLS`: one instance of each tool, under distinct names. */
  function AllTools(): (ts: seq<Tool>)
    ensures |ts| == |Kinds|
    ensures forall i :: 0 <= i < |ts| ==> ts[i].kind == Kinds[i] && ts[i].name == KindName(Kinds[i])
  {
    [Spec(PythonExecTool), Spec(FileTool), Spec(ShellTool), Spec(PdfReaderTool)]
  }

  lemma NamesDistinct()
    ensures forall i, j :: 0 <= i < j < |Kinds| ==> KindName(Kinds[i]) != KindName(Kinds[j])
  {
    assert KindName(Kinds[0])[0] == 'p' && KindName(Kinds[0])[1] == 'y';
    assert KindName(Kinds[1])[0] == 'f';
    assert KindName(Kinds[2])[0] == 's';
    assert KindName(Kinds[3])[0] == 'p' && KindName(Kinds[3])[1] == 'd';
  }

  /** The position of the first tool from `from` on whose name equals the
      given value. */
  function FindTool(name: Json, from: nat): (r: Option<nat>)
    requires from <= |Kinds|
    ensures r.Some? ==> from <= r.value < |Kinds| && JStr(KindName(Kinds[r.value])) == name
                        && forall k :: from <= k < r.value ==> JStr(KindName(Kinds[k])) != name
    ensures r.None? <==> forall k :: from <= k < |Kinds| ==> JStr(KindName(Kinds[k])) != name
    decreases |Kinds| - from
  {
    if from == |Kinds| then None
    else if JStr(KindName(Kinds[from])) == name then Some(from)
    else FindTool(name, from + 1)
  }

  /** `get_tool_by_name`: the registered tool whose name equals the value the
      model gave, compared as Python compares (a non-string never matches). */
  function GetToolByName(name: Json): (r: Option<ToolKind>)
    ensures r.None? <==> forall k :: k in Kinds ==> JStr(KindName(k)) != name
    ensures r.Some? ==> r.value in Kinds && JStr(KindName(r.value)) == name
  {
    match FindTool(name, 0)
    case None => None
    case Some(i) => Some(Kinds[i])
  }

  /** One entry of `get_tools_formatted`. */
  function Formatted(t: Tool): Json {
    JObj(map["type" := JStr("function"),
             "function" := JObj(map["name" := JStr(t.name), "description" := JStr(t.description),
                                    "parameters" := t.parameters])])
  }

  function FormattedAll(ts: seq<Tool>): (fs: seq<Json>)
    ensures |fs| == |ts|
    ensures forall i :: 0 <= i < |ts| ==> fs[i] == Formatted(ts[i])
    decreases |ts|
  {
    if ts == [] then [] else [Formatted(ts[0])] + FormattedAll(ts[1..])
  }

  /** `get_tools_formatted`: one function entry per tool, in registry order. */
  function GetToolsFormatted(): (fs: seq<Json>)
    ensures |fs| == |AllTools()|
    ensures forall i :: 0 <= i < |fs| ==> fs[i] == Formatted(AllTools()[i])
  {
    FormattedAll(AllTools())
  }

  /** The name a formatted entry advertises. */
  function AdvertisedName(entry: Json): Json {
    if entry.JObj? && "function" in entry.fields && entry.fields["function"].JObj?
       && "name" in entry.fields["function"].fields
    then entry.fields["function"].fields["name"]
    else JNull
  }

  lemma FormattedName(t: Tool)
    ensures AdvertisedName(Formatted(t)) == JStr(t.name)
  {
  }

  /** Each tool's own name finds that tool. */
  lemma KindResolves(k: ToolKind)
    ensures GetToolByName(JStr(KindName(k))) == Some(k)
  {
    NamesDistinct();
    var i := match k
      case PythonExecTool => 0
      case FileTool => 1
      case ShellTool => 2
      case PdfReaderTool => 3;
    assert Kinds[i] == k;
    var r := FindTool(JStr(KindName(k)), 0);
    assert r.Some?;
    assert r.value == i;
  }

  /** Every advertised name looks up the tool it advertises. */
  lemma AdvertisedNamesResolve(i: nat)
    requires i < |GetToolsFormatted()|
    ensures GetToolByName(AdvertisedName(GetToolsFormatted()[i])) == Some(AllTools()[i].kind)
  {
    var t := AllTools()[i];
    FormattedName(t);
    KindResolves(t.kind);
  }

  /** The self-correction step looks for a tool called `write_file`; no such
      tool is registered, so a call to it always reports a missing tool. */
  lemma WriteFileNotRegistered()
    ensures GetToolByName(JStr("write_file")) == None
  {
    assert "write_file"[0] == 'w';
    forall k | k in Kinds
      ensures JStr(KindName(k)) != JStr("write_file")
    {
      assert KindName(k)[0] != 'w';
    }
  }

  /** What the tools need from the outside world. */
  datatype ToolEnv = ToolEnv(
    exec: (string, FileSystem.Fs) -> PythonExec.ExecRun,
    spawn: (string, FileSystem.Fs) -> Shell.ProcRun,
    open: PdfReader.PdfOpener,
    pypdfAvailable: bool,
    workspace: string)

  /** `await tool.run(tool_input)`: the tool's outcome and the file system
      after it. The file tool, the executed code and the shell command can
      change files, the PDF reader cannot; only the execution tool lets an
      exception escape, and every tool reads its input with `.get`
      (the PDF reader only once its library is found). */
  method RunTool(k: ToolKind, input: Json, env: ToolEnv, fs: FileSystem.Fs) returns (e: FileSystem.Effect)
    requires IsAbsolute(env.workspace)
    ensures k == PdfReaderTool ==> e.fs == fs
    ensures k == PythonExecTool && !PythonExec.Runs(input) ==> e.fs == fs
    ensures k == ShellTool && e.fs != fs ==>
              input.JObj? && Get(input.fields, "command", JStr("")).JStr? && '\0' !in Get(input.fields, "command", JStr("")).s
    ensures FileSystem.Valid(fs) ==> FileSystem.Valid(e.fs)
    ensures e.result.Escaped? ==> k == PythonExecTool && input.JObj?
    ensures !input.JObj? && (k != PdfReaderTool || env.pypdfAvailable) ==> e.result == Raised(NoGetMessage(input))
  {
    match k
    case PythonExecTool =>
      e := PythonExec.Run(input, fs, env.exec);
    case ShellTool =>
      e := Shell.Run(input, fs, env.spawn);
    case FileTool =>
      e := FileSystem.Run(input, env.workspace, fs);
    case PdfReaderTool =>
      e := FileSystem.Effect(PdfReader.Run(input, env.pypdfAvailable, env.workspace, fs, env.open), fs);
  }
}

=== FILE: safety.dfy ===
/** The safety layer: a pre-inference input filter built from five fixed,
    case-insensitive patterns, and a post-inference output pass. The patterns
    are encoded directly: two whole-word keywords (`\bbadword\b`,
    `\bfailmode\b`), two literal phrases, and `you are now.*unrestricted`,
    whose `.` does not cross a newline. Case folding is ASCII. */
module Safety {
  import opened Wrappers
  import opened Strings

  // ---------------------------------------------------------------------------
  // The pattern language
  // ---------------------------------------------------------------------------

  /** The lower-case pattern `pat` matches `text` at `i`, ignoring case. */
  predicate MatchAtCI(text: string, pat: string, i: int) {
    0 <= i && i + |pat| <= |text| && Lower(text[i..i + |pat|]) == pat
  }

  /** `\b` before a keyword that starts with a word character. */
  predicate BoundaryBefore(text: string, i: nat)
    requires i <= |text|
  {
    i == 0 || !IsWordChar(text[i - 1])
  }

  /** `\b` after a keyword that ends with a word character. */
  predicate BoundaryAfter(text: string, j: nat)
    requires j <= |text|
  {
    j == |text| || !IsWordChar(text[j])
  }

  /** `\b<w>\b` matches at `i`. */
  predicate KeywordAt(text: string, w: string, i: int) {
    MatchAtCI(text, w, i) && BoundaryBefore(text, i) && BoundaryAfter(text, i + |w|)
  }

  /** No newline in `text[a..b]`: the span `.*` may cover. */
  predicate OnOneLine(text: string, a: int, b: int)
    requires 0 <= a <= b <= |text|
  {
    forall k :: a <= k < b ==> text[k] != '\n'
  }

  const BadWord := "badword"
  const FailMode := "failmode"
  const IgnorePrevious := "ignore previous instructions"
  const SystemOverride := "system override"
  const YouAreNow := "you are now"
  const Unrestricted := "unrestricted"

  /** Some blocked keyword occurs as a whole word. */
  ghost predicate Blocked(text: string) {
    exists i :: KeywordAt(text, BadWord, i) || KeywordAt(text, FailMode, i)
  }

  /** `you are now.*unrestricted` matches: the second phrase follows the first on the same line. */
  ghost predicate YouAreNowUnrestricted(text: string) {
    exists i, j :: MatchAtCI(text, YouAreNow, i) && MatchAtCI(text, Unrestricted, j)
      && i + |YouAreNow| <= j && OnOneLine(text, i + |YouAreNow|, j)
  }

  /** Some prompt-injection heuristic matches. */
  ghost predicate Injection(text: string) {
    || (exists i :: MatchAtCI(text, IgnorePrevious, i))
    || (exists i :: MatchAtCI(text, SystemOverride, i))
    || YouAreNowUnrestricted(text)
  }

  // ---------------------------------------------------------------------------
  // Searches
  // ---------------------------------------------------------------------------

  /** `pattern.search` for a whole-word keyword, from `from` on. */
  function KeywordFrom(text: string, w: string, from: nat): (r: bool)
    requires from <= |text|
    ensures r <==> exists i :: from <= i && KeywordAt(text, w, i)
    decreases |text| - from
  {
    if KeywordAt(text, w, from) then true
    else if from == |text| then false
    else KeywordFrom(text, w, from + 1)
  }

  /** `pattern.search` for a literal phrase, from `from` on. */
  function PhraseFrom(text: string, p: string, from: nat): (r: bool)
    requires from <= |text|
    ensures r <==> exists i :: from <= i && MatchAtCI(text, p, i)
    decreases |text| - from
  {
    if MatchAtCI(text, p, from) then true
    else if from == |text| then false
    else PhraseFrom(text, p, from + 1)
  }

  /** `.*unrestricted` matches starting at `j`: the phrase occurs before the next newline. */
  function UnrestrictedFrom(text: string, j: nat): (r: bool)
    requires j <= |text|
    ensures r <==> exists k :: j <= k && MatchAtCI(text, Unrestricted, k) && OnOneLine(text, j, k)
    decreases |text| - j
  {
    if MatchAtCI(text, Unrestricted, j) then true
    else if j == |text| || text[j] == '\n' then false
    else
      var r := UnrestrictedFrom(text, j + 1);
      assert r ==> exists k :: j <= k && MatchAtCI(text, Unrestricted, k) && OnOneLine(text, j, k) by {
        if r {
          var k :| j + 1 <= k && MatchAtCI(text, Unrestricted, k) && OnOneLine(text, j + 1, k);
          assert OnOneLine(text, j, k);
        }
      }
      assert (exists k :: j <= k && MatchAtCI(text, Unrestricted, k) && OnOneLine(text, j, k)) ==> r by {
        if exists k :: j <= k && MatchAtCI(text, Unrestricted, k) && OnOneLine(text, j, k) {
          var k :| j <= k && MatchAtCI(text, Unrestricted, k) && OnOneLine(text, j, k);
          assert k != j;
          assert OnOneLine(text, j + 1, k);
        }
      }
      r
  }

  /** `you are now.*unrestricted` matches with the first phrase at or after `from`. */
  function YouAreNowFrom(text: string, from: nat): (r: bool)
    requires from <= |text|
    ensures r <==> exists i, j :: from <= i && MatchAtCI(text, YouAreNow, i) && MatchAtCI(text, Unrestricted, j)
                      && i + |YouAreNow| <= j && OnOneLine(text, i + |YouAreNow|, j)
    decreases |text| - from
  {
    if MatchAtCI(text, YouAreNow, from) && UnrestrictedFrom(text, from + |YouAreNow|) then true
    else if from == |text| then false
    else YouAreNowFrom(text, from + 1)
  }

  // ---------------------------------------------------------------------------
  // The two checks
  // ---------------------------------------------------------------------------

  datatype Violation = BlockedContent | PromptInjection

  /** The text of the ValueError raised for a violation. */
  function ViolationMessage(v: Violation): string {
    match v
    case BlockedContent => "Safety violation: Blocked content detected in input."
    case PromptInjection => "Safety violation: Potential Prompt Injection detected."
  }

  /** `check_input`: `None` when it returns normally, otherwise the violation it
      raises. Blocked keywords are tested before injection phrases. */
  function CheckInput(text: string): (r: Option<Violation>)
    ensures r.None? <==> !Blocked(text) && !Injection(text)
    ensures r == Some(BlockedContent) <==> Blocked(text)
    ensures r == Some(PromptInjection) <==> !Blocked(text) && Injection(text)
  {
    if KeywordFrom(text, BadWord, 0) || KeywordFrom(text, FailMode, 0) then Some(BlockedContent)
    else if PhraseFrom(text, IgnorePrevious, 0) || PhraseFrom(text, SystemOverride, 0)
         || YouAreNowFrom(text, 0) then Some(PromptInjection)
    else None
  }

  /** `check_output` in the case the model covers: text without `@` cannot
      contain an e-mail address, so it comes back unchanged. Text with `@` is
      handed to the redaction oracle. */
  function CheckOutput(text: string, redact: string -> string): (r: string)
    ensures '@' !in text ==> r == text
  {
    if '@' in text then redact(text) else text
  }

  // ---------------------------------------------------------------------------
  // Properties
  // ---------------------------------------------------------------------------

  /** Output without `@` is a fixed point of the output pass. */
  lemma CheckOutputIdempotentWithoutAt(text: string, redact: string -> string)
    requires '@' !in text
    ensures CheckOutput(CheckOutput(text, redact), redact) == CheckOutput(text, redact)
  {
  }

  /** A keyword spelled in any ASCII case, delimited by non-word characters, is blocked. */
  lemma KeywordInProse(pre: string, x: string, post: string, w: string)
    requires w == BadWord || w == FailMode
    requires Lower(x) == w
    requires |pre| == 0 || !IsWordChar(pre[|pre| - 1])
    requires |post| == 0 || !IsWordChar(post[0])
    ensures CheckInput(pre + x + post) == Some(BlockedContent)
  {
    var t := pre + x + post;
    assert t[|pre|..|pre| + |x|] == x;
    assert |pre| > 0 ==> t[|pre| - 1] == pre[|pre| - 1];
    assert |post| > 0 ==> t[|pre| + |x|] == post[0];
    assert KeywordAt(t, w, |pre|);
  }

  /** "BadWord!" is blocked. */
  lemma MixedCaseKeywordBlocked()
    ensures CheckInput("BadWord!") == Some(BlockedContent)
  {
    var x := "BadWord";
    assert LowerChar('B') == 'b' && LowerChar('W') == 'w';
    assert forall k :: 0 <= k < 7 ==> Lower(x)[k] == BadWord[k];
    assert Lower(x) == BadWord;
    KeywordInProse("", "BadWord", "!", BadWord);
    assert "" + "BadWord" + "!" == "BadWord!";
  }

  /** "badwords" is not: the keyword must end at a word boundary. */
  lemma LongerWordNotBlocked()
    ensures !Blocked("badwords")
  {
    var t := "badwords";
    forall i
      ensures !KeywordAt(t, BadWord, i) && !KeywordAt(t, FailMode, i)
    {
      if i == 0 {
        assert IsWordChar(t[7]);
        assert Lower(t[0..8])[0] == 'b';
      } else if i == 1 {
        assert Lower(t[1..8])[0] == 'a';
      }
    }
  }

  /** Changing only the case of ASCII letters does not change the verdict. */
  lemma CaseBlind(t: string, u: string)
    requires Lower(t) == Lower(u)
    ensures CheckInput(t) == CheckInput(u)
  {
    assert |t| == |u|;
    forall a: nat, b: nat | a <= b <= |t|
      ensures Lower(t[a..b]) == Lower(u[a..b])
    {
      assert forall k :: a <= k < b ==> LowerChar(t[k]) == Lower(t)[k];
    }
    forall k | 0 <= k < |t|
      ensures IsWordChar(t[k]) == IsWordChar(u[k]) && (t[k] == '\n') == (u[k] == '\n')
    {
      assert LowerChar(t[k]) == LowerChar(u[k]);
    }
    assert forall p, i :: MatchAtCI(t, p, i) <==> MatchAtCI(u, p, i);
    assert forall w, i :: KeywordAt(t, w, i) <==> KeywordAt(u, w, i);
    assert forall a, b :: 0 <= a <= b <= |t| ==> (OnOneLine(t, a, b) <==> OnOneLine(u, a, b));
    assert Blocked(t) <==> Blocked(u);
    assert YouAreNowUnrestricted(t) <==> YouAreNowUnrestricted(u);
  }

  /** Upper-casing the input does not change the verdict. */
  lemma UpperCaseSameVerdict(t: string)
    ensures CheckInput(Upper(t)) == CheckInput(t)
  {
    LowerOfUpper(t);
    CaseBlind(Upper(t), t);
  }

  lemma LowerOfUpper(t: string)
    ensures Lower(Upper(t)) == Lower(t)
  {
    forall k | 0 <= k < |t|
      ensures Lower(Upper(t))[k] == Lower(t)[k]
    {
      assert Upper(t)[k] == UpperChar(t[k]);
    }
  }

  lemma MatchInPrefix(a: string, rest: string, p: string, i: int)
    requires 0 <= i && i + |p| <= |a|
    ensures MatchAtCI(a + rest, p, i) <==> MatchAtCI(a, p, i)
  {
    assert (a + rest)[i..i + |p|] == a[i..i + |p|];
  }

  lemma MatchInSuffix(a: string, b: string, p: string, i: int)
    requires |a| <= i && i + |p| <= |a| + |b|
    ensures MatchAtCI(a + b, p, i) <==> MatchAtCI(b, p, i - |a|)
  {
    assert (a + b)[i..i + |p|] == b[i - |a|..i - |a| + |p|];
  }

  /** A phrase without a newline that matches at `i` lies on one side of a newline at `n`. */
  lemma MatchAvoidsNewline(text: string, p: string, i: int, n: nat)
    requires '\n' !in p && n < |text| && text[n] == '\n'
    ensures MatchAtCI(text, p, i) ==> i + |p| <= n || n < i
  {
    if 0 <= i <= n < i + |p| && i + |p| <= |text| {
      var l := Lower(text[i..i + |p|]);
      assert l[n - i] == '\n';
      assert p[n - i] != '\n';
      assert l != p;
    }
  }

  /** The two phrases of `you are now.*unrestricted` on different lines do not
      trigger it: `.` does not match a newline. */
  lemma NewlineSeparatesPhrases(a: string, b: string)
    requires forall i :: !MatchAtCI(a, Unrestricted, i)
    requires forall i :: !MatchAtCI(b, YouAreNow, i)
    ensures !YouAreNowUnrestricted(a + "\n" + b)
  {
    var t := a + "\n" + b;
    var n := |a|;
    assert t[n] == '\n';
    forall i, j | MatchAtCI(t, YouAreNow, i) && MatchAtCI(t, Unrestricted, j) && i + |YouAreNow| <= j
      ensures !OnOneLine(t, i + |YouAreNow|, j)
    {
      MatchAvoidsNewline(t, YouAreNow, i, n);
      if n < i {
        assert t == (a + "\n") + b;
        MatchInSuffix(a + "\n", b, YouAreNow, i);
      }
      MatchAvoidsNewline(t, Unrestricted, j, n);
      if j + |Unrestricted| <= n {
        MatchInPrefix(a, "\n" + b, Unrestricted, j);
      }
    }
  }

  /** On one line, the two phrases do trigger it. */
  lemma SameLinePhrasesTrigger(x: string, gap: string, y: string)
    requires Lower(x) == YouAreNow && Lower(y) == Unrestricted
    requires '\n' !in gap
    ensures Injection(x + gap + y)
  {
    var t := x + gap + y;
    var j := |x| + |gap|;
    assert t[..|x|] == x;
    assert t[j..j + |y|] == y;
    assert MatchAtCI(t, YouAreNow, 0);
    assert MatchAtCI(t, Unrestricted, j);
    forall k | |x| <= k < j
      ensures t[k] != '\n'
    {
      assert t[k] == gap[k - |x|];
    }
    assert OnOneLine(t, |x|, j);
  }

  /** Text matching both a keyword and an injection phrase reports the keyword. */
  lemma BlockedTakesPrecedence(text: string)
    requires Blocked(text) && Injection(text)
    ensures CheckInput(text) == Some(BlockedContent)
  {
  }
}

=== FILE: schema.dfy ===
/** The ten role-output records (five for the autonomous coding roles, five
    for the research roles). Each is a closed record: a literal `role`, typed
    required fields, and for most a literal-enumerated `next_step`. Validation
    of a decoded JSON object follows the record's field declarations:
    required fields must be present with the right JSON type, defaulted fields
    may be absent, literal fields must hold one of their listed values, and
    unknown keys are ignored. */
module Schema {
  import opened Wrappers
  import opened JsonValue
  import opened Types

  datatype SchemaKind =
    | PlannerKind | ArchitectKind | EngineerKind | EvaluatorKind | CriticKind
    | ProblemKind | HypothesisKind | DesignKind | ExecutionKind | AnalysisKind

  datatype RoleOutput =
    | PlannerOutput(role: string, analysis: string, milestones: seq<string>, nextStep: string)
    | ArchitectOutput(role: string, designRationale: string, fileStructure: map<string, string>, nextStep: string)
    | EngineerOutput(role: string, thought: string, action: string, input: map<string, Json>)
    | EvaluatorOutput(role: string, testPlan: string, evalAction: Option<string>,
                      evalInput: Option<map<string, Json>>, status: string, issues: seq<string>, nextStep: string)
    | CriticOutput(role: string, critique: string, approved: bool, feedback: string)
    | ProblemAnalysis(role: string, coreChallenge: string, literatureKeywords: seq<string>, nextStep: string)
    | HypothesisGen(role: string, hypothesisStatement: string, expectedOutcome: string,
                    noveltyArgument: string, nextStep: string)
    | ExperimentDesign(role: string, metrics: seq<string>, baseline: string, implementationPlan: string, nextStep: string)
    | ExecutionRequest(role: string, thought: string, action: string, input: map<string, Json>)
    | AnalysisResult(role: string, observation: string, supported: bool, conclusion: string, nextStep: string)

  function KindOf(o: RoleOutput): SchemaKind {
    match o
    case PlannerOutput(_, _, _, _) => PlannerKind
    case ArchitectOutput(_, _, _, _) => ArchitectKind
    case EngineerOutput(_, _, _, _) => EngineerKind
    case EvaluatorOutput(_, _, _, _, _, _, _) => EvaluatorKind
    case CriticOutput(_, _, _, _) => CriticKind
    case ProblemAnalysis(_, _, _, _) => ProblemKind
    case HypothesisGen(_, _, _, _, _) => HypothesisKind
    case ExperimentDesign(_, _, _, _, _) => DesignKind
    case ExecutionRequest(_, _, _, _) => ExecutionKind
    case AnalysisResult(_, _, _, _, _) => AnalysisKind
  }

  /** The fixed value of each record's `role` field. */
  function RoleLiteral(k: SchemaKind): string {
    match k
    case PlannerKind => "planner"
    case ArchitectKind => "architect"
    case EngineerKind => "engineer"
    case EvaluatorKind => "evaluator"
    case CriticKind => "critic"
    case ProblemKind => "researcher_analysis"
    case HypothesisKind => "researcher_hypothesis"
    case DesignKind => "researcher_design"
    case ExecutionKind => "researcher_execution"
    case AnalysisKind => "researcher_result"
  }

  /** Records that declare a `next_step` field. */
  predicate HasNextStep(k: SchemaKind) {
    k in {PlannerKind, ArchitectKind, EvaluatorKind, ProblemKind, HypothesisKind, DesignKind, AnalysisKind}
  }

  /** The values a record's `next_step` may take. */
  function NextSteps(k: SchemaKind): set<string> {
    match k
    case PlannerKind => {"handoff_to_architect"}
    case ArchitectKind => {"handoff_to_engineer"}
    case EvaluatorKind => {"hand_to_critic", "retry_engineer", "continue_testing"}
    case ProblemKind => {"hypothesis"}
    case HypothesisKind => {"design"}
    case DesignKind => {"execution"}
    case AnalysisKind => {"done", "refine_hypothesis"}
    case _ => {}
  }

  /** The default of `next_step`, for the records whose `next_step` has one. */
  function DefaultNextStep(k: SchemaKind): Option<string> {
    match k
    case PlannerKind => Some("handoff_to_architect")
    case ArchitectKind => Some("handoff_to_engineer")
    case ProblemKind => Some("hypothesis")
    case HypothesisKind => Some("design")
    case DesignKind => Some("execution")
    case _ => None
  }

  const EvaluatorStatuses: set<string> := {"pass", "fail", "running"}

  /** Fields that have no default and must be present. */
  function RequiredFields(k: SchemaKind): set<string> {
    match k
    case PlannerKind => {"analysis", "milestones"}
    case ArchitectKind => {"design_rationale", "file_structure"}
    case EngineerKind => {"thought", "action", "input"}
    case EvaluatorKind => {"test_plan", "status", "next_step"}
    case CriticKind => {"critique", "approved", "feedback"}
    case ProblemKind => {"core_challenge", "literature_keywords"}
    case HypothesisKind => {"hypothesis_statement", "expected_outcome", "novelty_argument"}
    case DesignKind => {"metrics", "baseline", "implementation_plan"}
    case ExecutionKind => {"thought", "action", "input"}
    case AnalysisKind => {"observation", "supported", "conclusion", "next_step"}
  }

  /** The invariants every validated record satisfies. */
  predicate WellFormed(o: RoleOutput) {
    && o.role == RoleLiteral(KindOf(o))
    && (HasNextStep(KindOf(o)) ==> o.nextStep in NextSteps(KindOf(o)))
    && (o.EvaluatorOutput? ==> o.status in EvaluatorStatuses && (o.evalAction.None? || o.evalAction == Some("python_exec")))
  }

  /** A `Literal[...]` field: present values must be listed strings; an absent
      field takes its default, or fails when it has none. */
  function LiteralField(obj: map<string, Json>, key: string, allowed: set<string>, default: Option<string>): (r: Result<string, string>)
    ensures r.Success? ==> r.value in allowed || (key !in obj && default == Some(r.value))
    ensures key in obj ==> (r.Success? <==> obj[key].JStr? && obj[key].s in allowed)
    ensures key in obj && r.Success? ==> obj[key] == JStr(r.value)
    ensures key !in obj ==> (r.Success? <==> default.Some?)
  {
    if key in obj then
      if obj[key].JStr? && obj[key].s in allowed then Success(obj[key].s)
      else Failure("Input should be one of the literal values of " + key)
    else if default.Some? then Success(default.value)
    else Failure("Field required: " + key)
  }

  function RoleField(obj: map<string, Json>, k: SchemaKind): Result<string, string> {
    LiteralField(obj, "role", {RoleLiteral(k)}, Some(RoleLiteral(k)))
  }

  function NextStepField(obj: map<string, Json>, k: SchemaKind): Result<string, string> {
    LiteralField(obj, "next_step", NextSteps(k), DefaultNextStep(k))
  }

  const NotPythonExec := "Input should be 'python_exec'"

  function AsOptPythonExec(j: Json): Result<Option<string>, string> {
    match j
    case JNull => Success(None)
    case JStr(s) => if s == "python_exec" then Success(Some(s)) else Failure(NotPythonExec)
    case _ => Failure(NotPythonExec)
  }

  function AsOptObj(j: Json): Result<Option<map<string, Json>>, string> {
    match j
    case JNull => Success(None)
    case JObj(f) => Success(Some(f))
    case _ => Failure(NotADictionary)
  }

  /** The autonomous coding roles. */
  predicate CodingKind(k: SchemaKind) {
    k in {PlannerKind, ArchitectKind, EngineerKind, EvaluatorKind, CriticKind}
  }

  /** The fields after `role` of a coding-role record, in declaration order. */
  function CodingFields(k: SchemaKind, obj: map<string, Json>, role: string): (r: Result<RoleOutput, string>)
    requires CodingKind(k)
    ensures r.Success? ==> KindOf(r.value) == k && r.value.role == role
    ensures r.Success? && HasNextStep(k) ==> r.value.nextStep in NextSteps(k)
    ensures r.Success? && r.value.EvaluatorOutput? ==>
              r.value.status in EvaluatorStatuses && (r.value.evalAction.None? || r.value.evalAction == Some("python_exec"))
    ensures !(RequiredFields(k) <= obj.Keys) ==> r.Failure?
    ensures r.Success? && HasNextStep(k) && "next_step" !in obj ==> Some(r.value.nextStep) == DefaultNextStep(k)
    ensures r.Success? && HasNextStep(k) && "next_step" in obj ==> obj["next_step"] == JStr(r.value.nextStep)
    ensures (HasNextStep(k) && "next_step" in obj && obj["next_step"].JStr? && obj["next_step"].s !in NextSteps(k))
              ==> r.Failure?
  {
    match k
    case PlannerKind =>
      var analysis :- Required(obj, "analysis", AsStr);
      var milestones :- Required(obj, "milestones", AsStrList);
      var next :- NextStepField(obj, k);
      Success(PlannerOutput(role, analysis, milestones, next))
    case ArchitectKind =>
      var rationale :- Required(obj, "design_rationale", AsStr);
      var files :- Required(obj, "file_structure", AsStrMap);
      var next :- NextStepField(obj, k);
      Success(ArchitectOutput(role, rationale, files, next))
    case EngineerKind =>
      var thought :- Required(obj, "thought", AsStr);
      var action :- Required(obj, "action", AsStr);
      var input :- Required(obj, "input", AsObj);
      Success(EngineerOutput(role, thought, action, input))
    case EvaluatorKind =>
      var plan :- Required(obj, "test_plan", AsStr);
      var action :- FieldOr(obj, "action", AsOptPythonExec, None);
      var input :- FieldOr(obj, "input", AsOptObj, None);
      var status :- LiteralField(obj, "status", EvaluatorStatuses, None);
      var issues :- FieldOr(obj, "issues", AsStrList, []);
      var next :- NextStepField(obj, k);
      Success(EvaluatorOutput(role, plan, action, input, status, issues, next))
    case CriticKind =>
      var critique :- Required(obj, "critique", AsStr);
      var approved :- Required(obj, "approved", AsBool);
      var feedback :- Required(obj, "feedback", AsStr);
      Success(CriticOutput(role, critique, approved, feedback))
  }

  /** The fields after `role` of a research-role record, in declaration order. */
  function ResearchFields(k: SchemaKind, obj: map<string, Json>, role: string): (r: Result<RoleOutput, string>)
    requires !CodingKind(k)
    ensures r.Success? ==> KindOf(r.value) == k && r.value.role == role
    ensures r.Success? && HasNextStep(k) ==> r.value.nextStep in NextSteps(k)
    ensures !(RequiredFields(k) <= obj.Keys) ==> r.Failure?
    ensures r.Success? && HasNextStep(k) && "next_step" !in obj ==> Some(r.value.nextStep) == DefaultNextStep(k)
    ensures r.Success? && HasNextStep(k) && "next_step" in obj ==> obj["next_step"] == JStr(r.value.nextStep)
    ensures (HasNextStep(k) && "next_step" in obj && obj["next_step"].JStr? && obj["next_step"].s !in NextSteps(k))
              ==> r.Failure?
  {
    match k
    case ProblemKind =>
      var challenge :- Required(obj, "core_challenge", AsStr);
      var keywords :- Required(obj, "literature_keywords", AsStrList);
      var next :- NextStepField(obj, k);
      Success(ProblemAnalysis(role, challenge, keywords, next))
    case HypothesisKind =>
      var statement :- Required(obj, "hypothesis_statement", AsStr);
      var expected :- Required(obj, "expected_outcome", AsStr);
      var novelty :- Required(obj, "novelty_argument", AsStr);
      var next :- NextStepField(obj, k);
      Success(HypothesisGen(role, statement, expected, novelty, next))
    case DesignKind =>
      var metrics :- Required(obj, "metrics", AsStrList);
      var baseline :- Required(obj, "baseline", AsStr);
      var plan :- Required(obj, "implementation_plan", AsStr);
      var next :- NextStepField(obj, k);
      Success(ExperimentDesign(role, metrics, baseline, plan, next))
    case ExecutionKind =>
      var thought :- Required(obj, "thought", AsStr);
      var action :- Required(obj, "action", AsStr);
      var input :- Required(obj, "input", AsObj);
      Success(ExecutionRequest(role, thought, action, input))
    case AnalysisKind =>
      var observation :- Required(obj, "observation", AsStr);
      var supported :- Required(obj, "supported", AsBool);
      var conclusion :- Required(obj, "conclusion", AsStr);
      var next :- NextStepField(obj, k);
      Success(AnalysisResult(role, observation, supported, conclusion, next))
  }

  /** Validates a decoded object against the record of kind `k`: the `role`
      literal first, then the record's own fields. */
  function Validate(k: SchemaKind, obj: map<string, Json>): (r: Result<RoleOutput, string>)
    ensures r.Success? ==> KindOf(r.value) == k && WellFormed(r.value)
    ensures "role" in obj && obj["role"] != JStr(RoleLiteral(k)) ==> r.Failure?
    ensures !(RequiredFields(k) <= obj.Keys) ==> r.Failure?
    ensures r.Success? && HasNextStep(k) && "next_step" !in obj ==> Some(r.value.nextStep) == DefaultNextStep(k)
    ensures r.Success? && HasNextStep(k) && "next_step" in obj ==> obj["next_step"] == JStr(r.value.nextStep)
    ensures (HasNextStep(k) && "next_step" in obj && obj["next_step"].JStr? && obj["next_step"].s !in NextSteps(k))
              ==> r.Failure?
  {
    var role :- RoleField(obj, k);
    if CodingKind(k) then CodingFields(k, obj, role) else ResearchFields(k, obj, role)
  }

  function StrList(xs: seq<string>): Json {
    JArr(JStrs(xs))
  }

  function StrMap(m: map<string, string>): Json {
    JObj(map k | k in m :: JStr(m[k]))
  }

  /** The JSON object `model_dump()` gives for a record. */
  function Encode(o: RoleOutput): map<string, Json> {
    match o
    case PlannerOutput(role, analysis, milestones, next) =>
      map["role" := JStr(role), "analysis" := JStr(analysis), "milestones" := StrList(milestones), "next_step" := JStr(next)]
    case ArchitectOutput(role, rationale, files, next) =>
      map["role" := JStr(role), "design_rationale" := JStr(rationale), "file_structure" := StrMap(files), "next_step" := JStr(next)]
    case EngineerOutput(role, thought, action, input) =>
      map["role" := JStr(role), "thought" := JStr(thought), "action" := JStr(action), "input" := JObj(input)]
    case EvaluatorOutput(role, plan, action, input, status, issues, next) =>
      map["role" := JStr(role), "test_plan" := JStr(plan),
          "action" := (if action.Some? then JStr(action.value) else JNull),
          "input" := (if input.Some? then JObj(input.value) else JNull),
          "status" := JStr(status), "issues" := StrList(issues), "next_step" := JStr(next)]
    case CriticOutput(role, critique, approved, feedback) =>
      map["role" := JStr(role), "critique" := JStr(critique), "approved" := JBool(approved), "feedback" := JStr(feedback)]
    case ProblemAnalysis(role, challenge, keywords, next) =>
      map["role" := JStr(role), "core_challenge" := JStr(challenge), "literature_keywords" := StrList(keywords),
          "next_step" := JStr(next)]
    case HypothesisGen(role, statement, expected, novelty, next) =>
      map["role" := JStr(role), "hypothesis_statement" := JStr(statement), "expected_outcome" := JStr(expected),
          "novelty_argument" := JStr(novelty), "next_step" := JStr(next)]
    case ExperimentDesign(role, metrics, baseline, plan, next) =>
      map["role" := JStr(role), "metrics" := StrList(metrics), "baseline" := JStr(baseline),
          "implementation_plan" := JStr(plan), "next_step" := JStr(next)]
    case ExecutionRequest(role, thought, action, input) =>
      map["role" := JStr(role), "thought" := JStr(thought), "action" := JStr(action), "input" := JObj(input)]
    case AnalysisResult(role, observation, supported, conclusion, next) =>
      map["role" := JStr(role), "observation" := JStr(observation), "supported" := JBool(supported),
          "conclusion" := JStr(conclusion), "next_step" := JStr(next)]
  }

  lemma StrListRoundTrip(xs: seq<string>)
    ensures AsStrList(StrList(xs)) == Success(xs)
  {
    var j := StrList(xs);
    assert StrsOf(j.items) == xs;
  }

  lemma StrMapRoundTrip(m: map<string, string>)
    ensures AsStrMap(StrMap(m)) == Success(m)
  {
    var j := StrMap(m);
    assert (map k | k in j.fields :: j.fields[k].s) == m;
  }

  /** Every well-formed record survives dump and validation unchanged. */
  lemma EncodeValidateRoundTrip(o: RoleOutput)
    requires WellFormed(o)
    ensures Validate(KindOf(o), Encode(o)) == Success(o)
  {
    match o
    case PlannerOutput(_, _, _, _) => RoundTripPlannerKind(o);
    case ArchitectOutput(_, _, _, _) => RoundTripArchitectKind(o);
    case EngineerOutput(_, _, _, _) => RoundTripEngineerKind(o);
    case EvaluatorOutput(_, _, _, _, _, _, _) => RoundTripEvaluatorKind(o);
    case CriticOutput(_, _, _, _) => RoundTripCriticKind(o);
    case ProblemAnalysis(_, _, _, _) => RoundTripProblemKind(o);
    case HypothesisGen(_, _, _, _, _) => RoundTripHypothesisKind(o);
    case ExperimentDesign(_, _, _, _, _) => RoundTripDesignKind(o);
    case ExecutionRequest(_, _, _, _) => RoundTripExecutionKind(o);
    case AnalysisResult(_, _, _, _, _) => RoundTripAnalysisKind(o);
  }

  lemma RoundTripPlannerKind(o: RoleOutput)
    requires o.PlannerOutput? && WellFormed(o)
    ensures Validate(PlannerKind, Encode(o)) == Success(o)
  {
    StrListRoundTrip(o.milestones);
  }

  lemma RoundTripArchitectKind(o: RoleOutput)
    requires o.ArchitectOutput? && WellFormed(o)
    ensures Validate(ArchitectKind, Encode(o)) == Success(o)
  {
    StrMapRoundTrip(o.fileStructure);
  }

  lemma RoundTripEngineerKind(o: RoleOutput)
    requires o.EngineerOutput? && WellFormed(o)
    ensures Validate(EngineerKind, Encode(o)) == Success(o)
  {
  }

  lemma RoundTripEvaluatorKind(o: RoleOutput)
    requires o.EvaluatorOutput? && WellFormed(o)
    ensures Validate(EvaluatorKind, Encode(o)) == Success(o)
  {
    var obj := Encode(o);
    StrListRoundTrip(o.issues);
    assert RoleField(obj, EvaluatorKind) == Success(o.role);
    assert FieldOr(obj, "action", AsOptPythonExec, None) == Success(o.evalAction);
    assert LiteralField(obj, "status", EvaluatorStatuses, None) == Success(o.status);
    assert NextStepField(obj, EvaluatorKind) == Success(o.nextStep);
  }

  lemma RoundTripCriticKind(o: RoleOutput)
    requires o.CriticOutput? && WellFormed(o)
    ensures Validate(CriticKind, Encode(o)) == Success(o)
  {
  }

  lemma RoundTripProblemKind(o: RoleOutput)
    requires o.ProblemAnalysis? && WellFormed(o)
    ensures Validate(ProblemKind, Encode(o)) == Success(o)
  {
    StrListRoundTrip(o.literatureKeywords);
  }

  lemma RoundTripHypothesisKind(o: RoleOutput)
    requires o.HypothesisGen? && WellFormed(o)
    ensures Validate(HypothesisKind, Encode(o)) == Success(o)
  {
  }

  lemma RoundTripDesignKind(o: RoleOutput)
    requires o.ExperimentDesign? && WellFormed(o)
    ensures Validate(DesignKind, Encode(o)) == Success(o)
  {
    StrListRoundTrip(o.metrics);
  }

  lemma RoundTripExecutionKind(o: RoleOutput)
    requires o.ExecutionRequest? && WellFormed(o)
    ensures Validate(ExecutionKind, Encode(o)) == Success(o)
  {
  }

  lemma RoundTripAnalysisKind(o: RoleOutput)
    requires o.AnalysisResult? && WellFormed(o)
    ensures Validate(AnalysisKind, Encode(o)) == Success(o)
  {
  }

  /** A critic object that approves but omits `feedback` is rejected. */
  lemma CriticNeedsFeedbackEvenWhenApproved(critique: string)
    ensures Validate(CriticKind, map["critique" := JStr(critique), "approved" := JBool(true)]).Failure?
  {
  }

  /** The engineer's `action` may be any string, `final_answer` included. */
  lemma EngineerActionUnrestricted(thought: string, action: string, input: map<string, Json>)
    ensures Validate(EngineerKind, map["thought" := JStr(thought), "action" := JStr(action), "input" := JObj(input)])
         == Success(EngineerOutput("engineer", thought, action, input))
  {
  }
}

=== FILE: shell.dfy ===
/** The shell tool: only the first whitespace-delimited token of the command is
    compared against a fixed whitelist; an accepted command is handed whole
    to `/bin/sh -c`, which is an oracle here. The rest of the command can do
    anything the shell can, including writing files. */
module Shell {
  import opened Wrappers
  import opened Strings
  import opened JsonValue
  import opened ToolBase
  import opened FileSystem

  const Name := "shell_tool"
  const Whitelist: seq<string> := ["ls", "grep", "cat", "git status", "echo"]
  /** The IndexError of `split()[0]` on a whitespace-only command. */
  const EmptySplitMessage := IndexErrorMessage

  /** What the spawned shell reports: exit code and decoded output streams,
      and the files it leaves. */
  datatype ProcRun = ProcRun(returncode: int, stdout: string, stderr: string, fs: ValidFs)

  /** `command.split()[0] if command else ""`; a failure is the exception raised. */
  function BaseCommand(command: Json): (r: Result<string, string>)
    ensures !Truthy(command) ==> r == Success("")
    ensures command.JStr? && Truthy(command) ==>
              (r.Failure? <==> forall k :: 0 <= k < |command.s| ==> IsSpace(command.s[k]))
    ensures r.Success? ==> forall k :: 0 <= k < |r.value| ==> !IsSpace(r.value[k])
  {
    if !Truthy(command) then Success("")
    else if !command.JStr? then Failure("'" + TypeName(command) + "' object has no attribute 'split'")
    else
      match FirstToken(command.s)
      case None => Failure(EmptySplitMessage)
      case Some(t) => Success(t)
  }

  function RejectionMessage(token: string): string {
    "Command '" + token + "' is not allowed."
  }

  /** The reply for a command the shell ran. */
  function ProcReply(p: ProcRun): (m: map<string, Json>)
    ensures "status" in m && (m["status"] == JStr("success") <==> p.returncode == 0)
  {
    map["status" := JStr(if p.returncode == 0 then "success" else "error"),
        "stdout" := JStr(p.stdout), "stderr" := JStr(p.stderr), "returncode" := JInt(p.returncode)]
  }

  /** `ShellTool.run`: the reply, and the files the command leaves. The
      whitelist test comes first; starting the shell then fails on a command
      holding a NUL character, which cannot be passed to the operating system. */
  function Run(input: Json, fs: Fs, spawn: (string, Fs) -> ProcRun): (e: Effect)
    ensures !input.JObj? ==> e == Effect(Raised(NoGetMessage(input)), fs)
    ensures input.JObj? ==> var command := Get(input.fields, "command", JStr(""));
      var b := BaseCommand(command);
      && (b.Failure? ==> e == Effect(Raised(b.error), fs))
      && (b.Success? && b.value !in Whitelist ==> e == Effect(Returned(StatusOutput("error", RejectionMessage(b.value))), fs))
      && (b.Success? && b.value in Whitelist && '\0' in command.s ==> e == Effect(Raised(NullByteMessage), fs))
      && (b.Success? && b.value in Whitelist && '\0' !in command.s ==>
            var p := spawn(command.s, fs);
            e == Effect(Returned(ProcReply(p)), p.fs))
    ensures Valid(fs) ==> Valid(e.fs)
  {
    if !input.JObj? then Effect(Raised(NoGetMessage(input)), fs)
    else
      var command := Get(input.fields, "command", JStr(""));
      match BaseCommand(command)
      case Failure(e) => Effect(Raised(e), fs)
      case Success(b) =>
        if b !in Whitelist then Effect(Returned(StatusOutput("error", RejectionMessage(b))), fs)
        else if '\0' in command.s then Effect(Raised(NullByteMessage), fs)
        else
          var p := spawn(command.s, fs);
          Effect(Returned(ProcReply(p)), p.fs)
  }

  /** A rejected command spawns nothing: the reply is the same whatever the shell would do. */
  lemma RejectionIndependentOfShell(input: Json, fs: Fs, s1: (string, Fs) -> ProcRun, s2: (string, Fs) -> ProcRun)
    requires input.JObj?
    requires var b := BaseCommand(Get(input.fields, "command", JStr(""))); b.Failure? || b.value !in Whitelist
    ensures Run(input, fs, s1) == Run(input, fs, s2)
    ensures Run(input, fs, s1).fs == fs
  {
  }

  /** The whitelist entry "git status" can never match: a token holds no whitespace. */
  lemma GitStatusNeverMatches(command: Json)
    ensures BaseCommand(command).Success? ==> BaseCommand(command).value != "git status"
  {
    assert IsSpace("git status"[3]);
  }

  /** Every whitelisted command other than "git status" is reachable. */
  lemma WhitelistReachable(t: string)
    requires t in Whitelist && t != "git status"
    ensures BaseCommand(JStr(t)) == Success(t)
  {
    assert forall k :: 0 <= k < |t| ==> !IsSpace(t[k]);
    FirstTokenOfWord(t);
  }

  /** The empty command is rejected with an empty token. */
  lemma EmptyCommandRejected(fs: Fs, spawn: (string, Fs) -> ProcRun)
    ensures Run(JObj(map["command" := JStr("")]), fs, spawn) == Effect(Returned(StatusOutput("error", "Command '' is not allowed.")), fs)
  {
    assert RejectionMessage("") == "Command '' is not allowed.";
  }

  /** A whitespace-only command makes `split()[0]` raise. */
  lemma BlankCommandRaises(fs: Fs, spawn: (string, Fs) -> ProcRun)
    ensures Run(JObj(map["command" := JStr(" ")]), fs, spawn) == Effect(Raised(EmptySplitMessage), fs)
  {
    assert IsSpace(" "[0]);
  }

  /** A whitelisted command holding a NUL character raises before anything runs. */
  lemma NullByteCommandRaises(fs: Fs, spawn: (string, Fs) -> ProcRun)
    ensures Run(JObj(map["command" := JStr("ls \0")]), fs, spawn) == Effect(Raised(NullByteMessage), fs)
  {
    var c := "ls \0";
    assert IsSpace(c[2]) && !IsSpace(c[0]) && !IsSpace(c[1]) && !IsSpace(c[3]);
    assert c[..2] == "ls";
    assert c[3] == '\0';
  }
}

=== FILE: strings.dfy ===
/** Python `str` operations the core relies on, over `seq<char>`:
    searching (`find`, `rfind`, `in`), splitting and joining, ASCII case mapping,
    the whitespace class of `str.split()` and regex `\s`, and `str(int)`. */
module Strings {
  import opened Wrappers

  // ---------------------------------------------------------------------------
  // Prefixes, suffixes, occurrences
  // ---------------------------------------------------------------------------

  predicate IsPrefix(p: string, s: string) {
    |p| <= |s| && s[..|p|] == p
  }

  predicate IsSuffix(p: string, s: string) {
    |p| <= |s| && s[|s| - |p|..] == p
  }

  /** `sub` occurs in `s` starting at index `i`. */
  predicate OccursAt(s: string, sub: string, i: int) {
    0 <= i && i + |sub| <= |s| && s[i..i + |sub|] == sub
  }

  /** Python's `sub in s`. */
  predicate Contains(s: string, sub: string) {
    exists i :: 0 <= i <= |s| && OccursAt(s, sub, i)
  }

  /** Smallest index `k >= from` at which `sub` occurs, if any. */
  function FirstOccurrence(s: string, sub: string, from: nat): (r: Option<nat>)
    requires from <= |s|
    ensures r.Some? ==> from <= r.value <= |s| && OccursAt(s, sub, r.value)
    ensures r.Some? ==> forall j :: from <= j < r.value ==> !OccursAt(s, sub, j)
    ensures r.None? ==> forall j :: from <= j <= |s| ==> !OccursAt(s, sub, j)
    decreases |s| - from
  {
    if OccursAt(s, sub, from) then Some(from)
    else if from == |s| then None
    else FirstOccurrence(s, sub, from + 1)
  }

  lemma ContainsIffOccurrence(s: string, sub: string)
    ensures Contains(s, sub) <==> FirstOccurrence(s, sub, 0).Some?
  {
    if Contains(s, sub) {
      var i :| 0 <= i <= |s| && OccursAt(s, sub, i);
      assert FirstOccurrence(s, sub, 0).Some?;
    }
  }

  /** Index of the first `c` at or after `i`, or -1 (Python `s.find(c, i)`). */
  function FindFrom(s: string, c: char, i: nat): (k: int)
    requires i <= |s|
    ensures k == -1 || i <= k < |s|
    ensures k >= 0 ==> s[k] == c && forall j :: i <= j < k ==> s[j] != c
    ensures k < 0 ==> forall j :: i <= j < |s| ==> s[j] != c
    decreases |s| - i
  {
    if i == |s| then -1
    else if s[i] == c then i
    else FindFrom(s, c, i + 1)
  }

  /** Python `s.find(c)`. */
  function Find(s: string, c: char): (k: int)
    ensures -1 <= k < |s|
    ensures k >= 0 ==> s[k] == c && forall j :: 0 <= j < k ==> s[j] != c
    ensures k < 0 ==> forall j :: 0 <= j < |s| ==> s[j] != c
  {
    FindFrom(s, c, 0)
  }

  /** Index of the last `c` strictly before `n`, or -1. */
  function RFindBefore(s: string, c: char, n: nat): (k: int)
    requires n <= |s|
    ensures -1 <= k < n
    ensures k >= 0 ==> s[k] == c && forall j :: k < j < n ==> s[j] != c
    ensures k < 0 ==> forall j :: 0 <= j < n ==> s[j] != c
  {
    if n == 0 then -1
    else if s[n - 1] == c then n - 1
    else RFindBefore(s, c, n - 1)
  }

  /** Python `s.rfind(c)`. */
  function RFind(s: string, c: char): (k: int)
    ensures -1 <= k < |s|
    ensures k >= 0 ==> s[k] == c && forall j :: k < j < |s| ==> s[j] != c
    ensures k < 0 ==> forall j :: 0 <= j < |s| ==> s[j] != c
  {
    RFindBefore(s, c, |s|)
  }

  /** Python `s[a:b]` for in-range bounds: empty when `b < a`. */
  function Slice(s: string, a: nat, b: nat): (r: string)
    requires a <= |s| && b <= |s|
    ensures a <= b ==> r == s[a..b]
    ensures b < a ==> r == ""
  {
    if a <= b then s[a..b] else ""
  }

  /** Python `s.replace(old, new, 1)` for a non-empty `old`. */
  function ReplaceFirst(s: string, pat: string, repl: string): (r: string)
    requires |pat| > 0
    ensures !Contains(s, pat) ==> r == s
  {
    ContainsIffOccurrence(s, pat);
    match FirstOccurrence(s, pat, 0)
    case None => s
    case Some(k) => s[..k] + repl + s[k + |pat|..]
  }

  // ---------------------------------------------------------------------------
  // Concatenation, splitting, joining
  // ---------------------------------------------------------------------------

  /** `"".join(parts)`. */
  function Concat(parts: seq<string>): string {
    if |parts| == 0 then "" else parts[0] + Concat(parts[1..])
  }

  lemma {:induction false} ConcatAppend(a: seq<string>, b: seq<string>)
    ensures Concat(a + b) == Concat(a) + Concat(b)
    decreases |a|
  {
    if |a| == 0 {
      assert a + b == b;
    } else {
      assert (a + b)[1..] == a[1..] + b;
      ConcatAppend(a[1..], b);
    }
  }

  /** `sep.join(parts)`. */
  function JoinWith(sep: string, parts: seq<string>): string {
    if |parts| == 0 then ""
    else if |parts| == 1 then parts[0]
    else parts[0] + sep + JoinWith(sep, parts[1..])
  }

  /** Python `s.split(c)` for a one-character separator: never empty, one more
      part than there are separators. */
  function SplitOn(s: string, c: char): (parts: seq<string>)
    ensures |parts| >= 1
    ensures forall i :: 0 <= i < |parts| ==> c !in parts[i]
    decreases |s|
  {
    var k := Find(s, c);
    if k < 0 then [s]
    else
      assert c !in s[..k];
      [s[..k]] + SplitOn(s[k + 1..], c)
  }

  /** Splitting on `c` and joining with `c` gives the text back. */
  lemma {:induction false} SplitJoinRoundTrip(s: string, c: char)
    ensures JoinWith([c], SplitOn(s, c)) == s
    decreases |s|
  {
    var k := Find(s, c);
    if k >= 0 {
      var rest := SplitOn(s[k + 1..], c);
      SplitJoinRoundTrip(s[k + 1..], c);
      var parts := [s[..k]] + rest;
      assert parts[1..] == rest;
      assert JoinWith([c], parts) == s[..k] + [c] + s[k + 1..];
      assert s == s[..k] + [c] + s[k + 1..];
    }
  }

  /** Joining parts free of `c` with `c` and splitting on `c` gives the parts back. */
  lemma {:induction false} JoinSplitRoundTrip(parts: seq<string>, c: char)
    requires |parts| >= 1
    requires forall i :: 0 <= i < |parts| ==> c !in parts[i]
    ensures SplitOn(JoinWith([c], parts), c) == parts
    decreases |parts|
  {
    var s := JoinWith([c], parts);
    if |parts| == 1 {
      assert Find(s, c) < 0;
    } else {
      var tail := JoinWith([c], parts[1..]);
      assert s == parts[0] + [c] + tail;
      assert s[|parts[0]|] == c;
      assert forall j :: 0 <= j < |parts[0]| ==> s[j] == parts[0][j];
      assert Find(s, c) == |parts[0]|;
      assert s[..|parts[0]|] == parts[0];
      assert s[|parts[0]| + 1..] == tail;
      JoinSplitRoundTrip(parts[1..], c);
      assert [parts[0]] + parts[1..] == parts;
    }
  }

  // ---------------------------------------------------------------------------
  // Character classes and ASCII case mapping
  // ---------------------------------------------------------------------------

  /** The characters Python treats as whitespace in `str.split()` and in regex `\s`. */
  predicate IsSpace(c: char) {
    var n := c as int;
    || (0x09 <= n <= 0x0D) || (0x1C <= n <= 0x20) || n == 0x85 || n == 0xA0
    || n == 0x1680 || (0x2000 <= n <= 0x200A) || n == 0x2028 || n == 0x2029
    || n == 0x202F || n == 0x205F || n == 0x3000
  }

  /** Regex `\w`, restricted to ASCII letters, digits and underscore. */
  predicate IsWordChar(c: char) {
    ('a' <= c <= 'z') || ('A' <= c <= 'Z') || ('0' <= c <= '9') || c == '_'
  }

  function LowerChar(c: char): char {
    if 'A' <= c <= 'Z' then (c as int + 32) as char else c
  }

  function UpperChar(c: char): char {
    if 'a' <= c <= 'z' then (c as int - 32) as char else c
  }

  /** ASCII `str.lower()`. */
  function Lower(s: string): (r: string)
    ensures |r| == |s|
    ensures forall i :: 0 <= i < |s| ==> r[i] == LowerChar(s[i])
    decreases |s|
  {
    if s == [] then [] else [LowerChar(s[0])] + Lower(s[1..])
  }

  /** ASCII `str.upper()`. */
  function Upper(s: string): (r: string)
    ensures |r| == |s|
    ensures forall i :: 0 <= i < |s| ==> r[i] == UpperChar(s[i])
    decreases |s|
  {
    if s == [] then [] else [UpperChar(s[0])] + Upper(s[1..])
  }

  /** First index at or after `i` that is not whitespace (or `|s|`). */
  function SkipSpace(s: string, i: nat): (j: nat)
    requires i <= |s|
    ensures i <= j <= |s|
    ensures forall k :: i <= k < j ==> IsSpace(s[k])
    ensures j < |s| ==> !IsSpace(s[j])
    decreases |s| - i
  {
    if i == |s| || !IsSpace(s[i]) then i else SkipSpace(s, i + 1)
  }

  /** First index at or after `i` that is whitespace (or `|s|`). */
  function TokenEnd(s: string, i: nat): (j: nat)
    requires i <= |s|
    ensures i <= j <= |s|
    ensures forall k :: i <= k < j ==> !IsSpace(s[k])
    ensures j < |s| ==> IsSpace(s[j])
    decreases |s| - i
  {
    if i == |s| || IsSpace(s[i]) then i else TokenEnd(s, i + 1)
  }

  /** Python `s.split()[0]`; `None` where Python raises IndexError (no token). */
  function FirstToken(s: string): (r: Option<string>)
    ensures r.None? <==> forall k :: 0 <= k < |s| ==> IsSpace(s[k])
    ensures r.Some? ==> |r.value| > 0 && forall k :: 0 <= k < |r.value| ==> !IsSpace(r.value[k])
  {
    var a := SkipSpace(s, 0);
    if a == |s| then None else Some(s[a..TokenEnd(s, a)])
  }

  /** A non-empty word without whitespace is its own first token. */
  lemma FirstTokenOfWord(s: string)
    requires |s| > 0 && forall k :: 0 <= k < |s| ==> !IsSpace(s[k])
    ensures FirstToken(s) == Some(s)
  {
    assert SkipSpace(s, 0) == 0;
    assert TokenEnd(s, 0) == |s|;
    assert s[0..|s|] == s;
  }

  // ---------------------------------------------------------------------------
  // Decimal rendering of integers (Python `str(int)`)
  // ---------------------------------------------------------------------------

  predicate IsDigit(c: char) {
    '0' <= c <= '9'
  }

  function DigitChar(d: int): (c: char)
    requires 0 <= d < 10
    ensures IsDigit(c)
  {
    ('0' as int + d) as char
  }

  function NatToString(n: nat): (s: string)
    ensures |s| >= 1
    ensures forall i :: 0 <= i < |s| ==> IsDigit(s[i])
    decreases n
  {
    if n < 10 then [DigitChar(n)] else NatToString(n / 10) + [DigitChar(n % 10)]
  }

  /** The number a string of decimal digits denotes. */
  function DigitsValue(s: string): nat
    requires forall i :: 0 <= i < |s| ==> IsDigit(s[i])
    decreases |s|
  {
    if |s| == 0 then 0
    else
      assert IsDigit(s[|s| - 1]);
      DigitsValue(s[..|s| - 1]) * 10 + (s[|s| - 1] as int - '0' as int)
  }

  lemma {:induction false} NatToStringRoundTrip(n: nat)
    ensures DigitsValue(NatToString(n)) == n
    decreases n
  {
    if n >= 10 {
      var s := NatToString(n);
      assert s[..|s| - 1] == NatToString(n / 10);
      NatToStringRoundTrip(n / 10);
    }
  }

  lemma NatToStringInjective(a: nat, b: nat)
    ensures NatToString(a) == NatToString(b) ==> a == b
  {
    NatToStringRoundTrip(a);
    NatToStringRoundTrip(b);
  }

  /** Python `str(n)` for an integer. */
  function IntToString(n: int): (s: string)
    ensures |s| >= 1
    ensures forall i :: 0 <= i < |s| ==> s[i] == '-' || IsDigit(s[i])
  {
    if n < 0 then "-" + NatToString(-n) else NatToString(n)
  }

  lemma IntToStringInjective(a: int, b: int)
    ensures IntToString(a) == IntToString(b) ==> a == b
  {
    assert IntToString(a)[0] == '-' <==> a < 0;
    assert IntToString(b)[0] == '-' <==> b < 0;
    if a < 0 && b < 0 {
      AppendCancel("-", NatToString(-a), NatToString(-b));
      NatToStringInjective(-a, -b);
    } else if a >= 0 && b >= 0 {
      NatToStringInjective(a, b);
    }
  }

  /** `a` is a prefix of `a + b`. */
  lemma PrefixOfAppend(a: string, b: string)
    ensures IsPrefix(a, a + b)
  {
    assert (a + b)[..|a|] == a;
  }

  lemma PrefixTrans(a: string, b: string, c: string)
    requires IsPrefix(a, b) && IsPrefix(b, c)
    ensures IsPrefix(a, c)
  {
    assert c[..|a|] == b[..|a|];
  }

  lemma PrefixExtend(a: string, b: string, c: string)
    requires IsPrefix(b, c)
    ensures IsPrefix(a + b, a + c)
  {
    assert (a + c)[..|a + b|] == a + c[..|b|];
  }

  lemma Assoc(x: string, y: string, z: string)
    ensures (x + y) + z == x + (y + z)
  {
  }

  lemma AppendCancel(a: string, b: string, c: string)
    ensures a + b == a + c ==> b == c
  {
    if a + b == a + c {
      assert b == (a + b)[|a|..];
      assert c == (a + c)[|a|..];
    }
  }
}

=== FILE: tool_base.dfy ===
/** What every tool shares: the outcome of its `run` coroutine, the two-field
    `{"status", "output"}` reply, and the texts of the Python exceptions a tool
    raises when its input has the wrong shape. */
module ToolBase {
  import opened JsonValue

  /** A tool either returns a dict, raises an `Exception` (which the caller
      catches), or raises a `BaseException` that is not an `Exception`
      (which nothing in the core catches). */
  datatype ToolResult =
    | Returned(out: map<string, Json>)
    | Raised(msg: string)
    | Escaped(msg: string)

  /** `{"status": status, "output": output}`. */
  function StatusOutput(status: string, output: string): (m: map<string, Json>)
    ensures m.Keys == {"status", "output"}
    ensures m["status"] == JStr(status) && m["output"] == JStr(output)
  {
    map["status" := JStr(status), "output" := JStr(output)]
  }

  /** Python's name for the type of a decoded JSON value. */
  function TypeName(j: Json): string {
    match j
    case JNull => "NoneType"
    case JBool(_) => "bool"
    case JInt(_) => "int"
    case JReal(_) => "float"
    case JStr(_) => "str"
    case JArr(_) => "list"
    case JObj(_) => "dict"
  }

  /** The AttributeError raised by `input_data.get(...)` on a non-dict. */
  function NoGetMessage(j: Json): string {
    "'" + TypeName(j) + "' object has no attribute 'get'"
  }

  /** The ValueError the operating system interface raises for a path or a
      command holding a NUL character. */
  const NullByteMessage := "embedded null byte"

  /** The IndexError of indexing an empty list. */
  const IndexErrorMessage := "list index out of range"

  /** The TypeError raised by `os.path.join` on a non-string component. */
  function PathTypeMessage(j: Json): string {
    "join() argument must be str, bytes, or os.PathLike object, not '" + TypeName(j) + "'"
  }
}

=== FILE: types.dfy ===
/** The request/response data model: chat messages, sampling parameters with
    their defaults and the closed preset set, chat completion requests and
    streamed response chunks. Validation of decoded JSON against these records
    follows the field types and defaults of the request schema. */
module Types {
  import opened Wrappers
  import opened JsonValue

  // ---------------------------------------------------------------------------
  // Records
  // ---------------------------------------------------------------------------

  /** A transcript entry. The role is an unconstrained string. */
  datatype ChatMessage = ChatMessage(role: string, content: string, name: Option<string>)

  /** The execution-mode presets a request may name. */
  datatype Preset = Creative | Deterministic | Coding | Research

  /** `stop`: absent, one string, or a list of strings. */
  datatype Stop = NoStop | StopOne(text: string) | StopMany(texts: seq<string>)

  datatype SamplingParams = SamplingParams(
    temperature: real,
    topP: real,
    topK: int,
    maxTokens: int,
    presencePenalty: real,
    frequencyPenalty: real,
    stop: Stop,
    ignoreEos: bool,
    preset: Option<Preset>,
    maxDebugAttempts: int)

  const DefaultSamplingParams := SamplingParams(0.7, 1.0, -1, 256, 0.0, 0.0, NoStop, false, None, 3)

  datatype ChatCompletionRequest = ChatCompletionRequest(
    model: string,
    messages: seq<ChatMessage>,
    samplingParams: Option<SamplingParams>,
    stream: bool,
    tools: Option<seq<map<string, Json>>>,
    toolChoice: Option<Json>,
    responseFormat: Option<map<string, string>>,
    testCode: Option<string>,
    extra: map<string, Json>)

  /** One entry of a chunk's `choices`: `{"index", "delta": {"content"}, "finish_reason"}`. */
  datatype Choice = Choice(index: int, content: string, finishReason: Option<string>)

  datatype ChatCompletionResponseChunk = ChatCompletionResponseChunk(
    id: string,
    objectType: string,
    created: int,
    model: string,
    choices: seq<Choice>)

  const ChunkObject := "chat.completion.chunk"

  /** A chunk built without naming `object` gets the default object tag. */
  function NewChunk(id: string, created: int, model: string, choices: seq<Choice>): ChatCompletionResponseChunk {
    ChatCompletionResponseChunk(id, ChunkObject, created, model, choices)
  }

  // ---------------------------------------------------------------------------
  // Field conversions (JSON type checks; no lax coercion)
  // ---------------------------------------------------------------------------

  /** The validation messages, one per expected type. */
  const NotAString := "Input should be a valid string"
  const NotAnInteger := "Input should be a valid integer"
  const NotANumber := "Input should be a valid number"
  const NotABoolean := "Input should be a valid boolean"
  const NotAStringList := "Input should be a valid list of strings"
  const NotADictionary := "Input should be a valid dictionary"
  const NotAStringDictionary := "Input should be a valid dictionary of strings"
  const NotAStop := "Input should be a valid string or list of strings"
  const NotAList := "Input should be a valid list"
  const NotADictionaryList := "Input should be a valid list of dictionaries"
  const NotAToolChoice := "Input should be a valid string or dictionary"
  const NotAPreset := "Input should be 'creative', 'deterministic', 'coding' or 'research'"

  function AsStr(j: Json): Result<string, string> {
    if j.JStr? then Success(j.s) else Failure(NotAString)
  }

  function AsInt(j: Json): Result<int, string> {
    if j.JInt? then Success(j.i) else Failure(NotAnInteger)
  }

  function AsFloat(j: Json): Result<real, string> {
    match j
    case JInt(i) => Success(i as real)
    case JReal(r) => Success(r)
    case _ => Failure(NotANumber)
  }

  function AsBool(j: Json): Result<bool, string> {
    if j.JBool? then Success(j.b) else Failure(NotABoolean)
  }

  function AsOptStr(j: Json): Result<Option<string>, string> {
    match j
    case JNull => Success(None)
    case JStr(s) => Success(Some(s))
    case _ => Failure(NotAString)
  }

  function AsStrList(j: Json): Result<seq<string>, string> {
    if j.JArr? && forall k :: 0 <= k < |j.items| ==> j.items[k].JStr? then
      Success(StrsOf(j.items))
    else Failure(NotAStringList)
  }

  function AsObj(j: Json): Result<map<string, Json>, string> {
    if j.JObj? then Success(j.fields) else Failure(NotADictionary)
  }

  function AsStrMap(j: Json): Result<map<string, string>, string> {
    if j.JObj? && forall k :: k in j.fields ==> j.fields[k].JStr? then
      Success(map k | k in j.fields :: j.fields[k].s)
    else Failure(NotAStringDictionary)
  }

  /** A field with a default: absent takes the default, present must convert. */
  function FieldOr<T>(obj: map<string, Json>, key: string, conv: Json -> Result<T, string>, default: T): (r: Result<T, string>)
    ensures key !in obj ==> r == Success(default)
    ensures key in obj ==> r == conv(obj[key])
  {
    if key in obj then conv(obj[key]) else Success(default)
  }

  /** A required field: absent fails, present must convert. */
  function Required<T>(obj: map<string, Json>, key: string, conv: Json -> Result<T, string>): (r: Result<T, string>)
    ensures key !in obj ==> r.Failure?
    ensures key in obj ==> r == conv(obj[key])
  {
    if key in obj then conv(obj[key]) else Failure("Field required: " + key)
  }

  // ---------------------------------------------------------------------------
  // Presets
  // ---------------------------------------------------------------------------

  function PresetName(p: Preset): string {
    match p
    case Creative => "creative"
    case Deterministic => "deterministic"
    case Coding => "coding"
    case Research => "research"
  }

  const PresetError := "Input should be 'creative', 'deterministic', 'coding' or 'research'"

  /** `preset`: null, or exactly one of the four literal names. */
  function PresetFromJson(j: Json): (r: Result<Option<Preset>, string>)
    ensures j == JNull ==> r == Success(None)
    ensures r.Success? && r.value.Some? ==> j == JStr(PresetName(r.value.value))
    ensures j.JStr? ==> (r.Success? <==> j.s in {"creative", "deterministic", "coding", "research"})
    ensures !j.JStr? && !j.JNull? ==> r.Failure?
  {
    match j
    case JNull => Success(None)
    case JStr(s) =>
      if s == "creative" then Success(Some(Creative))
      else if s == "deterministic" then Success(Some(Deterministic))
      else if s == "coding" then Success(Some(Coding))
      else if s == "research" then Success(Some(Research))
      else Failure(PresetError)
    case _ => Failure(PresetError)
  }

  /** The "autonomous" preset sent by the validation script lies outside the set. */
  lemma AutonomousPresetRejected()
    ensures PresetFromJson(JStr("autonomous")).Failure?
  {
  }

  lemma PresetNameRoundTrip(p: Preset)
    ensures PresetFromJson(JStr(PresetName(p))) == Success(Some(p))
  {
  }

  function AsStop(j: Json): Result<Stop, string> {
    match j
    case JNull => Success(NoStop)
    case JStr(s) => Success(StopOne(s))
    case JArr(_) =>
      var texts :- AsStrList(j);
      Success(StopMany(texts))
    case _ => Failure(NotAStop)
  }

  // ---------------------------------------------------------------------------
  // SamplingParams
  // ---------------------------------------------------------------------------

  /** The numeric sampling fields, validated in declaration order. */
  datatype Numbers = Numbers(temperature: real, topP: real, topK: int, maxTokens: int,
                             presencePenalty: real, frequencyPenalty: real)

  function NumbersFromJson(obj: map<string, Json>): (r: Result<Numbers, string>)
    ensures r.Success? && "temperature" !in obj ==> r.value.temperature == 0.7
    ensures r.Success? && "top_p" !in obj ==> r.value.topP == 1.0
    ensures r.Success? && "top_k" !in obj ==> r.value.topK == -1
    ensures r.Success? && "max_tokens" !in obj ==> r.value.maxTokens == 256
    ensures r.Success? && "presence_penalty" !in obj ==> r.value.presencePenalty == 0.0
    ensures r.Success? && "frequency_penalty" !in obj ==> r.value.frequencyPenalty == 0.0
    ensures r.Success? && "max_tokens" in obj ==> obj["max_tokens"] == JInt(r.value.maxTokens)
    ensures "top_k" in obj && !obj["top_k"].JInt? ==> r.Failure?
  {
    var temperature :- FieldOr(obj, "temperature", AsFloat, 0.7);
    var topP :- FieldOr(obj, "top_p", AsFloat, 1.0);
    var topK :- FieldOr(obj, "top_k", AsInt, -1);
    var maxTokens :- FieldOr(obj, "max_tokens", AsInt, 256);
    var presence :- FieldOr(obj, "presence_penalty", AsFloat, 0.0);
    var frequency :- FieldOr(obj, "frequency_penalty", AsFloat, 0.0);
    Success(Numbers(temperature, topP, topK, maxTokens, presence, frequency))
  }

  /** The remaining sampling fields: stop sequences, EOS handling, the preset
      and the self-correction budget. */
  datatype Controls = Controls(stop: Stop, ignoreEos: bool, preset: Option<Preset>, maxDebugAttempts: int)

  function ControlsFromJson(obj: map<string, Json>): (r: Result<Controls, string>)
    ensures r.Success? && "stop" !in obj ==> r.value.stop == NoStop
    ensures r.Success? && "ignore_eos" !in obj ==> !r.value.ignoreEos
    ensures r.Success? && "preset" !in obj ==> r.value.preset == None
    ensures r.Success? && "max_debug_attempts" !in obj ==> r.value.maxDebugAttempts == 3
    ensures r.Success? && "preset" in obj && r.value.preset.Some? ==>
              obj["preset"] == JStr(PresetName(r.value.preset.value))
    ensures ("preset" in obj && obj["preset"].JStr? && obj["preset"].s !in {"creative", "deterministic", "coding", "research"})
              ==> r.Failure?
  {
    var stop :- FieldOr(obj, "stop", AsStop, NoStop);
    var ignoreEos :- FieldOr(obj, "ignore_eos", AsBool, false);
    var preset :- FieldOr(obj, "preset", PresetFromJson, None);
    var maxDebug :- FieldOr(obj, "max_debug_attempts", AsInt, 3);
    Success(Controls(stop, ignoreEos, preset, maxDebug))
  }

  /** Validates a sampling-parameters object; absent fields take their defaults,
      unknown fields are ignored. */
  function SamplingParamsFromJson(obj: map<string, Json>): (r: Result<SamplingParams, string>)
    ensures r.Success? <==> NumbersFromJson(obj).Success? && ControlsFromJson(obj).Success?
    ensures r.Success? ==> var n := NumbersFromJson(obj).value;
              r.value.temperature == n.temperature && r.value.topP == n.topP && r.value.topK == n.topK
              && r.value.maxTokens == n.maxTokens && r.value.presencePenalty == n.presencePenalty
              && r.value.frequencyPenalty == n.frequencyPenalty
    ensures r.Success? ==> var c := ControlsFromJson(obj).value;
              r.value.stop == c.stop && r.value.ignoreEos == c.ignoreEos && r.value.preset == c.preset
              && r.value.maxDebugAttempts == c.maxDebugAttempts
  {
    var n :- NumbersFromJson(obj);
    var c :- ControlsFromJson(obj);
    Success(SamplingParams(n.temperature, n.topP, n.topK, n.maxTokens, n.presencePenalty, n.frequencyPenalty,
                           c.stop, c.ignoreEos, c.preset, c.maxDebugAttempts))
  }

  function StopToJson(s: Stop): Json {
    match s
    case NoStop => JNull
    case StopOne(t) => JStr(t)
    case StopMany(ts) => JArr(JStrs(ts))
  }

  /** The object `model_dump()` gives for sampling parameters. */
  function SamplingParamsToJson(p: SamplingParams): map<string, Json> {
    map[
      "temperature" := JReal(p.temperature),
      "top_p" := JReal(p.topP),
      "top_k" := JInt(p.topK),
      "max_tokens" := JInt(p.maxTokens),
      "presence_penalty" := JReal(p.presencePenalty),
      "frequency_penalty" := JReal(p.frequencyPenalty),
      "stop" := StopToJson(p.stop),
      "ignore_eos" := JBool(p.ignoreEos),
      "preset" := if p.preset.Some? then JStr(PresetName(p.preset.value)) else JNull,
      "max_debug_attempts" := JInt(p.maxDebugAttempts)]
  }

  /** Validating an empty object yields exactly the documented defaults. */
  lemma SamplingParamsDefaults()
    ensures SamplingParamsFromJson(map[]) == Success(DefaultSamplingParams)
  {
  }

  lemma StopRoundTrip(s: Stop)
    ensures AsStop(StopToJson(s)) == Success(s)
  {
    match s
    case NoStop =>
    case StopOne(t) =>
    case StopMany(ts) =>
      var j := StopToJson(s);
      assert StrsOf(j.items) == ts;
  }

  lemma NumbersRoundTrip(p: SamplingParams)
    ensures NumbersFromJson(SamplingParamsToJson(p))
         == Success(Numbers(p.temperature, p.topP, p.topK, p.maxTokens, p.presencePenalty, p.frequencyPenalty))
  {
  }

  lemma ControlsRoundTrip(p: SamplingParams)
    ensures ControlsFromJson(SamplingParamsToJson(p)) == Success(Controls(p.stop, p.ignoreEos, p.preset, p.maxDebugAttempts))
  {
    var obj := SamplingParamsToJson(p);
    StopRoundTrip(p.stop);
    assert PresetFromJson(obj["preset"]) == Success(p.preset) by {
      if p.preset.Some? {
        PresetNameRoundTrip(p.preset.value);
      }
    }
  }

  /** Dumping sampling parameters and validating the dump gives them back. */
  lemma SamplingParamsRoundTrip(p: SamplingParams)
    ensures SamplingParamsFromJson(SamplingParamsToJson(p)) == Success(p)
  {
    NumbersRoundTrip(p);
    ControlsRoundTrip(p);
  }

  // ---------------------------------------------------------------------------
  // ChatMessage and ChatCompletionRequest
  // ---------------------------------------------------------------------------

  function MessageFromJson(j: Json): (r: Result<ChatMessage, string>)
    ensures r.Success? ==> j.JObj? && "role" in j.fields && j.fields["role"] == JStr(r.value.role)
    ensures r.Success? ==> "content" in j.fields && j.fields["content"] == JStr(r.value.content)
    ensures r.Success? && "name" !in j.fields ==> r.value.name == None
  {
    var obj :- AsObj(j);
    var role :- Required(obj, "role", AsStr);
    var content :- Required(obj, "content", AsStr);
    var name :- FieldOr(obj, "name", AsOptStr, None);
    Success(ChatMessage(role, content, name))
  }

  function MessageToJson(m: ChatMessage): Json {
    JObj(map["role" := JStr(m.role), "content" := JStr(m.content),
             "name" := if m.name.Some? then JStr(m.name.value) else JNull])
  }

  /** Every message, whatever its role string, survives dump and validation. */
  lemma MessageRoundTrip(m: ChatMessage)
    ensures MessageFromJson(MessageToJson(m)) == Success(m)
  {
  }

  /** Validates a transcript: every item must be a valid message. */
  function MessagesFrom(items: seq<Json>): (r: Result<seq<ChatMessage>, string>)
    ensures r.Success? <==> forall i :: 0 <= i < |items| ==> MessageFromJson(items[i]).Success?
    ensures r.Success? ==> |r.value| == |items|
    ensures r.Success? ==> forall i :: 0 <= i < |items| ==> r.value[i] == MessageFromJson(items[i]).value
    decreases |items|
  {
    if |items| == 0 then Success([])
    else
      var first :- MessageFromJson(items[0]);
      var rest :- MessagesFrom(items[1..]);
      Success([first] + rest)
  }

  function AsMessages(j: Json): Result<seq<ChatMessage>, string> {
    if j.JArr? then MessagesFrom(j.items) else Failure(NotAList)
  }

  function AsOptSamplingParams(j: Json): Result<Option<SamplingParams>, string> {
    match j
    case JNull => Success(None)
    case JObj(f) =>
      var p :- SamplingParamsFromJson(f);
      Success(Some(p))
    case _ => Failure(NotADictionary)
  }

  function AsOptTools(j: Json): Result<Option<seq<map<string, Json>>>, string> {
    match j
    case JNull => Success(None)
    case JArr(items) =>
      if forall k :: 0 <= k < |items| ==> items[k].JObj? then
        Success(Some(FieldsOf(items)))
      else Failure(NotADictionaryList)
    case _ => Failure(NotAList)
  }

  function AsOptToolChoice(j: Json): Result<Option<Json>, string> {
    match j
    case JNull => Success(None)
    case JStr(_) => Success(Some(j))
    case JObj(_) => Success(Some(j))
    case _ => Failure(NotAToolChoice)
  }

  function AsOptStrMap(j: Json): Result<Option<map<string, string>>, string> {
    if j.JNull? then Success(None)
    else
      var m :- AsStrMap(j);
      Success(Some(m))
  }

  const RequestFields: set<string> :=
    {"model", "messages", "sampling_params", "stream", "tools", "tool_choice", "response_format", "test_code"}

  /** The optional fields of a request, validated. */
  datatype Optionals = Optionals(
    samplingParams: Option<SamplingParams>,
    stream: bool,
    tools: Option<seq<map<string, Json>>>,
    toolChoice: Option<Json>,
    responseFormat: Option<map<string, string>>,
    testCode: Option<string>)

  /** The optional fields default to absent and `stream` to false. */
  function OptionalsFromJson(obj: map<string, Json>): (r: Result<Optionals, string>)
    ensures r.Success? && "stream" !in obj ==> !r.value.stream
    ensures r.Success? && "stream" in obj ==> obj["stream"] == JBool(r.value.stream)
    ensures r.Success? && "sampling_params" !in obj ==> r.value.samplingParams == None
    ensures r.Success? && "tools" !in obj ==> r.value.tools == None
    ensures r.Success? && "tool_choice" !in obj ==> r.value.toolChoice == None
    ensures r.Success? && "response_format" !in obj ==> r.value.responseFormat == None
    ensures r.Success? && "test_code" !in obj ==> r.value.testCode == None
  {
    var params :- FieldOr(obj, "sampling_params", AsOptSamplingParams, None);
    var stream :- FieldOr(obj, "stream", AsBool, false);
    var tools :- FieldOr(obj, "tools", AsOptTools, None);
    var toolChoice :- FieldOr(obj, "tool_choice", AsOptToolChoice, None);
    var responseFormat :- FieldOr(obj, "response_format", AsOptStrMap, None);
    var testCode :- FieldOr(obj, "test_code", AsOptStr, None);
    Success(Optionals(params, stream, tools, toolChoice, responseFormat, testCode))
  }

  /** The fields outside the schema, kept as they are. */
  function ExtraFields(obj: map<string, Json>): (m: map<string, Json>)
    ensures m.Keys == obj.Keys - RequestFields
    ensures forall k :: k in m ==> m[k] == obj[k]
  {
    map k | k in obj && k !in RequestFields :: obj[k]
  }

  /** Validates a chat completion request body. `model` and `messages` are
      required and checked first; the optional fields follow; fields outside
      the schema are kept. */
  function RequestFromJson(obj: map<string, Json>): (r: Result<ChatCompletionRequest, string>)
    ensures "model" !in obj || "messages" !in obj ==> r.Failure?
    ensures r.Success? ==> obj["model"] == JStr(r.value.model)
    ensures r.Success? ==> obj["messages"].JArr? && MessagesFrom(obj["messages"].items) == Success(r.value.messages)
    ensures r.Success? ==> |r.value.messages| == |obj["messages"].items|
    ensures r.Success? ==> OptionalsFromJson(obj).Success?
    ensures r.Success? ==> var o := OptionalsFromJson(obj).value;
              r.value.samplingParams == o.samplingParams && r.value.stream == o.stream && r.value.tools == o.tools
              && r.value.toolChoice == o.toolChoice && r.value.responseFormat == o.responseFormat
              && r.value.testCode == o.testCode
    ensures r.Success? ==> r.value.extra == ExtraFields(obj)
  {
    var model :- Required(obj, "model", AsStr);
    var messages :- Required(obj, "messages", AsMessages);
    var o :- OptionalsFromJson(obj);
    Success(ChatCompletionRequest(model, messages, o.samplingParams, o.stream, o.tools, o.toolChoice,
                                  o.responseFormat, o.testCode, ExtraFields(obj)))
  }

  /** The smallest valid body: a model name and an empty transcript. */
  lemma MinimalRequest(model: string)
    ensures RequestFromJson(map["model" := JStr(model), "messages" := JArr([])])
         == Success(ChatCompletionRequest(model, [], None, false, None, None, None, None, map[]))
  {
    var obj := map["model" := JStr(model), "messages" := JArr([])];
    assert ExtraFields(obj) == map[];
  }
}

=== FILE: wrappers.dfy ===
/** Option and Result, the failure-compatible wrappers used throughout the model
    in place of Python's `None` and raised exceptions. */
module Wrappers {

  datatype Option<+T> = None | Some(value: T) {

    predicate IsFailure() {
      None?
    }

    function PropagateFailure<U>(): Option<U>
      requires None?
    {
      None
    }

    function Extract(): T
      requires Some?
    {
      value
    }

    /** The value, or `default` when absent (Python's `x if x is not None else default`). */
    function GetOr(default: T): T {
      match this
      case Some(v) => v
      case None => default
    }
  }

  datatype Result<+R, +E> = Success(value: R) | Failure(error: E) {

    predicate IsFailure() {
      Failure?
    }

    function PropagateFailure<U>(): Result<U, E>
      requires Failure?
    {
      Failure(error)
    }

    function Extract(): R
      requires Success?
    {
      value
    }
  }
}
